=== FILE: README.md ===
# Affirmation app core in Dafny

This project models the logic core of a Japanese affirmation web app. The app shows short positive messages ("affirmations") from a bundled catalogue and from the user's own submissions, and the model covers:

- **The selection engine.** It filters the catalogue by theme (自信, 愛, 成功, 健康), scene (朝, 夜, 仕事), age group and language. It also filters by favourites and by a text search that ignores the case of ASCII letters. On top of that it provides:
  - a random pick;
  - a recommendation for the hour of day;
  - a "daily special" that is memoised per day;
  - a popularity ranking and category statistics;
  - guarded addition and removal of user items;
  - an analysis of what the user liked.
- **The typed stores over the browser store:**
  - user settings, with a shallow partial merge and the first-run heuristic;
  - user activity: favourites, likes, user items, the daily-special memo, and a `lastVisit` stamp refreshed on every write;
  - the version-gated migration;
  - the listener registry.
- **The filter state of the content provider.** This covers the partial merge of filters, search with a history (deduplicated, newest first, at most 10 entries), the choice of list for a random pick, and the refresh of the current affirmation.
- **The filter bar.** This covers the count of active filters, how each change is normalised, the favourites switch, the chips and clear-all.
- **The list view.** This covers sort orders, page slicing and the five-button page window.
- **The add form.** This covers the validation rules and messages, the preview record, the submit gate and the clearing of a field's error on edit.
- **The user provider.** It keeps settings and activity in memory and writes them through to the stores.
- **The colour-mode provider** (light / dark / system).
- **The navigation bar's active-link predicate.**
- **The pure helpers** for strings, arrays, objects and hex colours.

Some things become parameters:

- The browser store is an immutable `Store` value. It can be absent (no `window`) or refuse writes (quota exhausted), and every write returns the new store together with the boolean the source returns.
- Clocks are strings or numbers passed in: the ISO timestamp, the hour and `Date.now()`.
- Each `Math.random()` draw is a `Draw`, a real in [0, 1).
- A pick from a list of length n is `floor(u * n)`.

Errors of the service's "not initialised" guard are a `Result` value.

Modules:

- `Types`: the records and enumerations of the types file.
- `Text`: JavaScript string operations.
- `Seqs`: array operations, plus a stable sort by integer key that stands for `Array.prototype.sort` with a consistent comparator.
- `Utils`, `Storage` and `AffirmationService`: the library files.
- `AffirmationContext`, `FilterBar`, `AffirmationList`, `AddAffirmationForm`, `UserContext`, `ThemeContext` and `Navigation`: the components and providers.

Notes on behaviour the model keeps as the code has it:

- The add form checks the length of the untrimmed text in UTF-16 code units, so one visible character padded with spaces passes (`AddAffirmationForm.PaddedTextPasses`).
- The add page's submit stores nothing. It only shows success.
- The preview record has no `language`.
- The filter bar offers category values that are not in the type enumerations. The engine is modelled over the enumerations.
- The context picks from the filtered list as soon as the filter object has any key, even one holding `undefined`. The filter bar counts such a key as no filter (`FilterBar.UndefinedKeyCountsNothing`).
- The colour-scheme listener of the user provider compares two reads of the settings with `===`. It therefore applies the system scheme only while no settings record is stored (`UserContext.SchemeIgnoredAfterSave`).

## Model

| member | source | states |
|---|---|---|
| Types.RandomIndex | src/lib/affirmationService.ts:114 | `Math.floor(Math.random() * n)` is a valid index below n |
| Text.Trim | src/lib/affirmationService.ts:92 | the result is a contiguous slice of the input with only whitespace cut on both sides, and it neither starts nor ends with whitespace |
| Text.TrimEmptyIffBlank | src/app/add-affirmation/page.tsx:73 | `!s.trim()` holds exactly when the text is all whitespace |
| Text.TrimIdempotent | src/context/AffirmationContext.tsx:250-254 | trimming a trimmed query changes nothing |
| Text.Lower | src/lib/affirmationService.ts:93-97 | lower-casing keeps the length and maps each character on its own, by the ASCII case mapping |
| Text.IncludesIff | src/lib/affirmationService.ts:94-98 | `includes` holds exactly when the needle occurs at some position |
| Text.Utf16Length | src/app/add-affirmation/page.tsx:75-79 | `.length` counts between one and two code units per character |
| Text.NatToString | src/app/add-affirmation/page.tsx:102 | the decimal text of `Date.now()` is non-empty and all digits |
| Seqs.Filter | src/lib/affirmationService.ts:66-99 | `filter` keeps exactly the elements that pass, and nothing else |
| Seqs.FilterIsSubsequence | src/lib/affirmationService.ts:58-102 | a filtered list is an order-preserving subsequence of its input |
| Seqs.FilterFuse | src/lib/affirmationService.ts:66-99 | two successive filters equal one filter by the conjunction |
| Seqs.FilterIdempotent | src/lib/affirmationService.ts:66-99 | filtering twice by the same predicate is filtering once |
| Seqs.Count | src/lib/storage.ts:230-238 | the number of occurrences is zero exactly when the element is absent |
| Seqs.CountAppend | src/context/UserContext.tsx:130-132 | occurrences add up over a concatenation |
| Seqs.RemoveAll | src/lib/storage.ts:243-248 | `filter(id => id !== x)` leaves no x and shortens the list by exactly x's count |
| Seqs.RemoveAllMembers | src/lib/storage.ts:243-248 | an element survives the removal exactly when it was there and is not x |
| Seqs.RemoveAllAbsent | src/lib/storage.ts:243-248 | removing an id that is not there changes nothing |
| Seqs.AppendThenRemove | src/lib/storage.ts:253-262 | appending a fresh id and removing it again restores the list |
| Seqs.RemoveAllAppend | src/lib/storage.ts:243-248 | removal distributes over concatenation |
| Seqs.RelativeIndex | src/components/affirmation/AffirmationList.tsx:86 | a slice bound in range is kept, one past the end is cut to the length, a negative one counts back from the end, and one before the start is 0 |
| Seqs.JsSlice | src/components/affirmation/AffirmationList.tsx:86 | `slice(start, end)` is empty exactly when the resolved bounds cross, and otherwise the entries between them |
| Seqs.JsSliceLaws | src/components/affirmation/AffirmationList.tsx:84-87 | the whole-list slice is the list, adjacent slices join into one, `slice(-k)` is the last k entries, and an end past the length acts as the length |
| Seqs.LeadingSlice | src/lib/affirmationService.ts:238 | `slice(0, limit)` is the first `limit` entries, or the whole list when it is shorter |
| Seqs.Insert | src/lib/affirmationService.ts:237 | inserting into a sorted list keeps it sorted and adds exactly one element |
| Seqs.SortBy | src/lib/affirmationService.ts:237 | a sort by key yields an ordered permutation of the input |
| Seqs.FilterSorted | src/lib/affirmationService.ts:236-238 | a filtered sorted list stays sorted |
| Seqs.SortStable | src/components/affirmation/AffirmationList.tsx:57-80 | the sort is stable: elements with equal keys keep their relative order |
| Utils.Truncate | src/lib/utils.ts:103-106 | as written: a short text is kept; for a limit at least the suffix length the result has exactly the limit's length and ends with the suffix |
| Utils.TruncateCanGrow | src/lib/utils.ts:103-106 | with a limit below the suffix length the result is longer than the input (finding 4) |
| Utils.TruncateClamped | src/lib/utils.ts:103-106 | with the cut point clamped at zero: a short text is kept; a long one becomes a prefix of the text followed by the suffix, exactly as long as the larger of the limit and the suffix |
| Utils.TruncateClampedBounded | src/lib/utils.ts:103-106 | the clamped result never exceeds the larger of the limit and the suffix length |
| Utils.SkipSeparators | src/lib/utils.ts:125-130 | skipping separators leaves a suffix that is empty or starts at a word character |
| Utils.SkipKeepsWordChars | src/lib/utils.ts:125-130 | skipping separators drops no word character |
| Utils.CollapseSeparators | src/lib/utils.ts:128 | the result holds only word characters and dashes, never two dashes in a row, starts with a dash only when the input starts with a separator, and keeps the word characters in order |
| Utils.SkipTo | src/lib/utils.ts:128 | skipping separators stops exactly at the first word character |
| Utils.CollapseWord | src/lib/utils.ts:128 | word characters are copied through the collapse unchanged |
| Utils.CollapseRun | src/lib/utils.ts:128 | a maximal run of separators becomes exactly one dash |
| Utils.CollapseWordRun | src/lib/utils.ts:128 | a word, a separator run and the rest collapse to the word, one dash and the collapsed rest |
| Utils.ToKebabCase | src/lib/utils.ts:125-130 | the result is well-formed kebab case with the same word characters as the lower-cased input |
| Utils.KebabJoinsWords | src/lib/utils.ts:125-130 | two lower-case words joined by any separator run come out joined by one dash |
| Utils.KebabFixpoint | src/lib/utils.ts:125-130 | kebab-casing a kebab-case string returns it unchanged |
| Utils.Capitalize | src/lib/utils.ts:135-137 | the first character is upper-cased and the rest kept |
| Seqs.FirstIndex | src/lib/utils.ts:159-161 | the first position of an element, or the length when it is absent |
| Utils.DedupElements | src/lib/utils.ts:159-161 | the deduplicated list has exactly the input's elements |
| Utils.DedupNoDuplicates | src/lib/utils.ts:159-161 | the deduplicated list has no repeats |
| Utils.DedupOrder | src/lib/utils.ts:159-161 | elements appear in the order of their first occurrence |
| Utils.Unique | src/lib/utils.ts:159-161 | `[...new Set(array)]` has no repeats, the same elements, in first-occurrence order |
| Utils.Chunk | src/lib/utils.ts:166-172 | the chunks concatenate back to the input; all but the last are full, the last is non-empty; there are none only for an empty input |
| Utils.FlattenAppend | src/lib/utils.ts:166-172 | flattening distributes over appending a chunk |
| Utils.Shuffle | src/lib/utils.ts:147-154 | the Fisher-Yates shuffle returns a permutation of the input |
| Utils.RandomElement | src/lib/utils.ts:177-180 | a random element is absent exactly for an empty array, otherwise a member |
| Utils.Pick | src/lib/utils.ts:190-198 | exactly the listed keys the object has, with their values |
| Utils.Omit | src/lib/utils.ts:203-209 | exactly the keys not listed, with their values |
| Utils.PickOmitPartition | src/lib/utils.ts:190-209 | pick and omit by the same keys split the object into two disjoint halves that recombine to it |
| Utils.DeepMerge | src/lib/utils.ts:214-226 | the keys are the union; target values survive where the source has no key; non-object source values win; under a nested plain object the value is the deep merge of the target's entry (or `{}`) with it |
| Utils.DeepMergeNested | src/lib/utils.ts:218-219 | under a nested object the source's non-object values win and the target's other entries survive |
| Utils.DeepMergeLeaf | src/lib/utils.ts:214-226 | every non-object value of the source, at any depth, appears at the same path in the result |
| Utils.DeepMergeEmpty | src/lib/utils.ts:214-226 | merging an empty source is the identity |
| Utils.DeepMergeFlat | src/lib/utils.ts:214-226 | without nested objects, a deep merge is a shallow override |
| Utils.DeepMergeIdempotent | src/lib/utils.ts:214-226 | merging the same source twice is merging it once |
| Utils.HexValue | src/lib/utils.ts:236-241 | a hex digit has a value below 16 |
| Utils.PairValue | src/lib/utils.ts:236-241 | two hex digits make a byte |
| Utils.ParseHex | src/lib/utils.ts:236-241 | parsing succeeds exactly on a well-formed colour, and each channel is a byte |
| Utils.HexToRgba | src/lib/utils.ts:236-241 | an rgba text is produced exactly for a well-formed colour |
| Utils.HexToRgbaOfBytes | src/lib/utils.ts:236-241 | the `#rrggbb` spelling of three bytes gives `rgba(r, g, b, alpha)` with the bytes in decimal |
| Utils.IsDark | src/lib/utils.ts:246-257 | only a well-formed colour can be dark |
| Utils.IsDarkIsYiq | src/lib/utils.ts:246-257 | darkness is the integer YIQ brightness below 128 |
| Utils.HexDigitChar | src/lib/utils.ts:236-241 | the digit character of a value parses back to that value |
| Utils.ByteHex | src/lib/utils.ts:236-241 | a byte's two-digit text parses back to the byte |
| Utils.HexRoundTrip | src/lib/utils.ts:236-241 | printing three bytes as `#rrggbb` and parsing gives the bytes back |
| Storage.Get | src/lib/storage.ts:38-54 | the default without `window` or without the key or on a parse failure, otherwise the stored value |
| Storage.Set | src/lib/storage.ts:59-71 | succeeds exactly when the store is present and writable, stores the value under the key and leaves other keys alone; a failed write changes nothing |
| Storage.Remove | src/lib/storage.ts:76-88 | removes just the key; fails without `window` |
| Storage.ClearAppData | src/lib/storage.ts:93-107 | removes every application key and keeps every other entry |
| Storage.ClearKeepsMigrationVersion | src/lib/storage.ts:4-10 | the migration version is not an application key, so clearing keeps it |
| Storage.SetSettings | src/lib/storage.ts:145-147 | a successful write is read back unchanged |
| Storage.MergeSettings | src/lib/storage.ts:152-159 | a shallow merge: every given field replaces, every missing field keeps, and unknown keys survive |
| Storage.MergeSettingsLaws | src/lib/storage.ts:152-159 | an empty patch is the identity, and a patch is idempotent |
| Storage.UpdateSettings | src/lib/storage.ts:152-159 | the stored settings become the merge over the stored ones |
| Storage.UpdateAge | src/lib/storage.ts:164-166 | only the age changes |
| Storage.UpdateTheme | src/lib/storage.ts:171-177 | the design theme changes, and the colour theme changes only when one is given |
| Storage.ToggleDarkMode | src/lib/storage.ts:182-185 | only `isDarkMode` flips |
| Storage.ToggleDarkModeTwice | src/lib/storage.ts:182-185 | two toggles restore the settings |
| Storage.FirstTimeWithoutSettings | src/lib/storage.ts:190-195 | a store without settings is a first run |
| Storage.FirstTimeAfterUpdateAge | src/lib/storage.ts:164-166 | choosing 30代 on a fresh store still reads as a first run; any other age ends it |
| Storage.SetActivity | src/lib/storage.ts:210-212 | a successful write is read back, and the settings are untouched |
| Storage.MergeActivity | src/lib/storage.ts:217-225 | given fields replace, missing fields keep, and `lastVisit` is always `now` |
| Storage.UpdateActivity | src/lib/storage.ts:217-225 | the stored activity becomes the merge, stamped with `now` |
| Storage.AddFavorite | src/lib/storage.ts:230-238 | no write and `true` when already a favourite; otherwise the id is appended once |
| Storage.CountAppendFresh | src/lib/storage.ts:230-238 | appending a fresh id gives exactly one occurrence |
| Storage.AddFavoriteIdempotent | src/lib/storage.ts:230-238 | adding the same favourite again writes nothing |
| Storage.RemoveFavorite | src/lib/storage.ts:243-248 | on a writable store the stored activity is the old one with every occurrence of the id removed from the favourites and `lastVisit` set to `now`; a failed write changes nothing |
| Storage.ToggleIn | src/lib/storage.ts:253-262 | the id's membership flips and every other id's is kept |
| Storage.ToggleInTwice | src/lib/storage.ts:253-262 | toggling an absent id twice restores the list |
| Storage.ToggleLike | src/lib/storage.ts:253-262 | on a writable store the stored activity is the old one with the likes toggled and `lastVisit` set to `now`; a failed write changes nothing |
| Storage.ToggleLikeTwice | src/lib/storage.ts:253-262 | two toggles of an unliked id restore the stored likes |
| Storage.AddUserAffirmation | src/lib/storage.ts:267-272 | on a writable store the item is appended to the stored list and `lastVisit` set to `now`, nothing else changes; a failed write changes nothing |
| Storage.RemoveUserAffirmation | src/lib/storage.ts:277-282 | on a writable store every item with the id leaves, the rest stay in order, and `lastVisit` is set to `now`; a failed write changes nothing |
| Storage.AddThenRemoveUserAffirmation | src/lib/storage.ts:267-282 | adding an item with a fresh id and removing it restores the list |
| Storage.FilterAppendDropped | src/lib/storage.ts:277-282 | filtering out an appended item drops just it |
| Storage.IsoDate | src/lib/storage.ts:287-295 | `split('T')[0]` is the longest prefix without a 'T' |
| Storage.SetDailySpecialMessage | src/lib/storage.ts:287-295 | on a writable store the memo records today's date and the id, and `lastVisit` is set to `now`; a failed write changes nothing |
| Storage.GetTodaySpecialMessage | src/lib/storage.ts:300-309 | the id is returned exactly while a memo dated today is stored |
| Storage.DailySpecialSameDay | src/lib/storage.ts:287-309 | the memo is read back on the same date |
| Storage.DailySpecialOtherDay | src/lib/storage.ts:287-309 | the memo is not returned on another date |
| Storage.Migrate | src/lib/storage.ts:320-341 | writes version 1 only when the stored version is lower, touches no other key, and reports `true` whenever `window` exists |
| Storage.MigrateIdempotent | src/lib/storage.ts:320-341 | a second migration changes nothing |
| Storage.Subscribe | src/lib/storage.ts:367-373 | the callback is appended to the key's list; other keys are kept |
| Storage.RemoveFirst | src/lib/storage.ts:376-381 | `splice(indexOf(cb), 1)` removes the entry at the first index of the callback, or nothing when it is absent |
| Storage.Unsubscribe | src/lib/storage.ts:375-383 | the key's list loses the entry at the callback's first index, or is unchanged when the callback is absent; other keys are kept |
| Storage.Notify | src/lib/storage.ts:389-400 | the key's callbacks are called once each, in list order, over a list that does not change during the walk |
| Storage.CallEach | src/lib/storage.ts:393-399 | `forEach` makes one call per entry, from the first to the last |
| Storage.SubscribeUnsubscribe | src/lib/storage.ts:367-400 | a new subscriber is notified last, and unsubscribing restores the list |
| Storage.RemoveFirstAppended | src/lib/storage.ts:376-381 | removing a freshly appended callback restores the list |
| AffirmationService.Initialize | src/lib/affirmationService.ts:12-33 | the catalogue is the bundled list followed by the stored user items; a second call does nothing |
| AffirmationService.InitializeIdempotent | src/lib/affirmationService.ts:13-15 | initialising twice is initialising once |
| AffirmationService.GetAll | src/lib/affirmationService.ts:38-43 | the catalogue, or the not-initialised error |
| AffirmationService.FindIndex | src/lib/affirmationService.ts:52 | the first position carrying the id |
| AffirmationService.FindById | src/lib/affirmationService.ts:52 | `find` returns the first catalogue item with the id, or null when none has it |
| AffirmationService.GetById | src/lib/affirmationService.ts:48-53 | the lookup, guarded by initialisation |
| AffirmationService.FindByIdOfMember | src/lib/affirmationService.ts:48-53 | with unique ids, looking up a member's id returns that member |
| AffirmationService.ThemeStep | src/lib/affirmationService.ts:66-68 | the theme step is a filter by the theme predicate |
| AffirmationService.SceneStep | src/lib/affirmationService.ts:71-73 | the scene step is a filter by the scene predicate |
| AffirmationService.AgeStep | src/lib/affirmationService.ts:76-78 | the age step is a filter by the age predicate |
| AffirmationService.LanguageStep | src/lib/affirmationService.ts:81-83 | the language step is a filter by the language predicate |
| AffirmationService.FavoritesStep | src/lib/affirmationService.ts:86-89 | the favourites step is a filter by favourite membership |
| AffirmationService.QueryStep | src/lib/affirmationService.ts:92-99 | the search step is a filter by the match that ignores ASCII case, and a blank query imposes nothing |
| AffirmationService.CategoryPassesAreOneFilter | src/lib/affirmationService.ts:66-89 | the five category steps in sequence equal one filter by their conjunction |
| AffirmationService.PassesAreOneFilter | src/lib/affirmationService.ts:58-102 | the six steps in sequence equal one filter by the conjunction of all predicates |
| AffirmationService.GetFiltered | src/lib/affirmationService.ts:58-102 | an item is kept exactly when it matches every set predicate; `hasEnglish` and `onlyUserGenerated` are ignored |
| AffirmationService.GetFilteredIsSubsequence | src/lib/affirmationService.ts:58-102 | the result is an order-preserving subsequence of the catalogue |
| AffirmationService.BlankQueryImposesNothing | src/lib/affirmationService.ts:92 | a blank query filters nothing, and no filters return the whole catalogue |
| AffirmationService.Search | src/lib/affirmationService.ts:212-218 | the search is the filter with the query added to the other filters |
| AffirmationService.SearchBlank | src/lib/affirmationService.ts:212-218 | a blank search is the filter without a query |
| AffirmationService.Candidates | src/lib/affirmationService.ts:107-109 | without filters the whole catalogue; with filters exactly the catalogue items matching them; the not-initialised error before initialisation |
| AffirmationService.GetRandom | src/lib/affirmationService.ts:107-116 | null exactly for no candidates; otherwise a candidate matching the filters |
| AffirmationService.SceneForHour | src/lib/affirmationService.ts:127-136 | 6–11 is morning, 12–17 is work, 18–23 is night, and any other hour is morning |
| AffirmationService.GetRecommended | src/lib/affirmationService.ts:121-145 | a pick matches the hour's scene and the stored age and language, and the result is null exactly when no catalogue item does |
| AffirmationService.RecommendedNoneIff | src/lib/affirmationService.ts:121-145 | the recommendation's candidate list is empty exactly when no catalogue item has the hour's scene and the stored age and language |
| AffirmationService.ThemeCount | src/lib/affirmationService.ts:175-177 | a count of liked items per theme is at most the number liked |
| AffirmationService.ThemeIndex | src/lib/affirmationService.ts:168-173 | each theme has its position in the key order |
| AffirmationService.MaxFoldSpec | src/lib/affirmationService.ts:180-183 | the strict-`>` fold returns a maximal theme, the first one among ties |
| AffirmationService.MostLikedTheme | src/lib/affirmationService.ts:162-183 | the most-liked theme has the largest count, and every theme before it has a smaller one |
| AffirmationService.MostLikedThemeSpec | src/lib/affirmationService.ts:180-183 | the fold from (自信, 0) over the key order computes that theme |
| AffirmationService.LikedItems | src/lib/affirmationService.ts:162-164 | the liked items are catalogue items, at most one per like |
| AffirmationService.Resolve | src/lib/affirmationService.ts:163 | one like resolves to the catalogue item with its id, or to nothing when none has it |
| AffirmationService.LikedItemsMembers | src/lib/affirmationService.ts:162-164 | each liked item is named by some like, and each like naming a catalogue item contributes that item |
| AffirmationService.LikedItemsAllKnown | src/lib/affirmationService.ts:162-164 | when every like names a catalogue item, the liked items are those items, one per like, in like order |
| AffirmationService.LikedItemsAppend | src/lib/affirmationService.ts:162-164 | the likes of two lists resolve to the first list's items followed by the second's |
| AffirmationService.GetDailySpecial | src/lib/affirmationService.ts:150-207 | a memo for today is returned as is; otherwise the result is the draw from the most liked theme when it finds an item and the recommendation otherwise, and a found item is memoised |
| AffirmationService.ChooseSpecial | src/lib/affirmationService.ts:158-207 | without a memo: the draw from the most liked theme when it finds an item, the recommendation otherwise; a chosen item is memoised for today, and an empty choice leaves the store untouched |
| AffirmationService.SpecialDraw | src/lib/affirmationService.ts:158-192 | empty exactly when nothing is liked or no item matches the most liked theme with the user's age group and language; otherwise such a catalogue item |
| AffirmationService.DailySpecialMemoised | src/lib/affirmationService.ts:150-207 | a second call on the same day returns the same item |
| AffirmationService.MemoisedItemReturned | src/lib/affirmationService.ts:150-156 | an item of the catalogue memoised today is returned for the rest of that day, whatever the hour and the draw, and the store is left unchanged |
| AffirmationService.GetPopular | src/lib/affirmationService.ts:223-240 | the popularity ranking of the stored likes, guarded by initialisation |
| AffirmationService.PopularOf | src/lib/affirmationService.ts:228-239 | `min(limit, n)` items taken from the catalogue without adding repeats, most liked first, and no item left out is liked more often than any item taken |
| AffirmationService.PopularTopK | src/lib/affirmationService.ts:237-238 | a prefix of the sorted catalogue is a sub-multiset of it, and every item it leaves out is liked at most as often as every item it takes |
| AffirmationService.PopularTiesKeepCatalogOrder | src/lib/affirmationService.ts:236-238 | items with equal like counts keep catalogue order |
| AffirmationService.PopularIsPermutationWhenUnlimited | src/lib/affirmationService.ts:223-240 | with a large limit the ranking is a permutation of the catalogue |
| AffirmationService.CountBy | src/lib/affirmationService.ts:260-265 | a per-key count is at most the list's length |
| AffirmationService.SumOverCons | src/lib/affirmationService.ts:260-265 | adding an item adds one to its own key's count |
| AffirmationService.SumOverPartition | src/lib/affirmationService.ts:260-265 | when every key appears once, the counts add up to the number of items |
| AffirmationService.SumOverEmpty | src/lib/affirmationService.ts:260-265 | an empty list has zero counts |
| AffirmationService.ThemesListEachOnce | src/lib/affirmationService.ts:254 | each theme has one counter |
| AffirmationService.ScenesListEachOnce | src/lib/affirmationService.ts:255 | each scene has one counter |
| AffirmationService.AgeGroupsListEachOnce | src/lib/affirmationService.ts:256 | each age group has one counter |
| AffirmationService.LanguagesListEachOnce | src/lib/affirmationService.ts:257 | each language has one counter |
| AffirmationService.EnumerationsListEachValueOnce | src/lib/affirmationService.ts:253-258 | every enumeration value has exactly one counter |
| AffirmationService.ThemeTally | src/lib/affirmationService.ts:260-265 | each theme's entry is its count, and the entries add up to the catalogue size |
| AffirmationService.SceneTally | src/lib/affirmationService.ts:260-265 | each scene's entry is its count, and the entries add up to the catalogue size |
| AffirmationService.AgeTally | src/lib/affirmationService.ts:260-265 | each age group's entry is its count, and the entries add up to the catalogue size |
| AffirmationService.LanguageTally | src/lib/affirmationService.ts:260-265 | each language's entry is its count, and the entries add up to the catalogue size |
| AffirmationService.ThemePartition | src/lib/affirmationService.ts:260-265 | every item is counted under exactly one theme, so the four counts add up to the item count |
| AffirmationService.ScenePartition | src/lib/affirmationService.ts:260-265 | every item is counted under exactly one scene, so the three counts add up to the item count |
| AffirmationService.AgePartition | src/lib/affirmationService.ts:260-265 | every item is counted under exactly one age group, so the five counts add up to the item count |
| AffirmationService.LanguagePartition | src/lib/affirmationService.ts:260-265 | every item is counted under exactly one language, so the two counts add up to the item count |
| AffirmationService.GetCategoryStats | src/lib/affirmationService.ts:245-268 | all four tallies have every key, each entry is the number of catalogue items with that value, and each tally sums to the catalogue size |
| AffirmationService.ThemeCountIsCountBy | src/lib/affirmationService.ts:260-265 | the theme count is the generic per-key count |
| AffirmationService.UserItemId | src/lib/affirmationService.ts:277 | a new user item's id starts with `user_`; the user provider builds its ids the same way (src/context/UserContext.tsx:125) |
| AffirmationService.AddUserAffirmation | src/lib/affirmationService.ts:273-294 | exactly one item is appended, with an id starting with `user_`, the given time, the user-generated mark and every submitted field copied, and it is stored |
| AffirmationService.RemoveUserAffirmation | src/lib/affirmationService.ts:299-319 | only an existing user item can be removed; all items with its id leave, and otherwise nothing changes |
| AffirmationService.AddThenRemove | src/lib/affirmationService.ts:273-319 | adding an item with a fresh id and removing that id restores the catalogue |
| AffirmationService.DropAppended | src/lib/affirmationService.ts:299-319 | an item appended under a new id is found by it, and dropping that id gives the earlier items back |
| AffirmationService.ToggleFavorite | src/lib/affirmationService.ts:349-358 | the id's favourite membership flips |
| AffirmationService.ToggleFavoriteTwice | src/lib/affirmationService.ts:349-358 | two toggles of a non-favourite restore the stored favourites |
| AffirmationService.Rank | src/lib/affirmationService.ts:391-399 | the ranked keys are exactly those with a positive count, in descending count order, without repeats when the keys have none, and keys with equal counts in key order |
| AffirmationService.RankKeepsTies | src/lib/affirmationService.ts:391-399 | the stable sort and the zero-count filter keep keys with equal counts in key order |
| AffirmationService.RankNoDuplicates | src/lib/affirmationService.ts:391-399 | sorting and filtering distinct keys keeps them distinct |
| AffirmationService.RankMembers | src/lib/affirmationService.ts:391-399 | filtering a permutation of the keys by positive count keeps exactly those keys |
| AffirmationService.EnumerationsCovered | src/lib/affirmationService.ts:383-384 | the key lists cover every theme and scene |
| AffirmationService.RankThemes | src/lib/affirmationService.ts:391-394 | each theme liked at least once appears exactly once, most liked first, ties in the order 自信, 愛, 成功, 健康 |
| AffirmationService.RankScenes | src/lib/affirmationService.ts:396-399 | each scene liked at least once appears exactly once, most liked first, ties in the order 朝, 夜, 仕事 |
| AffirmationService.RankComplete | src/lib/affirmationService.ts:391-399 | ranking over a complete key list states membership and order in terms of the count |
| AffirmationService.AnalyzeUserPreferences | src/lib/affirmationService.ts:370-408 | the ranked themes and scenes of the liked items, each listed once, with the like and favourite totals; it fails only when it has likes to look up and no catalogue |
| AffirmationContext.SetFilters | src/context/AffirmationContext.tsx:103-108 | `{ ...prev, ...patch }`: every key of the patch replaces, and every other key is kept |
| AffirmationContext.SetFiltersCompose | src/context/AffirmationContext.tsx:103-108 | merges compose associatively, and a patch is idempotent |
| AffirmationContext.ClearFiltersAsWritten | src/context/AffirmationContext.tsx:211-213 | as written, `setFilters({})` returns the filters unchanged (finding 3) |
| AffirmationContext.ClearFiltersKeepsTheme | src/context/AffirmationContext.tsx:211-213 | a theme filter survives the clear |
| AffirmationContext.ClearFilters | src/context/AffirmationContext.tsx:211-213 | the corrected clear leaves no filter key |
| AffirmationContext.ClearedFiltersKeepEverything | src/context/AffirmationContext.tsx:211-213 | after the corrected clear, filtering returns the whole catalogue |
| AffirmationContext.SearchAffirmations | src/context/AffirmationContext.tsx:111-117 | only the query changes, and it becomes the trimmed text |
| AffirmationContext.SearchIgnoresSurroundingSpace | src/context/AffirmationContext.tsx:111-117 | surrounding whitespace does not matter |
| AffirmationContext.ClearSearch | src/context/AffirmationContext.tsx:260-262 | the query becomes empty, and the rest is kept |
| AffirmationContext.ClearSearchImposesNothing | src/context/AffirmationContext.tsx:260-262 | an empty query filters as no query |
| AffirmationContext.PushHistory | src/context/AffirmationContext.tsx:248-258 | the trimmed query comes first, followed by the older entries without it, capped at 10; a blank query changes nothing |
| AffirmationContext.ConsSlice | src/context/AffirmationContext.tsx:254 | the first ten entries of `[t, ...rest]` are `t` followed by the start of `rest` |
| AffirmationContext.PushHistoryInvariant | src/context/AffirmationContext.tsx:248-258 | the history stays free of duplicates and at most 10 long, and it holds the query once |
| AffirmationContext.FreshFront | src/context/AffirmationContext.tsx:254 | the query in front of the older entries without it is duplicate-free and holds the query once |
| AffirmationContext.PrefixNoDuplicates | src/context/AffirmationContext.tsx:255 | a prefix of a duplicate-free list is duplicate-free |
| AffirmationContext.ConsFresh | src/context/AffirmationContext.tsx:254 | putting a fresh entry first keeps the list duplicate-free |
| Seqs.FilterNoDuplicates | src/context/AffirmationContext.tsx:254 | filtering keeps a list duplicate-free |
| Seqs.NoDuplicatesSubMultiset | src/lib/affirmationService.ts:237-238 | taking entries of a duplicate-free list, each at most as often as it occurs, gives a duplicate-free list |
| Seqs.WithKeyAfterFilter | src/lib/affirmationService.ts:391-399 | dropping entries the filter rejects leaves the entries of a kept key in place |
| AffirmationContext.PushHistoryRepeat | src/context/AffirmationContext.tsx:248-258 | repeating the latest search leaves the history as it is |
| Seqs.FilterAppend | src/context/AffirmationContext.tsx:254 | filtering distributes over concatenation |
| AffirmationContext.Search | src/context/AffirmationContext.tsx:248-258 | a blank query does nothing; otherwise the query is set and put first in the history |
| AffirmationContext.ApplyFilters | src/context/AffirmationContext.tsx:58-68 | after a filter change the filtered list is the service's answer; only that list changes |
| AffirmationContext.GetRandomAffirmation | src/context/AffirmationContext.tsx:71-88 | none exactly when not initialised or the chosen list is empty; otherwise a member of that list |
| AffirmationContext.RandomAgreesWithService | src/context/AffirmationContext.tsx:71-88 | the context's pick is the service's pick, with the filters passed exactly when the object has a key |
| AffirmationContext.RefreshCurrent | src/context/AffirmationContext.tsx:120-146 | a personalised filtered pick wins when filters are set and it is non-empty; without filters, or with an empty personalised list, the pick is the recommendation; the pick matches the user's age and language |
| FilterBar.ActiveFiltersCount | src/components/affirmation/FilterBar.tsx:68-70 | counts the values other than `undefined`, `''` and `false`: at most 8, and zero exactly when no field holds one |
| FilterBar.UndefinedKeyCountsNothing | src/components/affirmation/FilterBar.tsx:68-70 | a key holding `undefined` is not counted, yet it is a key |
| FilterBar.Choice | src/components/affirmation/FilterBar.tsx:79-81 | `value \|\| undefined` for a select is a key, holding the value exactly when one is chosen |
| FilterBar.Flag | src/components/affirmation/FilterBar.tsx:79-81 | `value \|\| undefined` for a check box is never `false` |
| FilterBar.HandleFilterChange | src/components/affirmation/FilterBar.tsx:79-81 | each change is a one-key patch carrying the chosen value, with an empty choice and `false` normalised to `undefined` |
| FilterBar.ChangeKeepsNormalised | src/components/affirmation/FilterBar.tsx:79-81 | the bar's changes never store `false` |
| FilterBar.ToggleFavoritesOnly | src/components/affirmation/FilterBar.tsx:90-92 | switching on stores `true`; switching off stores `undefined` |
| FilterBar.ToggleFavoritesTwice | src/components/affirmation/FilterBar.tsx:90-92 | two toggles restore whether the switch is on, and touch nothing else |
| FilterBar.RemoveChip | src/components/affirmation/FilterBar.tsx:272-308 | each chip's button sets exactly its key to `undefined` |
| FilterBar.RemoveChipLowersCount | src/components/affirmation/FilterBar.tsx:265-315 | removing a shown chip hides it, lowers the count by one and keeps the other chips |
| FilterBar.HandleClearAllAsWritten | src/components/affirmation/FilterBar.tsx:84-87 | as written, clear-all empties the search box and keeps the filters (finding 3) |
| FilterBar.ClearAllKeepsCount | src/components/affirmation/FilterBar.tsx:84-87 | the active count is the same after clear-all |
| FilterBar.HandleClearAll | src/components/affirmation/FilterBar.tsx:84-87 | the corrected clear-all leaves no filter and a zero count |
| AffirmationList.Sorted | src/components/affirmation/AffirmationList.tsx:57-80 | newest first, oldest first, or longest id first, as a permutation of the items |
| AffirmationList.SortedKeepsTies | src/components/affirmation/AffirmationList.tsx:57-80 | equal keys keep their original order |
| AffirmationList.TotalPages | src/components/affirmation/AffirmationList.tsx:83 | the ceiling: zero only for no items, and the last page is non-empty |
| AffirmationList.Page | src/components/affirmation/AffirmationList.tsx:84-87 | a page is the slice at its offset, at most one page long, and empty beyond the end |
| AffirmationList.PagesFromCover | src/components/affirmation/AffirmationList.tsx:83-87 | the pages from a given one on cover the rest of the list in order |
| AffirmationList.PageSpan | src/components/affirmation/AffirmationList.tsx:84-87 | where a page starts and stops, and that the next page starts at its end |
| AffirmationList.PageBounds | src/components/affirmation/AffirmationList.tsx:83 | where each page starts relative to the list's end |
| AffirmationList.PagesPartition | src/components/affirmation/AffirmationList.tsx:83-87 | pages 1 to `totalPages` partition the sorted list |
| AffirmationList.PageWindow | src/components/affirmation/AffirmationList.tsx:253-264 | up to five consecutive valid page numbers that include the current page, centred on it away from the ends |
| AffirmationList.ChangeSort | src/components/affirmation/AffirmationList.tsx:97-100 | a sort change goes back to page 1 |
| AffirmationList.ChangeViewMode | src/components/affirmation/AffirmationList.tsx:102-106 | a view change goes back to page 1 |
| AffirmationList.SortChangeShowsHead | src/components/affirmation/AffirmationList.tsx:84-100 | after a sort change the head of the new order is shown |
| AffirmationList.ChangeItemsAsWritten | src/components/affirmation/AffirmationList.tsx:54 | as written, new items keep the page number (finding 5) |
| AffirmationList.StalePageIsEmpty | src/components/affirmation/AffirmationList.tsx:84-87 | a stale page 3 of a 5-item list is empty while the pager is hidden |
| AffirmationList.ChangeItems | src/components/affirmation/AffirmationList.tsx:54 | the corrected page is clamped into range and unchanged when already valid |
| AffirmationList.ChangedItemsPageNonEmpty | src/components/affirmation/AffirmationList.tsx:84-87 | the corrected page of a non-empty list is never empty |
| AddAffirmationForm.TextErrorRules | src/app/add-affirmation/page.tsx:73-79 | no text error exactly when the trimmed text is non-empty and the raw length is 10–200; otherwise the first failing rule's message |
| AddAffirmationForm.Validate | src/app/add-affirmation/page.tsx:70-95 | one entry per failing field with its message: text by the rules, theme, scene and age group when empty, nothing else |
| AddAffirmationForm.ValidIff | src/app/add-affirmation/page.tsx:93-94 | the form is valid exactly when the text rules pass and all three categories are chosen |
| AddAffirmationForm.Spaces | src/app/add-affirmation/page.tsx:73-79 | n spaces |
| AddAffirmationForm.PaddedTextPasses | src/app/add-affirmation/page.tsx:73-79 | one visible character padded with spaces passes although its trimmed text is one character |
| AddAffirmationForm.TrimPadded | src/app/add-affirmation/page.tsx:73-79 | trimming a visible character followed by spaces keeps only that character |
| AddAffirmationForm.NarrowLength | src/app/add-affirmation/page.tsx:75-79 | characters of the basic plane count one code unit each |
| AddAffirmationForm.OptionalText | src/app/add-affirmation/page.tsx:104-106 | `trim() \|\| undefined` is absent exactly for blank text |
| AddAffirmationForm.CreatePreview | src/app/add-affirmation/page.tsx:98-119 | an invalid form only records errors; a valid one shows a preview with the trimmed fields, the default source, the chosen categories and a `user-` id |
| AddAffirmationForm.Submit | src/app/add-affirmation/page.tsx:122-133 | the same gate; success is reported only for a valid form, and nothing is stored |
| AddAffirmationForm.ResetAfterSubmit | src/app/add-affirmation/page.tsx:135-147 | the reset empties the form, the preview and the flags |
| AddAffirmationForm.HandleInputChange | src/app/add-affirmation/page.tsx:158-170 | the field takes the value, and its non-empty error becomes empty while the key stays |
| AddAffirmationForm.EditTouchesOneField | src/app/add-affirmation/page.tsx:159-162 | an edit changes only the edited field |
| UserContext.Initialize | src/context/UserContext.tsx:18-45 | after migration both records are read from the store, and the provider is initialised whatever the migration reported |
| UserContext.UpdateSettings | src/context/UserContext.tsx:65-80 | the patch merges over the settings in memory and is written whole; the `dark` class follows a given `isDarkMode` |
| UserContext.UpdateSettingsKeepsSynced | src/context/UserContext.tsx:65-80 | on a writable store, memory and store stay in agreement |
| UserContext.SystemSchemeChange | src/context/UserContext.tsx:48-62 | the system scheme is applied only when two reads of the settings are the same object |
| UserContext.SchemeIgnoredAfterSave | src/context/UserContext.tsx:54-57 | once settings are stored, the listener changes nothing |
| UserContext.UpdateActivity | src/context/UserContext.tsx:83-92 | the merge over memory, stamped with `now`, is written whole |
| UserContext.AddFavorite | src/context/UserContext.tsx:95-101 | a no-op for a present id; otherwise the id is appended |
| UserContext.AddFavoriteKeepsSynced | src/context/UserContext.tsx:95-101 | the store's second add writes nothing, so memory and store agree |
| UserContext.RemoveFavorite | src/context/UserContext.tsx:104-108 | every occurrence leaves memory and store |
| UserContext.RemoveFavoriteKeepsSynced | src/context/UserContext.tsx:104-108 | the second removal finds nothing, so memory and store agree |
| UserContext.ToggleLikeAsWritten | src/context/UserContext.tsx:111-119 | as written, memory holds the toggled likes and the store holds them toggled twice (finding 1) |
| UserContext.ToggleLikeAsWrittenLosesLike | src/context/UserContext.tsx:111-119 | liking an unliked item leaves the store without the like |
| UserContext.ToggleLike | src/context/UserContext.tsx:111-119 | the corrected toggle flips the id's membership once |
| UserContext.ToggleLikeKeepsSynced | src/context/UserContext.tsx:111-119 | memory and store agree, and the store holds what one toggle writes |
| UserContext.NewAffirmation | src/context/UserContext.tsx:123-128 | the submitted fields plus an id `user_<time>_<suffix>`, the time and the user-generated mark |
| UserContext.AddUserAffirmationAsWritten | src/context/UserContext.tsx:122-133 | as written, memory gains the item once and the store twice (finding 2) |
| UserContext.AddUserAffirmationAsWrittenDuplicates | src/context/UserContext.tsx:130-132 | the store holds one more copy than memory |
| UserContext.AddUserAffirmation | src/context/UserContext.tsx:122-133 | the corrected addition appends exactly one item |
| UserContext.AddUserAffirmationKeepsSynced | src/context/UserContext.tsx:122-133 | memory and store agree, and the item is stored once more than before |
| ThemeContext.ValidateStored | src/context/ThemeContext.tsx:43-50 | one of the three names gives its mode; anything else gives system |
| ThemeContext.StoredModeRoundTrip | src/context/ThemeContext.tsx:43-74 | a stored mode is read back as itself |
| ThemeContext.EffectiveDark | src/context/ThemeContext.tsx:62-70 | dark for dark, light for light, the system preference for system |
| ThemeContext.ApplyMode | src/context/ThemeContext.tsx:53-74 | the shown darkness and the class follow the mode, and its name is stored |
| ThemeContext.Start | src/context/ThemeContext.tsx:43-74 | the stored mode is adopted and shown |
| ThemeContext.SetMode | src/context/ThemeContext.tsx:62-78 | the new mode is shown and stored |
| ThemeContext.Toggled | src/context/ThemeContext.tsx:82-87 | dark to light, light to dark, system to the opposite of what is shown |
| ThemeContext.ToggleDarkMode | src/context/ThemeContext.tsx:80-88 | the toggled mode is shown |
| ThemeContext.ToggleInvertsDarkness | src/context/ThemeContext.tsx:80-88 | the switch always inverts what is shown |
| ThemeContext.ToggleTwice | src/context/ThemeContext.tsx:82-88 | from light or dark, two toggles restore the mode |
| ThemeContext.ToggleTwiceLeavesSystem | src/context/ThemeContext.tsx:82-88 | from system, two toggles give a fixed mode showing the same darkness |
| ThemeContext.SystemSchemeChange | src/context/ThemeContext.tsx:29-40 | a scheme change is followed only in system mode |
| ThemeContext.SchemeChangeKeepsDarkness | src/context/ThemeContext.tsx:29-40 | what is shown stays equal to the mode's darkness |
| Navigation.NavigationItemsDistinct | src/components/layout/Navigation.tsx:32-58 | the links are distinct, and no non-home link is a prefix of another |
| Navigation.AtMostOneActiveIn | src/components/layout/Navigation.tsx:67-72 | for such links, no path activates two of them |
| Navigation.AtMostOneActive | src/components/layout/Navigation.tsx:32-72 | no path activates two navigation items |
| Navigation.OwnPathActive | src/components/layout/Navigation.tsx:67-72 | on an item's own path exactly that item is active |
| Navigation.ExtendedPathActive | src/components/layout/Navigation.tsx:71 | any path extending a link's text activates it, e.g. `/favorites-x` |
| Navigation.Highlighted | src/components/layout/Navigation.tsx:178-187 | a tab is highlighted exactly when its key is the active key |
| Navigation.HighlightCount | src/components/layout/Navigation.tsx:178-187 | as many tabs are highlighted as carry the active key |
| Navigation.OneTabHighlighted | src/components/layout/Navigation.tsx:178-187 | with distinct keys, exactly one tab is highlighted when the active key is among them |
| Seqs.CountDistinct | src/components/layout/Navigation.tsx:178-187 | in a duplicate-free list a key occurs at most once |

## Left out

- Rendering, styling, animation and console logging are left out. They are presentation only.
- `StorageService.checkStorageQuota` is left out. It is asynchronous and reads `navigator.storage`.
- The `alphabetical` sort is left out because it relies on ICU collation (`localeCompare`). The `random` sort is left out because its comparator is inconsistent.
- Timers are left out: the simulated save delay, the three-second reset delay, `debounce`, `throttle` and `sleep`. The reset itself is modelled.
- Date formatting and float formatting (`toFixed`, file sizes) are left out.
- The `fetch` of the bundled catalogue is a parameter (`bundled`).
- Invalid dates are not modelled. `new Date(createdAt).getTime()` is a parameter (`timeOf`).
- `AffirmationService.reinitialize`, `debug`, `UserService.needsInitialSetup` and `completeInitialSetup` are left out. They are one-line wrappers of members that are modelled.
- The context's `getDailySpecialMessage` wrapper is left out; it only forwards to the service.
- Storage.Get: a stored value of the wrong shape yields the default rather than the parsed value, because the model's store holds typed values.
- UserContext.SystemSchemeChange merges into the current settings. The source's listener is captured once, at initialisation, and so merges into the settings of that render.
- AffirmationList.TotalPages requires a positive `itemsPerPage`. The prop defaults to 20, the categories page passes 12, and no caller passes zero.
- Utils.Truncate counts characters rather than UTF-16 code units.
- Utils.Chunk requires a positive size. With size 0 the source loops forever.
- Utils.Shuffle takes its draws as a parameter, one per swap.
- Text.Lower and Text.UpperChar map only the ASCII letters. JavaScript's `toLowerCase` and `toUpperCase` map all of Unicode, and some mappings change the length (`'ß'.toUpperCase()` is `'SS'`). The search step `AffirmationService.QueryStep` inherits this: it ignores the case of ASCII letters only.
- Utils.Capitalize upper-cases only an ASCII first letter, for the same reason as Text.Lower.
- Storage.Notify walks a list that stays fixed. The source's `forEach` walks the live array, so a callback that unsubscribes itself during the walk makes the next callback be skipped. Callbacks are plain numbers here and cannot act.
- Storage.MergeSettings cannot express a patch key holding `undefined`: a patch field is either given a value or absent. In the source, `{ age: undefined }` would overwrite the stored age with `undefined`.
- `AffirmationService.toggleLike` is left out as a separate member. It forwards to the store's toggle, `Storage.ToggleLike`.

## Findings

| source | as written | input that shows it | evidently intended | confidence | as-written member | corrected member |
|---|---|---|---|---|---|---|
| src/context/UserContext.tsx:111-119 | the context writes the toggled likes, then calls the store's `toggleLike`, which reads them back and toggles again | liking an id not in the likes on a writable store: memory shows it liked, the store keeps it unliked | one toggle, persisted | high, not executed | UserContext.ToggleLikeAsWrittenLosesLike | UserContext.ToggleLikeKeepsSynced |
| src/context/UserContext.tsx:122-133 | the context appends and writes the new item, then the store's `addUserAffirmation` appends it again | any addition on a writable store: the stored list gains the item twice | the item stored once | high, not executed | UserContext.AddUserAffirmationAsWrittenDuplicates | UserContext.AddUserAffirmationKeepsSynced |
| src/app/categories/page.tsx:40-42 | the filter bar's clear-all calls the page's `handleClearFilters` (passed as `onClear` at line 160), which is `setFilters({})`: a merge with an empty patch that changes nothing. The context's own `clearFilters` (src/context/AffirmationContext.tsx:211-213) is the same and is never called | filters `{ theme: 自信 }`: after clear the theme filter is still set and counted | every filter removed | high, not executed | AffirmationContext.ClearFiltersKeepsTheme | AffirmationContext.ClearedFiltersKeepEverything |
| src/lib/utils.ts:103-106 | the cut point `maxLength - suffix.length` is negative for a short limit, and `slice` counts it from the end | `truncate('abcdef', 2)` gives `'abcde...'`, longer than the input | a result no longer than the limit or the suffix | high, not executed | Utils.TruncateCanGrow | Utils.TruncateClampedBounded |
| src/components/affirmation/AffirmationList.tsx:54 | the current page is reset on sort and view changes but not when the items prop changes | page 3 of a 45-item list, then a filter leaves 5 items: the page is empty and the pager (shown only for more than one page) is hidden | the page clamped into range | medium, not executed | AffirmationList.StalePageIsEmpty | AffirmationList.ChangedItemsPageNonEmpty |

=== FILE: add_form.dfy ===
/**
 The add-affirmation form: its validation rules and messages, the preview
 record it builds from the fields, the submit gate, and the clearing of a
 field's error when that field is edited. The clock is a parameter.
 */
module AddAffirmationForm {
  import opened Types
  import opened Text

  /** The form fields; the selects hold `None` for the empty choice `''`. */
  datatype Form = Form(
    text: string,
    textEn: string,
    author: string,
    source: string,
    theme: Option<Theme>,
    scene: Option<Scene>,
    ageGroup: Option<AgeGroup>,
    tags: seq<string>)

  const EmptyForm: Form := Form([], [], [], [], None, None, None, [])

  /** The keys of the field and error records. */
  datatype Field = TextField | TextEnField | AuthorField | SourceField | ThemeField | SceneField | AgeGroupField

  type Errors = map<Field, string>

  const MinLength: nat := 10
  const MaxLength: nat := 200

  const EmptyTextMessage: string := "アファメーションの内容を入力してください"
  const ShortTextMessage: string := "10文字以上で入力してください"
  const LongTextMessage: string := "200文字以内で入力してください"
  const ThemeMessage: string := "テーマを選択してください"
  const SceneMessage: string := "シーンを選択してください"
  const AgeGroupMessage: string := "年代を選択してください"

  // ---------------------------------------------------------------- validation

  /** The error of the text field, if any: the first failing rule wins, and the
      length rules measure the untrimmed text in UTF-16 code units. */
  function TextError(text: string): Option<string>
  {
    if Trim(text) == [] then Some(EmptyTextMessage)
    else if Utf16Length(text) < MinLength then Some(ShortTextMessage)
    else if Utf16Length(text) > MaxLength then Some(LongTextMessage)
    else None
  }

  /** The text rules: no error exactly when the trimmed text is not empty and
      the untrimmed length is within bounds; otherwise the message of the
      first rule that fails. */
  lemma TextErrorRules(text: string)
    ensures TextError(text).None? <==> Trim(text) != [] && MinLength <= Utf16Length(text) <= MaxLength
    ensures Trim(text) == [] ==> TextError(text) == Some(EmptyTextMessage)
    ensures Trim(text) != [] && Utf16Length(text) < MinLength ==> TextError(text) == Some(ShortTextMessage)
    ensures Trim(text) != [] && Utf16Length(text) > MaxLength ==> TextError(text) == Some(LongTextMessage)
    ensures Trim(text) != [] ==> TextError(text) != Some(EmptyTextMessage)
  {
  }

  /** The record `validateForm()` stores: one entry per failing field, holding
      that field's message. */
  function Validate(form: Form): (errors: Errors)
    ensures TextField in errors <==> TextError(form.text).Some?
    ensures TextField in errors ==> errors[TextField] == TextError(form.text).value
    ensures ThemeField in errors <==> form.theme.None?
    ensures ThemeField in errors ==> errors[ThemeField] == ThemeMessage
    ensures SceneField in errors <==> form.scene.None?
    ensures SceneField in errors ==> errors[SceneField] == SceneMessage
    ensures AgeGroupField in errors <==> form.ageGroup.None?
    ensures AgeGroupField in errors ==> errors[AgeGroupField] == AgeGroupMessage
    ensures errors.Keys <= {TextField, ThemeField, SceneField, AgeGroupField}
  {
    Collect(TextError(form.text), form.theme.None?, form.scene.None?, form.ageGroup.None?)
  }

  /** The error record from the text's error and the three empty choices. */
  function Collect(textError: Option<string>, noTheme: bool, noScene: bool, noAgeGroup: bool): (errors: Errors)
    ensures TextField in errors <==> textError.Some?
    ensures TextField in errors ==> errors[TextField] == textError.value
    ensures ThemeField in errors <==> noTheme
    ensures ThemeField in errors ==> errors[ThemeField] == ThemeMessage
    ensures SceneField in errors <==> noScene
    ensures SceneField in errors ==> errors[SceneField] == SceneMessage
    ensures AgeGroupField in errors <==> noAgeGroup
    ensures AgeGroupField in errors ==> errors[AgeGroupField] == AgeGroupMessage
    ensures errors.Keys <= {TextField, ThemeField, SceneField, AgeGroupField}
  {
    var m1: Errors := if textError.Some? then map[TextField := textError.value] else map[];
    var m2 := if noTheme then m1[ThemeField := ThemeMessage] else m1;
    var m3 := if noScene then m2[SceneField := SceneMessage] else m2;
    if noAgeGroup then m3[AgeGroupField := AgeGroupMessage] else m3
  }

  /** `Object.keys(newErrors).length === 0`. */
  predicate IsValid(form: Form)
  {
    Validate(form) == map[]
  }

  /** A form is valid exactly when the text passes its rules and all three
      categories are chosen. */
  lemma ValidIff(form: Form)
    ensures IsValid(form) <==>
      && Trim(form.text) != [] && MinLength <= Utf16Length(form.text) <= MaxLength
      && form.theme.Some? && form.scene.Some? && form.ageGroup.Some?
  {
    TextErrorRules(form.text);
    var e := Validate(form);
    if e != map[] {
      var k :| k in e;
      assert k in {TextField, ThemeField, SceneField, AgeGroupField};
    } else {
      assert TextField !in e;
    }
  }

  /** `n` spaces. */
  function Spaces(n: nat): (s: string)
    ensures |s| == n && forall i :: 0 <= i < n ==> s[i] == ' '
  {
    seq(n, _ => ' ')
  }

  /** One visible character padded with spaces to the minimum length passes
      the length rule, though the stored text is that one character. */
  lemma PaddedTextPasses(c: char, n: nat)
    requires !IsJsWhitespace(c) && c as int <= 0xFFFF
    requires MinLength <= n + 1 <= MaxLength
    ensures TextError([c] + Spaces(n)).None?
    ensures Trim([c] + Spaces(n)) == [c]
  {
    var s := [c] + Spaces(n);
    TrimPadded(c, n);
    NarrowLength(s);
    TextErrorRules(s);
  }

  /** Trimming a visible character followed by spaces leaves the character. */
  lemma TrimPadded(c: char, n: nat)
    requires !IsJsWhitespace(c)
    ensures Trim([c] + Spaces(n)) == [c]
  {
    var s := [c] + Spaces(n);
    var r := Trim(s);
    TrimEmptyIffBlank(s);
    assert !IsBlank(s) by { assert !IsJsWhitespace(s[0]); }
    var i :| 0 <= i <= |s| - |r| && r == s[i..i + |r|] && IsBlank(s[..i]) && IsBlank(s[i + |r|..]);
  }

  /** A text of characters from the basic multilingual plane has one UTF-16
      code unit per character. */
  lemma {:induction false} NarrowLength(s: string)
    requires forall i :: 0 <= i < |s| ==> s[i] as int <= 0xFFFF
    ensures Utf16Length(s) == |s|
  {
    if s != [] {
      NarrowLength(s[1..]);
    }
  }

  // ------------------------------------------------------------------- preview

  /** The preview record. It carries no `language`, which the page never sets. */
  datatype Preview = Preview(
    id: string,
    text: string,
    textEn: Option<string>,
    author: Option<string>,
    source: string,
    categories: Categories,
    tags: seq<string>,
    createdAt: string,
    isUserGenerated: bool)

  const DefaultSource: string := "あなたの投稿"

  /** `text.trim() || undefined`. */
  function OptionalText(s: string): (r: Option<string>)
    ensures r.None? <==> IsBlank(s)
    ensures r.Some? ==> r.value == Trim(s) && r.value != []
  {
    TrimEmptyIffBlank(s);
    if Trim(s) == [] then None else Some(Trim(s))
  }

  /** The page: its form, the errors last stored, the preview and the flags. */
  datatype Page = Page(form: Form, errors: Errors, preview: Option<Preview>, showPreview: bool, submitSuccess: bool)

  /** `createPreview()`: validate, then build the record from the fields. */
  function CreatePreview(p: Page, nowMs: nat, now: string): (r: Page)
    ensures r.errors == Validate(p.form) && r.form == p.form && r.submitSuccess == p.submitSuccess
    ensures !IsValid(p.form) ==> r.preview == p.preview && r.showPreview == p.showPreview
    ensures IsValid(p.form) ==> r.showPreview && r.preview.Some?
    ensures IsValid(p.form) ==> var v := r.preview.value;
      && StartsWith(v.id, "user-") && v.isUserGenerated && v.createdAt == now
      && v.text == Trim(p.form.text) && |v.text| > 0
      && v.textEn == OptionalText(p.form.textEn) && v.author == OptionalText(p.form.author)
      && (IsBlank(p.form.source) ==> v.source == DefaultSource)
      && (!IsBlank(p.form.source) ==> v.source == Trim(p.form.source))
      && v.categories == Categories(p.form.theme.value, p.form.scene.value, p.form.ageGroup.value)
      && v.tags == p.form.tags
  {
    var errors := Validate(p.form);
    ValidIff(p.form);
    if errors != map[] then p.(errors := errors)
    else
      TrimEmptyIffBlank(p.form.source);
      var f := p.form;
      var v := Preview("user-" + NatToString(nowMs), Trim(f.text), OptionalText(f.textEn), OptionalText(f.author),
                       if Trim(f.source) == [] then DefaultSource else Trim(f.source),
                       Categories(f.theme.value, f.scene.value, f.ageGroup.value), f.tags, now, true);
      p.(errors := errors, preview := Some(v), showPreview := true)
  }

  /** `handleSubmit()`: the same gate; the page stores nothing and only
      reports success. */
  function Submit(p: Page): (r: Page)
    ensures r.errors == Validate(p.form)
    ensures r.submitSuccess <==> IsValid(p.form) || p.submitSuccess
    ensures r.form == p.form && r.preview == p.preview && r.showPreview == p.showPreview
  {
    var errors := Validate(p.form);
    if |errors| != 0 then p.(errors := errors) else p.(errors := errors, submitSuccess := true)
  }

  /** The reset three seconds after a successful submit. */
  function ResetAfterSubmit(p: Page): (r: Page)
    ensures r.form == EmptyForm && r.preview.None? && !r.showPreview && !r.submitSuccess
    ensures r.errors == p.errors
  {
    Page(EmptyForm, p.errors, None, false, false)
  }

  // --------------------------------------------------------------------- edits

  /** One edit of one field. */
  datatype Edit =
    | EditText(text: string)
    | EditTextEn(textEn: string)
    | EditAuthor(author: string)
    | EditSource(source: string)
    | EditTheme(theme: Option<Theme>)
    | EditScene(scene: Option<Scene>)
    | EditAgeGroup(ageGroup: Option<AgeGroup>)

  function FieldOf(e: Edit): Field
  {
    match e
    case EditText(_) => TextField
    case EditTextEn(_) => TextEnField
    case EditAuthor(_) => AuthorField
    case EditSource(_) => SourceField
    case EditTheme(_) => ThemeField
    case EditScene(_) => SceneField
    case EditAgeGroup(_) => AgeGroupField
  }

  function Apply(form: Form, e: Edit): Form
  {
    match e
    case EditText(s) => form.(text := s)
    case EditTextEn(s) => form.(textEn := s)
    case EditAuthor(s) => form.(author := s)
    case EditSource(s) => form.(source := s)
    case EditTheme(t) => form.(theme := t)
    case EditScene(s) => form.(scene := s)
    case EditAgeGroup(g) => form.(ageGroup := g)
  }

  /** `handleInputChange(field, value)`: the field takes the value, and a
      non-empty error of that field is blanked (the key stays). */
  function HandleInputChange(p: Page, e: Edit): (r: Page)
    ensures r.form == Apply(p.form, e)
    ensures r.errors.Keys == p.errors.Keys
    ensures forall k :: k in r.errors && k != FieldOf(e) ==> r.errors[k] == p.errors[k]
    ensures FieldOf(e) in r.errors ==> r.errors[FieldOf(e)] == []
    ensures r.preview == p.preview && r.showPreview == p.showPreview && r.submitSuccess == p.submitSuccess
  {
    var k := FieldOf(e);
    var errors := if k in p.errors && p.errors[k] != [] then p.errors[k := []] else p.errors;
    p.(form := Apply(p.form, e), errors := errors)
  }

  /** An edit changes the edited field of the form and no other. */
  lemma EditTouchesOneField(form: Form, e: Edit)
    ensures FieldOf(e) != TextField ==> Apply(form, e).text == form.text
    ensures FieldOf(e) != ThemeField ==> Apply(form, e).theme == form.theme
    ensures FieldOf(e) != SceneField ==> Apply(form, e).scene == form.scene
    ensures FieldOf(e) != AgeGroupField ==> Apply(form, e).ageGroup == form.ageGroup
    ensures Apply(form, e).tags == form.tags
  {
  }
}

=== FILE: affirmation_context.dfy ===
/**
 The affirmation context: the filter object the pages share, the search
 history of the search hook, the random pick from the list on display and
 the refresh of the current affirmation. React state is a record; each
 callback is a function from the old record to the new one.
 */
module AffirmationContext {
  import opened Types
  import opened Text
  import opened Seqs
  import Utils
  import Storage
  import Service = AffirmationService

  // ------------------------------------------------------------------ filters

  /** `handleSetFilters(newFilters)`: `{ ...prev, ...newFilters }`. */
  function SetFilters(prev: Filters, patch: Filters): (r: Filters)
    ensures r.theme == (if patch.theme.IsKey() then patch.theme else prev.theme)
    ensures r.scene == (if patch.scene.IsKey() then patch.scene else prev.scene)
    ensures r.ageGroup == (if patch.ageGroup.IsKey() then patch.ageGroup else prev.ageGroup)
    ensures r.language == (if patch.language.IsKey() then patch.language else prev.language)
    ensures r.onlyFavorites == (if patch.onlyFavorites.IsKey() then patch.onlyFavorites else prev.onlyFavorites)
    ensures r.hasEnglish == (if patch.hasEnglish.IsKey() then patch.hasEnglish else prev.hasEnglish)
    ensures r.onlyUserGenerated == (if patch.onlyUserGenerated.IsKey() then patch.onlyUserGenerated else prev.onlyUserGenerated)
    ensures r.searchQuery == (if patch.searchQuery.IsKey() then patch.searchQuery else prev.searchQuery)
    ensures HasKeys(r) <==> HasKeys(prev) || HasKeys(patch)
  {
    MergeFilters(prev, patch)
  }

  /** Two merges in a row are one merge of the merged patches, and a patch
      applied twice changes nothing the second time. */
  lemma SetFiltersCompose(f: Filters, p: Filters, q: Filters)
    ensures SetFilters(SetFilters(f, p), q) == SetFilters(f, SetFilters(p, q))
    ensures SetFilters(SetFilters(f, p), p) == SetFilters(f, p)
  {
  }

  /** `clearFilters()` as written: `setFilters({})`. Merging the empty object
      leaves every key, so nothing is cleared. */
  function ClearFiltersAsWritten(f: Filters): (r: Filters)
    ensures r == f
  {
    SetFilters(f, NoFilters)
  }

  /** A theme filter survives the clear, and the page keeps showing the
      filtered list instead of the whole catalog. */
  lemma ClearFiltersKeepsTheme(t: Theme)
    ensures ClearFiltersAsWritten(NoFilters.(theme := Given(t))).theme == Given(t)
    ensures HasKeys(ClearFiltersAsWritten(NoFilters.(theme := Given(t))))
  {
  }

  /** The clear the button promises: the filter object becomes `{}`. */
  function ClearFilters(f: Filters): (r: Filters)
    ensures !HasKeys(r)
  {
    NoFilters
  }

  /** After the corrected clear the query keeps every catalog item. */
  lemma ClearedFiltersKeepEverything(c: Service.Catalog, f: Filters, st: Storage.Store)
    requires c.initialized
    ensures Service.GetFiltered(c, ClearFilters(f), st) == Ok(c.items)
  {
    Service.BlankQueryImposesNothing(c, NoFilters.(searchQuery := Given("")), st);
  }

  // ------------------------------------------------------------------- search

  /** `searchAffirmations(query)`: the other filters stay, the query is trimmed. */
  function SearchAffirmations(f: Filters, query: string): (r: Filters)
    ensures r.searchQuery == Given(Trim(query))
    ensures r.(searchQuery := f.searchQuery) == f
  {
    f.(searchQuery := Given(Trim(query)))
  }

  /** Surrounding whitespace of the typed query does not matter. */
  lemma SearchIgnoresSurroundingSpace(f: Filters, query: string)
    ensures SearchAffirmations(f, query) == SearchAffirmations(f, Trim(query))
  {
    TrimIdempotent(query);
  }

  /** `clearSearch()`: `searchAffirmations('')`. */
  function ClearSearch(f: Filters): (r: Filters)
    ensures r.searchQuery == Given([])
    ensures r.(searchQuery := f.searchQuery) == f
  {
    SearchAffirmations(f, [])
  }

  /** The cleared query imposes nothing on the catalog query. */
  lemma ClearSearchImposesNothing(c: Service.Catalog, f: Filters, st: Storage.Store)
    requires c.initialized
    ensures Service.GetFiltered(c, ClearSearch(f), st) == Service.GetFiltered(c, f.(searchQuery := Absent), st)
  {
    Service.BlankQueryImposesNothing(c, ClearSearch(f), st);
    assert ClearSearch(f).(searchQuery := Absent) == f.(searchQuery := Absent);
  }

  /** The history keeps at most ten entries. */
  const HistoryLimit: nat := 10

  function NotEqual(t: string): string -> bool { (h: string) => h != t }

  /** `[query.trim(), ...prev.filter(h => h !== query.trim())].slice(0, 10)`,
      done only for a query that is not blank. */
  function PushHistory(history: seq<string>, query: string): (r: seq<string>)
    ensures Trim(query) == [] ==> r == history
    ensures Trim(query) != [] ==>
      && 0 < |r| <= HistoryLimit
      && r[0] == Trim(query)
      && |r| == Min(HistoryLimit, 1 + |Filter(history, NotEqual(Trim(query)))|)
      && r[1..] == Filter(history, NotEqual(Trim(query)))[..|r| - 1]
  {
    var t := Trim(query);
    if t == [] then history
    else
      var rest := Filter(history, NotEqual(t));
      ConsSlice(t, rest, HistoryLimit);
      JsSlice([t] + rest, 0, HistoryLimit)
  }

  function Min(a: int, b: int): int { if a < b then a else b }

  /** The first `limit` entries of `[t, ...rest]`: `t`, then the start of `rest`. */
  lemma ConsSlice(t: string, rest: seq<string>, limit: nat)
    requires limit > 0
    ensures var r := JsSlice([t] + rest, 0, limit);
      && 0 < |r| <= limit
      && r[0] == t
      && |r| == Min(limit, 1 + |rest|)
      && r[1..] == rest[..|r| - 1]
  {
    var s := [t] + rest;
    LeadingSlice(s, limit);
    var r := JsSlice(s, 0, limit);
    assert r[1..] == s[1..|r|];
    assert s[1..] == rest;
  }

  /** The history never repeats an entry and never grows beyond ten, and
      the latest query occurs in it exactly once. */
  lemma PushHistoryInvariant(history: seq<string>, query: string)
    requires NoDuplicates(history) && |history| <= HistoryLimit
    ensures NoDuplicates(PushHistory(history, query))
    ensures |PushHistory(history, query)| <= HistoryLimit
    ensures Trim(query) != [] ==> Count(PushHistory(history, query), Trim(query)) == 1
  {
    if Trim(query) != [] {
      FreshFront(history, Trim(query), PushHistory(history, query));
    }
  }

  /** `t` in front of the first entries of the history without `t`. */
  lemma FreshFront(history: seq<string>, t: string, r: seq<string>)
    requires NoDuplicates(history) && 0 < |r|
    requires r[0] == t && |r| - 1 <= |Filter(history, NotEqual(t))|
    requires r[1..] == Filter(history, NotEqual(t))[..|r| - 1]
    ensures NoDuplicates(r) && Count(r, t) == 1
  {
    var rest := Filter(history, NotEqual(t));
    FilterNoDuplicates(history, NotEqual(t));
    var kept := rest[..|r| - 1];
    PrefixNoDuplicates(rest, |r| - 1);
    assert r == [t] + kept;
    assert t !in kept by {
      assert forall x :: x in kept ==> x in rest;
    }
    ConsFresh(t, kept);
  }

  lemma PrefixNoDuplicates<T>(s: seq<T>, k: nat)
    requires NoDuplicates(s) && k <= |s|
    ensures NoDuplicates(s[..k])
  {
    forall i, j | 0 <= i < j < k ensures s[..k][i] != s[..k][j] {
      assert s[i] != s[j];
    }
  }

  /** A fresh element put in front keeps a list duplicate-free and occurs once. */
  lemma ConsFresh<T>(x: T, s: seq<T>)
    requires NoDuplicates(s) && x !in s
    ensures NoDuplicates([x] + s)
    ensures Count([x] + s, x) == 1
  {
    var r := [x] + s;
    forall i, j | 0 <= i < j < |r| ensures r[i] != r[j] {
      if i == 0 {
        assert r[j] == s[j - 1];
      } else {
        assert r[i] == s[i - 1] && r[j] == s[j - 1];
      }
    }
    assert r[1..] == s;
  }

  /** Searching again for the latest query leaves the history as it is. */
  lemma PushHistoryRepeat(history: seq<string>, query: string)
    requires NoDuplicates(history) && |history| <= HistoryLimit
    requires |history| > 0 && history[0] == Trim(query)
    ensures PushHistory(history, query) == history
  {
    var t := Trim(query);
    assert history == [t] + history[1..];
    assert t !in history[1..] by {
      forall k | 0 <= k < |history| - 1 ensures history[1..][k] != t {
        assert history[k + 1] != history[0];
      }
    }
    FilterKeepsAll(history[1..], NotEqual(t));
    FilterAppend([t], history[1..], NotEqual(t));
    if t == [] {
    } else {
      var r := PushHistory(history, query);
      assert Filter(history, NotEqual(t)) == history[1..];
    }
  }

  /** The search hook's state: the shared filters and its own history. */
  datatype SearchState = SearchState(filters: Filters, history: seq<string>)

  /** `search(query)`: a blank query does nothing at all; any other one sets
      the trimmed query and puts it first in the history. */
  function Search(s: SearchState, query: string): (r: SearchState)
    ensures IsBlank(query) ==> r == s
    ensures !IsBlank(query) ==>
      && r.filters.searchQuery == Given(Trim(query))
      && r.filters.(searchQuery := s.filters.searchQuery) == s.filters
      && |r.history| > 0 && r.history[0] == Trim(query)
  {
    TrimEmptyIffBlank(query);
    if Trim(query) == [] then s
    else SearchState(SearchAffirmations(s.filters, query), PushHistory(s.history, query))
  }

  // ------------------------------------------------------------ current pick

  /** The provider's state. `filtered` is what the filter effect last stored;
      `initialized` is set even when the service failed to initialise. */
  datatype State = State(
    affirmations: seq<Affirmation>,
    filtered: seq<Affirmation>,
    current: Option<Affirmation>,
    filters: Filters,
    initialized: bool)

  /** The filter effect: after a change of filters the filtered list is the
      service's answer; when the service throws, the old list stays. */
  function ApplyFilters(s: State, c: Service.Catalog, st: Storage.Store): (r: State)
    ensures r.(filtered := s.filtered) == s
    ensures s.initialized && c.initialized ==> r.filtered == Filter(c.items, Service.MatchPred(s.filters, Service.Favorites(st)))
    ensures !s.initialized || !c.initialized ==> r == s
  {
    if !s.initialized then s
    else
      match Service.GetFiltered(c, s.filters, st)
      case Ok(list) => s.(filtered := list)
      case NotInitialized => s
  }

  /** The provider's lists agree with the service. */
  ghost predicate Synced(s: State, c: Service.Catalog, st: Storage.Store)
  {
    && s.initialized && c.initialized
    && s.affirmations == c.items
    && s.filtered == Service.GetFiltered(c, s.filters, st).value
  }

  /** The list the random pick draws from: the filtered list as soon as the
      filter object has any key, even one holding `undefined`. */
  function Source(s: State): seq<Affirmation>
  {
    if HasKeys(s.filters) then s.filtered else s.affirmations
  }

  /** `getRandomAffirmation()` of the context. */
  function GetRandomAffirmation(s: State, u: Draw): (r: Option<Affirmation>)
    ensures r.None? <==> !s.initialized || |Source(s)| == 0
    ensures r.Some? ==> r.value in Source(s)
  {
    if !s.initialized || |Source(s)| == 0 then None
    else Some(Source(s)[RandomIndex(u, |Source(s)|)])
  }

  /** On a synced state the context's pick is the service's pick, with the
      filters passed exactly when the object has a key. */
  lemma RandomAgreesWithService(s: State, c: Service.Catalog, st: Storage.Store, u: Draw)
    requires Synced(s, c, st)
    ensures GetRandomAffirmation(s, u)
      == Service.GetRandom(c, if HasKeys(s.filters) then Some(s.filters) else None, st, u).value
  {
  }

  /** `{ ...filters, ageGroup: settings.age, language: settings.language }`. */
  function PersonalFilters(f: Filters, settings: UserSettings): Filters
  {
    f.(ageGroup := Given(settings.age), language := Given(settings.language))
  }

  /** The outcome of a refresh: keep the current affirmation (not initialised,
      or the service threw), or replace it. */
  datatype Refresh = Keep | SetCurrent(pick: Option<Affirmation>)

  /** `refreshCurrentAffirmation()`: the recommendation is drawn first (`u1`);
      with filters set, a non-empty personalised filtered list wins (`u2`). */
  function RefreshCurrent(s: State, c: Service.Catalog, st: Storage.Store, settings: UserSettings,
                          hour: int, u1: Draw, u2: Draw): (r: Refresh)
    ensures r.Keep? <==> !s.initialized || !c.initialized
    ensures r.SetCurrent? && r.pick.Some? ==> r.pick.value in c.items
    ensures r.SetCurrent? && r.pick.Some? && settings == Storage.GetSettings(st) ==>
      r.pick.value.categories.ageGroup == settings.age && r.pick.value.language == settings.language
    ensures (r.SetCurrent? && HasKeys(s.filters)
             && |Service.GetFiltered(c, PersonalFilters(s.filters, settings), st).value| > 0) ==>
      r.pick.Some? && Service.Matches(r.pick.value, PersonalFilters(s.filters, settings), Service.Favorites(st))
    ensures r.SetCurrent? && !HasKeys(s.filters) ==> r.pick == Service.GetRecommended(c, st, hour, u1).value
    ensures (r.SetCurrent? && HasKeys(s.filters)
             && |Service.GetFiltered(c, PersonalFilters(s.filters, settings), st).value| == 0) ==>
      r.pick == Service.GetRecommended(c, st, hour, u1).value
  {
    if !s.initialized then Keep
    else
      match Service.GetRecommended(c, st, hour, u1)
      case NotInitialized => Keep
      case Ok(recommended) =>
        if HasKeys(s.filters) then
          var filtered := Service.GetFiltered(c, PersonalFilters(s.filters, settings), st).value;
          if |filtered| > 0 then SetCurrent(Some(filtered[RandomIndex(u2, |filtered|)]))
          else SetCurrent(recommended)
        else SetCurrent(recommended)
  }
}

=== FILE: affirmation_list.dfy ===
/**
 The affirmation list: the orders it sorts by, the slicing into pages, the
 window of page buttons and the page the list shows after a change. The
 creation time of an item is `new Date(createdAt).getTime()`, a parameter
 here (`timeOf`).
 */
module AffirmationList {
  import opened Types
  import opened Seqs

  // ------------------------------------------------------------------- sorting

  /** The sort orders with a consistent comparator. */
  datatype SortOption = Latest | Oldest | Likes

  datatype ViewMode = Grid | List

  /** The sort key of each order: `Array.prototype.sort` is stable, so a
      comparator `key(a) - key(b)` is a stable sort by `key`. */
  function SortKey(sort: SortOption, timeOf: string -> int): Affirmation -> int
  {
    match sort
    case Latest => (a: Affirmation) => -timeOf(a.createdAt)
    case Oldest => (a: Affirmation) => timeOf(a.createdAt)
    case Likes => (a: Affirmation) => -|a.id|
  }

  /** `sortedAffirmations`: a sorted copy; the input list is left as it is. */
  function Sorted(items: seq<Affirmation>, sort: SortOption, timeOf: string -> int): (r: seq<Affirmation>)
    ensures multiset(r) == multiset(items)
    ensures sort.Latest? ==> forall i, j :: 0 <= i < j < |r| ==> timeOf(r[i].createdAt) >= timeOf(r[j].createdAt)
    ensures sort.Oldest? ==> forall i, j :: 0 <= i < j < |r| ==> timeOf(r[i].createdAt) <= timeOf(r[j].createdAt)
    ensures sort.Likes? ==> forall i, j :: 0 <= i < j < |r| ==> |r[i].id| >= |r[j].id|
  {
    var key := SortKey(sort, timeOf);
    var r := SortBy(items, key);
    assert forall i, j :: 0 <= i < j < |r| ==> key(r[i]) <= key(r[j]);
    r
  }

  /** Items with equal keys keep their relative order. */
  lemma SortedKeepsTies(items: seq<Affirmation>, sort: SortOption, timeOf: string -> int, k: int)
    ensures WithKey(Sorted(items, sort, timeOf), SortKey(sort, timeOf), k) == WithKey(items, SortKey(sort, timeOf), k)
  {
    SortStable(items, SortKey(sort, timeOf), k);
  }

  // ---------------------------------------------------------------- pagination

  /** `Math.ceil(n / itemsPerPage)`. */
  function TotalPages(n: nat, perPage: nat): (t: nat)
    requires perPage > 0
    ensures t == 0 <==> n == 0
    ensures n > 0 ==> (t - 1) * perPage < n <= t * perPage
  {
    (n + perPage - 1) / perPage
  }

  /** `(page - 1) * itemsPerPage`: where a page starts. */
  function PageStart(page: int, perPage: nat): (start: int)
    ensures page >= 1 ==> start >= 0
  {
    (page - 1) * perPage
  }

  /** The next page starts one page later. */
  lemma PageStartNext(page: int, perPage: nat)
    ensures PageStart(page + 1, perPage) == PageStart(page, perPage) + perPage
  {
  }

  /** `sorted.slice((page - 1) * itemsPerPage, (page - 1) * itemsPerPage + itemsPerPage)`. */
  function Page<T>(s: seq<T>, page: int, perPage: nat): (r: seq<T>)
    requires perPage > 0
    ensures |r| <= perPage
    ensures 1 <= page && PageStart(page, perPage) <= |s| ==>
      r == s[PageStart(page, perPage)..Min(PageStart(page, perPage) + perPage, |s|)]
    ensures page >= 1 && PageStart(page, perPage) >= |s| ==> r == []
  {
    var start := PageStart(page, perPage);
    JsSlice(s, start, start + perPage)
  }

  function Min(a: int, b: int): int { if a < b then a else b }

  /** The pages `first`, …, `last` in order. */
  function Pages<T>(s: seq<T>, perPage: nat, first: nat, last: nat): seq<seq<T>>
    requires perPage > 0
    decreases last - first
  {
    if first > last || first == 0 then [] else [Page(s, first, perPage)] + Pages(s, perPage, first + 1, last)
  }

  /** Read in order, the pages from `first` on hold exactly the items from
      `PageStart(first, perPage)` on. */
  lemma {:induction false} PagesFromCover<T>(s: seq<T>, perPage: nat, first: nat)
    requires perPage > 0 && 1 <= first && PageStart(first, perPage) <= |s|
    ensures Flatten(Pages(s, perPage, first, TotalPages(|s|, perPage))) == s[PageStart(first, perPage)..]
    decreases TotalPages(|s|, perPage) - first
  {
    var t := TotalPages(|s|, perPage);
    var start, stop := PageSpan(s, perPage, first);
    if first <= t {
      assert Pages(s, perPage, first, t) == [s[start..stop]] + Pages(s, perPage, first + 1, t);
      if first < t {
        PagesFromCover(s, perPage, first + 1);
        assert s[start..] == s[start..stop] + s[stop..];
      } else {
        assert s[start..] == s[start..stop];
      }
    }
  }

  /** Page `first` is `s[start..stop]`; it is the last page iff it reaches the
      end, and otherwise the next page starts at `stop`. */
  lemma PageSpan<T>(s: seq<T>, perPage: nat, first: nat) returns (start: nat, stop: nat)
    requires perPage > 0 && 1 <= first && PageStart(first, perPage) <= |s|
    ensures start == PageStart(first, perPage) && start <= stop <= |s|
    ensures first <= TotalPages(|s|, perPage) ==> Page(s, first, perPage) == s[start..stop]
    ensures first < TotalPages(|s|, perPage) ==> stop == PageStart(first + 1, perPage) && stop < |s|
    ensures first == TotalPages(|s|, perPage) ==> stop == |s|
    ensures first > TotalPages(|s|, perPage) ==> start == |s|
  {
    PageBounds(|s|, perPage, first);
    PageStartNext(first, perPage);
    start := PageStart(first, perPage);
    stop := Min(start + perPage, |s|);
  }

  /** Where page `first` starts and ends relative to the list's end. */
  lemma PageBounds(n: nat, perPage: nat, first: nat)
    requires perPage > 0 && 1 <= first
    ensures first > TotalPages(n, perPage) ==> PageStart(first, perPage) >= n
    ensures first < TotalPages(n, perPage) ==> PageStart(first + 1, perPage) < n
    ensures first == TotalPages(n, perPage) ==> PageStart(first + 1, perPage) >= n
  {
    var t := TotalPages(n, perPage);
    PageStartNext(first, perPage);
    if first > t {
      MulLe(t, first - 1, perPage);
    }
    if first < t {
      MulLe(first, t - 1, perPage);
    }
  }

  lemma MulLe(a: int, b: int, c: nat)
    requires a <= b
    ensures a * c <= b * c
  {
    assert b * c - a * c == (b - a) * c;
  }

  /** The pages `1..totalPages` partition the sorted list. */
  lemma PagesPartition<T>(s: seq<T>, perPage: nat)
    requires perPage > 0
    ensures Flatten(Pages(s, perPage, 1, TotalPages(|s|, perPage))) == s
  {
    PagesFromCover(s, perPage, 1);
  }

  // ------------------------------------------------------------- page buttons

  /** The number of page buttons: `Math.min(5, totalPages)`. */
  const WindowSize: nat := 5

  /** The page numbers of the buttons, `pageNum` for `i` in `0..min(5, totalPages)`. */
  function PageWindow(current: int, total: nat): (w: seq<int>)
    ensures |w| == Min(WindowSize, total)
    ensures forall i :: 0 <= i < |w| ==> w[i] == w[0] + i
    ensures forall i :: 0 <= i < |w| ==> 1 <= w[i] <= total
    ensures 1 <= current <= total ==> current in w
    ensures total > WindowSize && 3 < current < total - 2 ==> w[2] == current
  {
    var n := Min(WindowSize, total);
    var first :=
      if total <= WindowSize then 1
      else if current <= 3 then 1
      else if current >= total - 2 then total - 4
      else current - 2;
    var w := seq(n, i requires 0 <= i < n => first + i);
    assert 1 <= current <= total ==> w[current - first] == current;
    w
  }

  // ---------------------------------------------------------------- page state

  /** The list's own state: the page shown. Sort and view mode belong to the parent. */
  datatype View = View(page: int, sort: SortOption, mode: ViewMode)

  /** `handleSortChange` and `handleViewModeChange`: back to the first page. */
  function ChangeSort(v: View, sort: SortOption): (r: View)
    ensures r.page == 1 && r.sort == sort && r.mode == v.mode
  {
    View(1, sort, v.mode)
  }

  function ChangeViewMode(v: View, mode: ViewMode): (r: View)
    ensures r.page == 1 && r.sort == v.sort && r.mode == mode
  {
    View(1, v.sort, mode)
  }

  /** After a sort change the first page shows the head of the new order. */
  lemma SortChangeShowsHead(items: seq<Affirmation>, v: View, sort: SortOption, timeOf: string -> int, perPage: nat)
    requires perPage > 0
    ensures Page(Sorted(items, ChangeSort(v, sort).sort, timeOf), ChangeSort(v, sort).page, perPage)
      == Sorted(items, sort, timeOf)[..Min(perPage, |items|)]
  {
  }

  /** A new `affirmations` prop as written: the page number stays. */
  function ChangeItemsAsWritten(v: View): (r: View)
    ensures r == v
  {
    v
  }

  /** On page 3 of 45 items a filter that leaves 5 items shows an empty page,
      and with a single page the pager that would lead back is hidden. */
  lemma StalePageIsEmpty(s: seq<Affirmation>)
    requires |s| == 5
    ensures Page(s, ChangeItemsAsWritten(View(3, Latest, List)).page, 20) == []
    ensures TotalPages(|s|, 20) == 1
  {
  }

  /** A new `affirmations` prop with the page brought back into range. */
  function ChangeItems(v: View, n: nat, perPage: nat): (r: View)
    requires perPage > 0
    ensures 1 <= r.page && (n > 0 ==> r.page <= TotalPages(n, perPage))
    ensures 1 <= v.page <= TotalPages(n, perPage) ==> r == v
  {
    var t := TotalPages(n, perPage);
    if v.page < 1 then v.(page := 1)
    else if v.page > t then v.(page := if t == 0 then 1 else t)
    else v
  }

  /** The page shown after the corrected change is never empty while the list is not. */
  lemma ChangedItemsPageNonEmpty<T>(v: View, s: seq<T>, perPage: nat)
    requires perPage > 0 && |s| > 0
    ensures |Page(s, ChangeItems(v, |s|, perPage).page, perPage)| > 0
  {
    var p := ChangeItems(v, |s|, perPage).page;
    var t := TotalPages(|s|, perPage);
    assert (p - 1) * perPage <= (t - 1) * perPage;
  }
}

=== FILE: filter_bar.dfy ===
/**
 The filter bar: the count of active filters it displays, the normalisation
 of each change it sends to its parent, the favourites switch, the chips that
 remove one filter each, and the clear-all button. The parent's `setFilters`
 is the context's merge and its `onClear` is `setFilters({})`.
 */
module FilterBar {
  import opened Types
  import Context = AffirmationContext

  // ------------------------------------------------------------------ counting

  /** A slot holding a value other than `undefined`, `''` or `false`. Enum
      values are never `''`. */
  predicate ValueActive<T>(s: Slot<T>) { s.Given? }
  predicate FlagActive(s: Slot<bool>) { s == Given(true) }
  predicate TextActive(s: Slot<string>) { s.Given? && s.v != [] }

  function Bit(b: bool): nat { if b then 1 else 0 }

  /** The number of fields of the filter object, all of which `Object.values` visits. */
  const FieldCount: nat := 8

  /** No field holds an active value. */
  predicate NoneActive(f: Filters)
  {
    && !ValueActive(f.theme) && !ValueActive(f.scene) && !ValueActive(f.ageGroup) && !ValueActive(f.language)
    && !FlagActive(f.onlyFavorites) && !FlagActive(f.hasEnglish) && !FlagActive(f.onlyUserGenerated)
    && !TextActive(f.searchQuery)
  }

  /** `activeFiltersCount`: the values that are not `undefined`, `''` or `false`. */
  function ActiveFiltersCount(f: Filters): (n: nat)
    ensures n <= FieldCount
    ensures n == 0 <==> NoneActive(f)
  {
    Bit(ValueActive(f.theme)) + Bit(ValueActive(f.scene)) + Bit(ValueActive(f.ageGroup))
    + Bit(ValueActive(f.language)) + Bit(FlagActive(f.onlyFavorites)) + Bit(FlagActive(f.hasEnglish))
    + Bit(FlagActive(f.onlyUserGenerated)) + Bit(TextActive(f.searchQuery))
  }

  /** A key holding `undefined` counts as no filter here, yet it makes the
      object non-empty for the context's choice of list. */
  lemma UndefinedKeyCountsNothing()
    ensures ActiveFiltersCount(NoFilters.(theme := Undefined)) == 0
    ensures HasKeys(NoFilters.(theme := Undefined))
  {
  }

  // ------------------------------------------------------------------ changes

  /** One control of the bar with the value it produces; `None` is the empty
      option `''` of a select. */
  datatype Change =
    | ThemeChange(theme: Option<Theme>)
    | SceneChange(scene: Option<Scene>)
    | AgeChange(ageGroup: Option<AgeGroup>)
    | FavoritesChange(onlyFavorites: bool)
    | EnglishChange(hasEnglish: bool)
    | UserGeneratedChange(onlyUserGenerated: bool)

  /** `value || undefined` for a select. */
  function Choice<T>(o: Option<T>): (s: Slot<T>)
    ensures s.IsKey()
    ensures s.Given? <==> o.Some?
    ensures s.Given? ==> s.v == o.value
  {
    if o.Some? then Given(o.value) else Undefined
  }

  /** `value || undefined` for a check box. */
  function Flag(b: bool): (s: Slot<bool>)
    ensures s.IsKey() && s != Given(false)
    ensures s == Given(true) <==> b
  {
    if b then Given(true) else Undefined
  }

  /** The number of keys of a patch. */
  function KeyCount(f: Filters): nat
  {
    Bit(f.theme.IsKey()) + Bit(f.scene.IsKey()) + Bit(f.ageGroup.IsKey()) + Bit(f.language.IsKey())
    + Bit(f.onlyFavorites.IsKey()) + Bit(f.hasEnglish.IsKey()) + Bit(f.onlyUserGenerated.IsKey())
    + Bit(f.searchQuery.IsKey())
  }

  /** No check box holds `false`: the shape every change of the bar produces. */
  predicate Normalised(f: Filters)
  {
    f.onlyFavorites != Given(false) && f.hasEnglish != Given(false) && f.onlyUserGenerated != Given(false)
  }

  /** `handleFilterChange(key, value)`: `{ [key]: value || undefined }`. */
  function HandleFilterChange(ch: Change): (patch: Filters)
    ensures KeyCount(patch) == 1
    ensures Normalised(patch)
    ensures ch.ThemeChange? ==> patch.theme.IsKey() && (patch.theme.Given? <==> ch.theme.Some?)
    ensures ch.ThemeChange? ==> patch.theme == Choice(ch.theme)
    ensures ch.SceneChange? ==> patch.scene.IsKey() && (patch.scene.Given? <==> ch.scene.Some?)
    ensures ch.SceneChange? ==> patch.scene == Choice(ch.scene)
    ensures ch.AgeChange? ==> patch.ageGroup.IsKey() && (patch.ageGroup.Given? <==> ch.ageGroup.Some?)
    ensures ch.AgeChange? ==> patch.ageGroup == Choice(ch.ageGroup)
    ensures ch.FavoritesChange? ==> patch.onlyFavorites.IsKey() && (FlagActive(patch.onlyFavorites) <==> ch.onlyFavorites)
    ensures ch.EnglishChange? ==> patch.hasEnglish.IsKey() && (FlagActive(patch.hasEnglish) <==> ch.hasEnglish)
    ensures ch.UserGeneratedChange? ==>
      patch.onlyUserGenerated.IsKey() && (FlagActive(patch.onlyUserGenerated) <==> ch.onlyUserGenerated)
  {
    match ch
    case ThemeChange(t) => NoFilters.(theme := Choice(t))
    case SceneChange(s) => NoFilters.(scene := Choice(s))
    case AgeChange(g) => NoFilters.(ageGroup := Choice(g))
    case FavoritesChange(b) => NoFilters.(onlyFavorites := Flag(b))
    case EnglishChange(b) => NoFilters.(hasEnglish := Flag(b))
    case UserGeneratedChange(b) => NoFilters.(onlyUserGenerated := Flag(b))
  }

  /** The filters the bar edits never come to hold `false`. */
  lemma ChangeKeepsNormalised(f: Filters, ch: Change)
    requires Normalised(f)
    ensures Normalised(Context.SetFilters(f, HandleFilterChange(ch)))
  {
  }

  /** `toggleFavoritesOnly()`: `handleFilterChange('onlyFavorites', !filters.onlyFavorites)`;
      switching off stores `undefined`, not `false`. */
  function ToggleFavoritesOnly(f: Filters): (patch: Filters)
    ensures KeyCount(patch) == 1
    ensures patch.onlyFavorites == (if FlagActive(f.onlyFavorites) then Undefined else Given(true))
  {
    HandleFilterChange(FavoritesChange(!FlagActive(f.onlyFavorites)))
  }

  /** Two toggles restore the favourites filter and touch nothing else. */
  lemma ToggleFavoritesTwice(f: Filters)
    ensures var g := Context.SetFilters(f, ToggleFavoritesOnly(f));
      var h := Context.SetFilters(g, ToggleFavoritesOnly(g));
      && (FlagActive(h.onlyFavorites) <==> FlagActive(f.onlyFavorites))
      && h.(onlyFavorites := f.onlyFavorites) == f
  {
  }

  // -------------------------------------------------------------------- chips

  datatype Chip = ThemeChip | SceneChip | AgeChip | FavoritesChip

  /** A chip is shown for each truthy theme, scene, age group and favourites filter. */
  predicate Shown(f: Filters, chip: Chip)
  {
    match chip
    case ThemeChip => ValueActive(f.theme)
    case SceneChip => ValueActive(f.scene)
    case AgeChip => ValueActive(f.ageGroup)
    case FavoritesChip => FlagActive(f.onlyFavorites)
  }

  /** The change a chip's remove button sends. */
  function RemoveChip(chip: Chip): (patch: Filters)
    ensures KeyCount(patch) == 1
    ensures chip.ThemeChip? ==> patch.theme == Undefined
    ensures chip.SceneChip? ==> patch.scene == Undefined
    ensures chip.AgeChip? ==> patch.ageGroup == Undefined
    ensures chip.FavoritesChip? ==> patch.onlyFavorites == Undefined
  {
    match chip
    case ThemeChip => HandleFilterChange(ThemeChange(None))
    case SceneChip => HandleFilterChange(SceneChange(None))
    case AgeChip => HandleFilterChange(AgeChange(None))
    case FavoritesChip => HandleFilterChange(FavoritesChange(false))
  }

  /** Removing a shown chip hides it, lowers the count by one and leaves the
      other chips as they were. */
  lemma RemoveChipLowersCount(f: Filters, chip: Chip)
    requires Shown(f, chip)
    ensures !Shown(Context.SetFilters(f, RemoveChip(chip)), chip)
    ensures ActiveFiltersCount(Context.SetFilters(f, RemoveChip(chip))) == ActiveFiltersCount(f) - 1
    ensures forall other :: other != chip ==>
      (Shown(Context.SetFilters(f, RemoveChip(chip)), other) <==> Shown(f, other))
  {
  }

  // ---------------------------------------------------------------- clear all

  /** The bar's local search text and the parent's filters. */
  datatype Bar = Bar(query: string, filters: Filters)

  /** `handleClearAll()` with the parent's `onClear` as written: the search box
      empties, the filters stay as they were. */
  function HandleClearAllAsWritten(b: Bar): (r: Bar)
    ensures r.query == []
    ensures r.filters == b.filters
  {
    Bar([], Context.ClearFiltersAsWritten(b.filters))
  }

  /** After clear-all the bar still reports every filter it reported before. */
  lemma ClearAllKeepsCount(b: Bar)
    ensures ActiveFiltersCount(HandleClearAllAsWritten(b).filters) == ActiveFiltersCount(b.filters)
  {
  }

  /** `handleClearAll()` with the clear the button promises. */
  function HandleClearAll(b: Bar): (r: Bar)
    ensures r.query == []
    ensures ActiveFiltersCount(r.filters) == 0 && !HasKeys(r.filters)
  {
    Bar([], Context.ClearFilters(b.filters))
  }
}

=== FILE: navigation.dfy ===
/**
 The navigation bar's choice of highlighted link, and the tab bar's
 highlighted tab.
 */
module Navigation {
  import opened Text
  import opened Seqs

  const HomeHref: string := "/"

  /** `NAVIGATION_ITEMS`, by `href`. */
  const NavigationItems: seq<string> := [HomeHref, "/daily-special", "/categories", "/favorites", "/add-affirmation"]

  /** `isActive(href)`: the home link only on `/` itself, any other link on
      every path that begins with its `href`. */
  predicate IsActive(pathname: string, href: string)
  {
    if href == HomeHref then pathname == HomeHref else StartsWith(pathname, href)
  }

  /** The links are distinct, every link but home is at least two characters
      long, and no two of those share their second character. */
  predicate SecondCharsDistinct(hrefs: seq<string>)
  {
    && (forall i :: 0 <= i < |hrefs| && hrefs[i] != HomeHref ==> |hrefs[i]| >= 2)
    && (forall i, j :: 0 <= i < |hrefs| && 0 <= j < |hrefs| && i != j && hrefs[i] != HomeHref && hrefs[j] != HomeHref
          ==> hrefs[i][1] != hrefs[j][1])
    && (forall i, j :: 0 <= i < |hrefs| && 0 <= j < |hrefs| && i != j ==> hrefs[i] != hrefs[j])
  }

  lemma NavigationItemsDistinct()
    ensures SecondCharsDistinct(NavigationItems)
  {
    var n := NavigationItems;
    assert n[1][1] == 'd' && n[2][1] == 'c' && n[3][1] == 'f' && n[4][1] == 'a';
    assert |n[0]| == 1 && |n[1]| >= 2 && |n[2]| >= 2 && |n[3]| >= 2 && |n[4]| >= 2;
  }

  /** For a list of links in that shape, no path highlights two of them. */
  lemma AtMostOneActiveIn(hrefs: seq<string>, pathname: string, i: int, j: int)
    requires SecondCharsDistinct(hrefs)
    requires 0 <= i < |hrefs| && 0 <= j < |hrefs| && i != j
    ensures !(IsActive(pathname, hrefs[i]) && IsActive(pathname, hrefs[j]))
  {
    if IsActive(pathname, hrefs[i]) && hrefs[i] != HomeHref && hrefs[j] != HomeHref && |hrefs[j]| <= |pathname| {
      assert pathname[..|hrefs[i]|][1] == pathname[1];
      assert pathname[..|hrefs[j]|][1] == pathname[1];
    }
  }

  /** No path highlights two items of the navigation bar. */
  lemma AtMostOneActive(pathname: string, i: int, j: int)
    requires 0 <= i < |NavigationItems| && 0 <= j < |NavigationItems| && i != j
    ensures !(IsActive(pathname, NavigationItems[i]) && IsActive(pathname, NavigationItems[j]))
  {
    NavigationItemsDistinct();
    AtMostOneActiveIn(NavigationItems, pathname, i, j);
  }

  /** On an item's own path that item, and only that item, is highlighted. */
  lemma OwnPathActive(i: int, j: int)
    requires 0 <= i < |NavigationItems| && 0 <= j < |NavigationItems|
    ensures IsActive(NavigationItems[i], NavigationItems[j]) <==> i == j
  {
    var p := NavigationItems[i];
    assert IsActive(p, p) by {
      assert p[..|p|] == p;
    }
    if i != j {
      AtMostOneActive(p, i, j);
    }
  }

  /** A path below an item's path highlights that item, including a path that
      merely extends its text such as `/favorites-x`. */
  lemma ExtendedPathActive(href: string, rest: string)
    requires href != HomeHref
    ensures IsActive(href + rest, href)
  {
    assert (href + rest)[..|href|] == href;
  }

  // ------------------------------------------------------------ tab bar

  /** The highlight of each tab: its key equals `activeKey`. */
  function Highlighted(keys: seq<string>, activeKey: string): (h: seq<bool>)
    ensures |h| == |keys|
    ensures forall i :: 0 <= i < |keys| ==> (h[i] <==> keys[i] == activeKey)
  {
    seq(|keys|, i requires 0 <= i < |keys| => keys[i] == activeKey)
  }

  /** As many tabs are highlighted as carry the active key. */
  lemma {:induction false} HighlightCount(keys: seq<string>, activeKey: string)
    ensures Count(Highlighted(keys, activeKey), true) == Count(keys, activeKey)
    decreases |keys|
  {
    if keys != [] {
      assert Highlighted(keys, activeKey)[1..] == Highlighted(keys[1..], activeKey);
      HighlightCount(keys[1..], activeKey);
    }
  }

  /** With distinct keys, exactly one tab is highlighted when the active key
      is among them and none otherwise. */
  lemma OneTabHighlighted(keys: seq<string>, activeKey: string)
    requires NoDuplicates(keys)
    ensures Count(Highlighted(keys, activeKey), true) == (if activeKey in keys then 1 else 0)
  {
    HighlightCount(keys, activeKey);
    CountDistinct(keys, activeKey);
  }
}

=== FILE: seqs.dfy ===
/**
 Generic list operations shared by the engine and the views: `Array.prototype.filter`,
 `slice` with its negative-index rules, occurrence counting, and the stable
 sort that `Array.prototype.sort` performs for a consistent numeric comparator.
 */
module Seqs {

  /** `s.filter(p)`: the elements satisfying `p`, in their original order. */
  function Filter<T>(s: seq<T>, p: T -> bool): (r: seq<T>)
    ensures |r| <= |s|
    ensures forall i :: 0 <= i < |r| ==> r[i] in s && p(r[i])
    ensures forall i :: 0 <= i < |s| && p(s[i]) ==> s[i] in r
  {
    if s == [] then [] else (if p(s[0]) then [s[0]] else []) + Filter(s[1..], p)
  }

  /** Filtering distributes over concatenation. */
  lemma {:induction false} FilterAppend<T>(a: seq<T>, b: seq<T>, p: T -> bool)
    ensures Filter(a + b, p) == Filter(a, p) + Filter(b, p)
    decreases |a|
  {
    if a == [] {
      assert a + b == b;
    } else {
      FilterAppend(a[1..], b, p);
      FilterConsAppend(a[0], a[1..], b, p);
      assert a == [a[0]] + a[1..];
    }
  }

  /** One step of the induction above. */
  lemma FilterConsAppend<T>(x: T, t: seq<T>, b: seq<T>, p: T -> bool)
    requires Filter(t + b, p) == Filter(t, p) + Filter(b, p)
    ensures Filter([x] + t + b, p) == Filter([x] + t, p) + Filter(b, p)
  {
    AppendAssoc([x], t, b);
    assert ([x] + (t + b))[1..] == t + b;
    assert ([x] + t)[1..] == t;
    AppendAssoc(if p(x) then [x] else [], Filter(t, p), Filter(b, p));
  }

  /** `a` is `b` with some elements deleted and the rest kept in order. */
  ghost predicate IsSubsequence<T>(a: seq<T>, b: seq<T>)
    decreases |b|
  {
    a == [] || (|b| > 0 && ((a[0] == b[0] && IsSubsequence(a[1..], b[1..])) || IsSubsequence(a, b[1..])))
  }

  lemma {:induction false} FilterIsSubsequence<T>(s: seq<T>, p: T -> bool)
    ensures IsSubsequence(Filter(s, p), s)
    decreases |s|
  {
    if s != [] {
      FilterIsSubsequence(s[1..], p);
      if p(s[0]) {
        assert Filter(s, p) == [s[0]] + Filter(s[1..], p);
        assert Filter(s, p)[1..] == Filter(s[1..], p);
      } else {
        assert Filter(s, p) == Filter(s[1..], p);
      }
    }
  }

  /** Filters with pointwise-equal predicates agree. */
  lemma {:induction false} FilterCongruent<T>(s: seq<T>, p: T -> bool, q: T -> bool)
    requires forall x :: x in s ==> p(x) == q(x)
    ensures Filter(s, p) == Filter(s, q)
    decreases |s|
  {
    if s != [] {
      FilterCongruent(s[1..], p, q);
    }
  }

  /** A filter that every element passes is the identity. */
  lemma {:induction false} FilterKeepsAll<T>(s: seq<T>, p: T -> bool)
    requires forall x :: x in s ==> p(x)
    ensures Filter(s, p) == s
    decreases |s|
  {
    if s != [] {
      FilterKeepsAll(s[1..], p);
    }
  }

  /** Two filters in a row are one filter by the conjunction. */
  lemma {:induction false} FilterFuse<T>(s: seq<T>, p: T -> bool, q: T -> bool, pq: T -> bool)
    requires forall x :: x in s ==> pq(x) == (p(x) && q(x))
    ensures Filter(Filter(s, p), q) == Filter(s, pq)
    decreases |s|
  {
    if s != [] {
      FilterFuse(s[1..], p, q, pq);
      var t := Filter(s[1..], p);
      if p(s[0]) {
        assert Filter(s, p) == [s[0]] + t;
        assert ([s[0]] + t)[1..] == t;
        assert Filter([s[0]] + t, q) == (if q(s[0]) then [s[0]] else []) + Filter(t, q);
      } else {
        assert Filter(s, p) == t;
      }
    }
  }

  /** A filter never changes the number of elements it keeps when applied twice. */
  lemma {:induction false} FilterIdempotent<T>(s: seq<T>, p: T -> bool)
    ensures Filter(Filter(s, p), p) == Filter(s, p)
  {
    FilterKeepsAll(Filter(s, p), p);
  }

  /** The number of occurrences of `x` in `s`. */
  function Count<T(==)>(s: seq<T>, x: T): (n: nat)
    ensures n <= |s|
    ensures n == 0 <==> x !in s
  {
    if s == [] then 0 else (if s[0] == x then 1 else 0) + Count(s[1..], x)
  }

  /** In a duplicate-free list a value occurs once if at all. */
  lemma {:induction false} CountDistinct<T>(s: seq<T>, x: T)
    requires NoDuplicates(s)
    ensures Count(s, x) == (if x in s then 1 else 0)
    decreases |s|
  {
    if s != [] {
      CountDistinct(s[1..], x);
      if s[0] == x {
        assert x !in s[1..];
      }
    }
  }

  /** `s.indexOf(x)`, with `|s|` standing for "not found". */
  function FirstIndex<T(==)>(s: seq<T>, x: T): (i: nat)
    ensures i <= |s|
    ensures i < |s| <==> x in s
    ensures i < |s| ==> s[i] == x && x !in s[..i]
  {
    if s == [] then 0
    else if s[0] == x then 0
    else
      var k := 1 + FirstIndex(s[1..], x);
      assert s == [s[0]] + s[1..];
      assert k < |s| ==> s[..k] == [s[0]] + s[1..][..k - 1];
      k
  }

  /** Occurrences add up over a concatenation. */
  lemma {:induction false} CountAppend<T>(a: seq<T>, b: seq<T>, x: T)
    ensures Count(a + b, x) == Count(a, x) + Count(b, x)
    decreases |a|
  {
    if a == [] {
      assert a + b == b;
    } else {
      assert (a + b)[1..] == a[1..] + b;
      CountAppend(a[1..], b, x);
    }
  }

  /** `s.filter(y => y !== x)`: every occurrence of `x` removed. */
  function RemoveAll<T(==)>(s: seq<T>, x: T): (r: seq<T>)
    ensures x !in r
    ensures |r| == |s| - Count(s, x)
  {
    if s == [] then [] else (if s[0] == x then [] else [s[0]]) + RemoveAll(s[1..], x)
  }

  /** Exactly the elements other than `x` survive. */
  lemma {:induction false} RemoveAllMembers<T>(s: seq<T>, x: T)
    ensures forall y :: y in RemoveAll(s, x) <==> y in s && y != x
    decreases |s|
  {
    if s != [] {
      RemoveAllMembers(s[1..], x);
      assert s == [s[0]] + s[1..];
    }
  }

  /** Removing an element that is not there changes nothing. */
  lemma {:induction false} RemoveAllAbsent<T>(s: seq<T>, x: T)
    requires x !in s
    ensures RemoveAll(s, x) == s
    decreases |s|
  {
    if s != [] {
      RemoveAllAbsent(s[1..], x);
    }
  }

  /** Appending `x` to a list without it and removing it again is the identity. */
  lemma AppendThenRemove<T>(s: seq<T>, x: T)
    requires x !in s
    ensures RemoveAll(s + [x], x) == s
  {
    RemoveAllAppend(s, [x], x);
    RemoveAllAbsent(s, x);
  }

  lemma {:induction false} RemoveAllAppend<T>(a: seq<T>, b: seq<T>, x: T)
    ensures RemoveAll(a + b, x) == RemoveAll(a, x) + RemoveAll(b, x)
    decreases |a|
  {
    if a == [] {
      assert a + b == b;
    } else {
      RemoveAllAppend(a[1..], b, x);
      RemoveAllConsAppend(a[0], a[1..], b, x);
      assert a == [a[0]] + a[1..];
    }
  }

  /** One step of the induction above, kept apart so its sequence facts stay small. */
  lemma RemoveAllConsAppend<T>(y: T, t: seq<T>, b: seq<T>, x: T)
    requires RemoveAll(t + b, x) == RemoveAll(t, x) + RemoveAll(b, x)
    ensures RemoveAll([y] + t + b, x) == RemoveAll([y] + t, x) + RemoveAll(b, x)
  {
    AppendAssoc([y], t, b);
    RemoveAllCons(y, t + b, x);
    RemoveAllCons(y, t, x);
    AppendAssoc(if y == x then [] else [y], RemoveAll(t, x), RemoveAll(b, x));
  }

  lemma AppendAssoc<T>(a: seq<T>, b: seq<T>, c: seq<T>)
    ensures (a + b) + c == a + (b + c)
  {
  }

  lemma RemoveAllCons<T>(y: T, t: seq<T>, x: T)
    ensures RemoveAll([y] + t, x) == (if y == x then [] else [y]) + RemoveAll(t, x)
  {
    assert ([y] + t)[1..] == t;
  }

  /** Clamp a JS relative index into [0, n]: a negative index counts from the end. */
  function RelativeIndex(i: int, n: nat): (k: nat)
    ensures k <= n
    ensures 0 <= i <= n ==> k == i
    ensures i > n ==> k == n
    ensures i < 0 && n + i >= 0 ==> k == n + i
    ensures n + i < 0 ==> k == 0
  {
    if i < 0 then (if n + i < 0 then 0 else n + i) else if i > n then n else i
  }

  /** `s.slice(start, end)`. */
  function JsSlice<T>(s: seq<T>, start: int, end: int): (r: seq<T>)
    ensures r == [] <==> RelativeIndex(end, |s|) <= RelativeIndex(start, |s|)
    ensures r != [] ==> r == s[RelativeIndex(start, |s|)..RelativeIndex(end, |s|)]
  {
    var a, b := RelativeIndex(start, |s|), RelativeIndex(end, |s|);
    if a < b then s[a..b] else []
  }

  /** The laws of `slice`: the full slice is the list, adjacent slices join,
      a negative start takes that many entries from the end, and bounds past
      the end are cut back to it. */
  lemma JsSliceLaws<T>(s: seq<T>, a: int, b: int, c: int, k: nat)
    ensures JsSlice(s, 0, |s|) == s
    ensures 0 <= a <= b <= c <= |s| ==> JsSlice(s, a, b) + JsSlice(s, b, c) == JsSlice(s, a, c)
    ensures 0 < k <= |s| ==> JsSlice(s, -(k as int), |s|) == s[|s| - k..]
    ensures c >= |s| ==> JsSlice(s, a, c) == JsSlice(s, a, |s|)
  {
    if 0 <= a <= b <= c <= |s| {
      if a < b && b < c {
        assert s[a..b] + s[b..c] == s[a..c];
      }
    }
  }

  /** `slice(0, limit)` is a prefix: the first `limit` entries, or all of
      them when there are fewer. */
  lemma LeadingSlice<T>(s: seq<T>, limit: int)
    ensures JsSlice(s, 0, limit) <= s
    ensures limit >= 0 ==> JsSlice(s, 0, limit) == s[..if limit < |s| then limit else |s|]
  {
    assert JsSlice(s, 0, limit) == s[..RelativeIndex(limit, |s|)];
  }

  /** The list is ordered by `key` non-decreasing. */
  ghost predicate SortedBy<T>(s: seq<T>, key: T -> int)
  {
    forall i, j :: 0 <= i < j < |s| ==> key(s[i]) <= key(s[j])
  }

  /** A sorted list stays sorted when an element no larger than its head is put in front. */
  lemma PrependSorted<T>(a: T, t: seq<T>, key: T -> int)
    requires SortedBy(t, key)
    requires |t| > 0 ==> key(a) <= key(t[0])
    ensures SortedBy([a] + t, key)
  {
    var r := [a] + t;
    forall i, j | 0 <= i < j < |r| ensures key(r[i]) <= key(r[j]) {
      if i == 0 {
        assert r[j] == t[j - 1];
        assert key(t[0]) <= key(t[j - 1]);
      } else {
        assert r[i] == t[i - 1] && r[j] == t[j - 1];
      }
    }
  }

  /** Put `x` before the first element whose key is not smaller. */
  function Insert<T>(x: T, s: seq<T>, key: T -> int): (r: seq<T>)
    requires SortedBy(s, key)
    ensures |r| == |s| + 1
    ensures r[0] == x || (|s| > 0 && r[0] == s[0])
    ensures SortedBy(r, key)
    ensures multiset(r) == multiset(s) + multiset{x}
  {
    if s == [] then [x]
    else if key(x) <= key(s[0]) then
      PrependSorted(x, s, key);
      [x] + s
    else
      TailSorted(s, key);
      var t := Insert(x, s[1..], key);
      InsertBehind(x, s, t, key);
      [s[0]] + t
  }

  lemma TailSorted<T>(s: seq<T>, key: T -> int)
    requires SortedBy(s, key) && s != []
    ensures SortedBy(s[1..], key)
    ensures |s| > 1 ==> key(s[0]) <= key(s[1])
  {
  }

  /** The head stays in front when `x` goes behind it. */
  lemma InsertBehind<T>(x: T, s: seq<T>, t: seq<T>, key: T -> int)
    requires s != [] && key(x) > key(s[0]) && (|s| > 1 ==> key(s[0]) <= key(s[1]))
    requires |t| == |s| && (t[0] == x || (|s| > 1 && t[0] == s[1]))
    requires SortedBy(t, key) && multiset(t) == multiset(s[1..]) + multiset{x}
    ensures SortedBy([s[0]] + t, key)
    ensures multiset([s[0]] + t) == multiset(s) + multiset{x}
  {
    PrependSorted(s[0], t, key);
    assert s == [s[0]] + s[1..];
  }

  /** The stable sort by ascending `key`: `sort((a, b) => key(a) - key(b))`. */
  function SortBy<T>(s: seq<T>, key: T -> int): (r: seq<T>)
    ensures SortedBy(r, key)
    ensures multiset(r) == multiset(s)
    ensures |r| == |s|
  {
    if s == [] then []
    else
      assert s == [s[0]] + s[1..];
      Insert(s[0], SortBy(s[1..], key), key)
  }

  /** Filtering a sorted list leaves it sorted. */
  lemma {:induction false} FilterSorted<T>(s: seq<T>, p: T -> bool, key: T -> int)
    requires SortedBy(s, key)
    ensures SortedBy(Filter(s, p), key)
    decreases |s|
  {
    if s != [] {
      var t := Filter(s[1..], p);
      FilterSorted(s[1..], p, key);
      if p(s[0]) {
        if |t| > 0 {
          assert t[0] in s[1..];
        }
        PrependSorted(s[0], t, key);
      }
    }
  }

  /** The elements whose key equals `k`, in order. */
  function WithKey<T>(s: seq<T>, key: T -> int, k: int): seq<T>
  {
    if s == [] then [] else (if key(s[0]) == k then [s[0]] else []) + WithKey(s[1..], key, k)
  }

  lemma {:induction false} InsertKeepsTies<T>(x: T, s: seq<T>, key: T -> int, k: int)
    requires SortedBy(s, key)
    ensures WithKey(Insert(x, s, key), key, k)
         == (if key(x) == k then [x] else []) + WithKey(s, key, k)
    decreases |s|
  {
    if s == [] {
      assert Insert(x, s, key) == [x];
      assert WithKey([x], key, k) == (if key(x) == k then [x] else []) + WithKey([], key, k);
    } else if key(x) <= key(s[0]) {
      InsertInFrontKeepsTies(x, s, key, k);
    } else {
      InsertKeepsTies(x, s[1..], key, k);
      InsertBehindKeepsTies(x, s, key, k);
    }
  }

  lemma InsertInFrontKeepsTies<T>(x: T, s: seq<T>, key: T -> int, k: int)
    requires SortedBy(s, key) && s != [] && key(x) <= key(s[0])
    ensures WithKey(Insert(x, s, key), key, k)
         == (if key(x) == k then [x] else []) + WithKey(s, key, k)
  {
    assert Insert(x, s, key) == [x] + s;
    assert ([x] + s)[0] == x;
    assert ([x] + s)[1..] == s;
  }

  lemma InsertBehindKeepsTies<T>(x: T, s: seq<T>, key: T -> int, k: int)
    requires SortedBy(s, key) && s != [] && key(x) > key(s[0])
    requires WithKey(Insert(x, s[1..], key), key, k)
          == (if key(x) == k then [x] else []) + WithKey(s[1..], key, k)
    ensures WithKey(Insert(x, s, key), key, k)
         == (if key(x) == k then [x] else []) + WithKey(s, key, k)
  {
    var t := Insert(x, s[1..], key);
    assert Insert(x, s, key) == [s[0]] + t;
    assert s == [s[0]] + s[1..];
    ConsBehindTie(s[0], x, t, s[1..], key, k);
  }

  /** Putting an element whose key differs from `x`'s in front of both sides
      keeps `x`'s place among the elements with key `k`. */
  lemma ConsBehindTie<T>(a: T, x: T, t: seq<T>, rest: seq<T>, key: T -> int, k: int)
    requires key(a) != key(x)
    requires WithKey(t, key, k) == (if key(x) == k then [x] else []) + WithKey(rest, key, k)
    ensures WithKey([a] + t, key, k) == (if key(x) == k then [x] else []) + WithKey([a] + rest, key, k)
  {
    assert ([a] + t)[1..] == t;
    assert ([a] + rest)[1..] == rest;
    var hx, ha, w := (if key(x) == k then [x] else []), (if key(a) == k then [a] else []), WithKey(rest, key, k);
    // x and a cannot both carry key k
    if hx == [] {
      assert ha + (hx + w) == hx + (ha + w);
    } else {
      assert ha == [];
      assert ha + (hx + w) == hx + (ha + w);
    }
  }

  /** Stability: among elements with equal keys the sort keeps the input order. */
  lemma {:induction false} SortStable<T>(s: seq<T>, key: T -> int, k: int)
    ensures WithKey(SortBy(s, key), key, k) == WithKey(s, key, k)
    decreases |s|
  {
    if s != [] {
      SortStable(s[1..], key, k);
      InsertKeepsTies(s[0], SortBy(s[1..], key), key, k);
    }
  }

  /** No value occurs twice. */
  ghost predicate NoDuplicates<T>(s: seq<T>)
  {
    forall i, j :: 0 <= i < j < |s| ==> s[i] != s[j]
  }

  /** In a duplicate-free list every value has multiplicity at most one. */
  lemma {:induction false} NoDuplicatesMultiplicity<T>(s: seq<T>, x: T)
    requires NoDuplicates(s)
    ensures multiset(s)[x] <= 1
    decreases |s|
  {
    if s != [] {
      NoDuplicatesMultiplicity(s[1..], x);
      assert s == [s[0]] + s[1..];
      assert s[0] !in s[1..];
    }
  }

  /** A list whose elements are drawn, with multiplicity, from a
      duplicate-free list is duplicate-free. */
  lemma NoDuplicatesSubMultiset<T>(a: seq<T>, b: seq<T>)
    requires NoDuplicates(a) && multiset(b) <= multiset(a)
    ensures NoDuplicates(b)
  {
    forall i, j | 0 <= i < j < |b| ensures b[i] != b[j] {
      if b[i] == b[j] {
        var x := b[i];
        assert b == b[..j] + b[j..];
        assert x in b[..j] && x in b[j..];
        assert multiset(b)[x] >= 2;
        NoDuplicatesMultiplicity(a, x);
        assert false;
      }
    }
  }

  /** Filtering a duplicate-free list leaves it duplicate-free. */
  lemma {:induction false} FilterNoDuplicates<T>(s: seq<T>, p: T -> bool)
    requires NoDuplicates(s)
    ensures NoDuplicates(Filter(s, p))
    decreases |s|
  {
    if s != [] {
      FilterNoDuplicates(s[1..], p);
      var rest := Filter(s[1..], p);
      assert s[0] !in s[1..] by {
        forall k | 0 <= k < |s| - 1 ensures s[1..][k] != s[0] {
          assert s[k + 1] != s[0];
        }
      }
      assert s[0] !in rest;
    }
  }

  /** Dropping elements outside `p` leaves the elements with a key in `p`
      where they were. */
  lemma {:induction false} WithKeyAfterFilter<T>(s: seq<T>, p: T -> bool, key: T -> int, k: int)
    requires forall x :: key(x) == k ==> p(x)
    ensures WithKey(Filter(s, p), key, k) == WithKey(s, key, k)
    decreases |s|
  {
    if s != [] {
      WithKeyAfterFilter(s[1..], p, key, k);
      var t := Filter(s[1..], p);
      var w := if key(s[0]) == k then [s[0]] else [];
      assert WithKey(s, key, k) == w + WithKey(s[1..], key, k);
      if p(s[0]) {
        assert Filter(s, p) == [s[0]] + t;
        assert ([s[0]] + t)[1..] == t;
        assert WithKey([s[0]] + t, key, k) == w + WithKey(t, key, k);
      } else {
        assert w == [];
        assert Filter(s, p) == t;
      }
    }
  }

  /** The concatenation of a list of lists. */
  function Flatten<T>(ss: seq<seq<T>>): (r: seq<T>)
  {
    if ss == [] then [] else ss[0] + Flatten(ss[1..])
  }
}

=== FILE: service.dfy ===
/**
 The selection engine: the in-memory catalog with its initialisation guard,
 multi-predicate filtering and text search, random and recommended picks, the
 per-day memoised special message, popularity ranking, category statistics,
 user-item add/remove, and the user-side favourite toggle and preference
 analysis. The clock (`now`, `hour`) and `Math.random()` (`u`) are parameters.
 */
module AffirmationService {
  import opened Types
  import opened Text
  import opened Seqs
  import Storage

  /** The service's static state: the loaded items and the initialisation flag. */
  datatype Catalog = Catalog(items: seq<Affirmation>, initialized: bool)

  /** Before `initialize`. */
  const Fresh: Catalog := Catalog([], false)

  /** `initialize()`: the bundled items followed by the user's stored items;
      a no-op once initialised. */
  function Initialize(c: Catalog, st: Storage.Store, bundled: seq<Affirmation>): (r: Catalog)
    ensures r.initialized
    ensures c.initialized ==> r == c
    ensures !c.initialized ==> r.items == bundled + Storage.GetActivity(st).userAffirmations
  {
    if c.initialized then c
    else
      var user := Storage.GetActivity(st).userAffirmations;
      Catalog(if |user| > 0 then bundled + user else bundled, true)
  }

  /** Initialising twice is initialising once, whatever the store holds by then. */
  lemma InitializeIdempotent(c: Catalog, st: Storage.Store, st2: Storage.Store, bundled: seq<Affirmation>)
    ensures Initialize(Initialize(c, st, bundled), st2, bundled) == Initialize(c, st, bundled)
  {
  }

  /** `getAllAffirmations()`. */
  function GetAll(c: Catalog): (r: Result<seq<Affirmation>>)
    ensures r.Ok? <==> c.initialized
    ensures r.Ok? ==> r.value == c.items
  {
    if !c.initialized then NotInitialized else Ok(c.items)
  }

  /** The position of the first item carrying `id`, `|items|` when none does. */
  function FindIndex(items: seq<Affirmation>, id: string): (k: nat)
    ensures k <= |items|
    ensures k < |items| ==> items[k].id == id
    ensures forall i :: 0 <= i < k ==> items[i].id != id
  {
    if items == [] then 0
    else if items[0].id == id then 0
    else 1 + FindIndex(items[1..], id)
  }

  /** `items.find(aff => aff.id === id) || null`. */
  function FindById(items: seq<Affirmation>, id: string): (r: Option<Affirmation>)
    ensures r.None? <==> forall i :: 0 <= i < |items| ==> items[i].id != id
    ensures r.Some? ==> r.value in items && r.value.id == id
    ensures r.Some? ==> var k := FindIndex(items, id);
      k < |items| && r.value == items[k] && forall i :: 0 <= i < k ==> items[i].id != id
  {
    var k := FindIndex(items, id);
    if k < |items| then Some(items[k]) else None
  }

  /** `getById(id)`. */
  function GetById(c: Catalog, id: string): (r: Result<Option<Affirmation>>)
    ensures r.Ok? <==> c.initialized
    ensures r.Ok? ==> r.value == FindById(c.items, id)
  {
    if !c.initialized then NotInitialized else Ok(FindById(c.items, id))
  }

  /** Every id occurs at most once. */
  ghost predicate UniqueIds(items: seq<Affirmation>)
  {
    forall i, j :: 0 <= i < j < |items| ==> items[i].id != items[j].id
  }

  /** With unique ids, looking up an item's id finds that item. */
  lemma FindByIdOfMember(items: seq<Affirmation>, a: Affirmation)
    requires UniqueIds(items) && a in items
    ensures FindById(items, a.id) == Some(a)
  {
    var j :| 0 <= j < |items| && items[j] == a;
    var k := FindIndex(items, a.id);
    assert k <= j;
  }

  // ------------------------------------------------------------------ filtering

  /** The query is set and not blank: `searchQuery && searchQuery.trim()`. */
  predicate QueryActive(f: Filters)
  {
    f.searchQuery.Given? && Trim(f.searchQuery.v) != []
  }

  /** `x && x.toLowerCase().includes(lq)` on an optional text. */
  predicate OptionalIncludes(x: Option<string>, lq: string)
  {
    x.Some? && x.value != [] && Includes(Lower(x.value), lq)
  }

  /** The search, ignoring the case of ASCII letters: the lower-cased query
      (untrimmed) occurs in the text, the English text or the author. */
  predicate MatchesQuery(a: Affirmation, q: string)
  {
    var lq := Lower(q);
    Includes(Lower(a.text), lq) || OptionalIncludes(a.textEn, lq) || OptionalIncludes(a.author, lq)
  }

  /** Each set predicate of the filter object, as "unset imposes nothing". */
  function PassTheme(f: Filters): Affirmation -> bool
  {
    (a: Affirmation) => f.theme.Given? ==> a.categories.theme == f.theme.v
  }

  function PassScene(f: Filters): Affirmation -> bool
  {
    (a: Affirmation) => f.scene.Given? ==> a.categories.scene == f.scene.v
  }

  function PassAge(f: Filters): Affirmation -> bool
  {
    (a: Affirmation) => f.ageGroup.Given? ==> a.categories.ageGroup == f.ageGroup.v
  }

  function PassLanguage(f: Filters): Affirmation -> bool
  {
    (a: Affirmation) => f.language.Given? ==> a.language == f.language.v
  }

  function PassFavorites(f: Filters, favorites: seq<string>): Affirmation -> bool
  {
    (a: Affirmation) => f.onlyFavorites == Given(true) ==> a.id in favorites
  }

  function PassQuery(f: Filters): Affirmation -> bool
  {
    (a: Affirmation) => QueryActive(f) ==> MatchesQuery(a, f.searchQuery.v)
  }

  /** An item satisfies every predicate the filter object sets. `hasEnglish`
      and `onlyUserGenerated` impose nothing. */
  predicate Matches(a: Affirmation, f: Filters, favorites: seq<string>)
  {
    CategoryMatches(a, f, favorites) && (QueryActive(f) ==> MatchesQuery(a, f.searchQuery.v))
  }

  /** The predicates of every field but the search query. */
  predicate CategoryMatches(a: Affirmation, f: Filters, favorites: seq<string>)
  {
    && (f.theme.Given? ==> a.categories.theme == f.theme.v)
    && (f.scene.Given? ==> a.categories.scene == f.scene.v)
    && (f.ageGroup.Given? ==> a.categories.ageGroup == f.ageGroup.v)
    && (f.language.Given? ==> a.language == f.language.v)
    && (f.onlyFavorites == Given(true) ==> a.id in favorites)
  }

  function MatchPred(f: Filters, favorites: seq<string>): Affirmation -> bool
  {
    (a: Affirmation) => Matches(a, f, favorites)
  }

  function ByTheme(t: Theme): Affirmation -> bool { (a: Affirmation) => a.categories.theme == t }
  function ByScene(s: Scene): Affirmation -> bool { (a: Affirmation) => a.categories.scene == s }
  function ByAge(g: AgeGroup): Affirmation -> bool { (a: Affirmation) => a.categories.ageGroup == g }
  function ByLanguage(l: Language): Affirmation -> bool { (a: Affirmation) => a.language == l }
  function InFavorites(favorites: seq<string>): Affirmation -> bool { (a: Affirmation) => a.id in favorites }
  function ByQuery(q: string): Affirmation -> bool { (a: Affirmation) => MatchesQuery(a, q) }

  /** `if (filters.theme) filtered = filtered.filter(...)`. */
  function ThemeStep(s: seq<Affirmation>, f: Filters): (r: seq<Affirmation>)
    ensures r == Filter(s, PassTheme(f))
  {
    if f.theme.Given? then
      FilterCongruent(s, ByTheme(f.theme.v), PassTheme(f));
      Filter(s, ByTheme(f.theme.v))
    else
      FilterKeepsAll(s, PassTheme(f));
      s
  }

  function SceneStep(s: seq<Affirmation>, f: Filters): (r: seq<Affirmation>)
    ensures r == Filter(s, PassScene(f))
  {
    if f.scene.Given? then
      FilterCongruent(s, ByScene(f.scene.v), PassScene(f));
      Filter(s, ByScene(f.scene.v))
    else
      FilterKeepsAll(s, PassScene(f));
      s
  }

  function AgeStep(s: seq<Affirmation>, f: Filters): (r: seq<Affirmation>)
    ensures r == Filter(s, PassAge(f))
  {
    if f.ageGroup.Given? then
      FilterCongruent(s, ByAge(f.ageGroup.v), PassAge(f));
      Filter(s, ByAge(f.ageGroup.v))
    else
      FilterKeepsAll(s, PassAge(f));
      s
  }

  function LanguageStep(s: seq<Affirmation>, f: Filters): (r: seq<Affirmation>)
    ensures r == Filter(s, PassLanguage(f))
  {
    if f.language.Given? then
      FilterCongruent(s, ByLanguage(f.language.v), PassLanguage(f));
      Filter(s, ByLanguage(f.language.v))
    else
      FilterKeepsAll(s, PassLanguage(f));
      s
  }

  function FavoritesStep(s: seq<Affirmation>, f: Filters, favorites: seq<string>): (r: seq<Affirmation>)
    ensures r == Filter(s, PassFavorites(f, favorites))
  {
    if f.onlyFavorites == Given(true) then
      FilterCongruent(s, InFavorites(favorites), PassFavorites(f, favorites));
      Filter(s, InFavorites(favorites))
    else
      FilterKeepsAll(s, PassFavorites(f, favorites));
      s
  }

  function QueryStep(s: seq<Affirmation>, f: Filters): (r: seq<Affirmation>)
    ensures r == Filter(s, PassQuery(f))
  {
    if QueryActive(f) then
      FilterCongruent(s, ByQuery(f.searchQuery.v), PassQuery(f));
      Filter(s, ByQuery(f.searchQuery.v))
    else
      FilterKeepsAll(s, PassQuery(f));
      s
  }

  /** The six passes in the order the service applies them. */
  function Passes(s: seq<Affirmation>, f: Filters, favorites: seq<string>): seq<Affirmation>
  {
    QueryStep(FavoritesStep(LanguageStep(AgeStep(SceneStep(ThemeStep(s, f), f), f), f), f, favorites), f)
  }

  /** The sequential passes are one filter by the conjunction of the set predicates. */
  lemma PassesAreOneFilter(s: seq<Affirmation>, f: Filters, favorites: seq<string>)
    ensures Passes(s, f, favorites) == Filter(s, MatchPred(f, favorites))
  {
    var category := (a: Affirmation) => CategoryMatches(a, f, favorites);
    CategoryPassesAreOneFilter(s, f, favorites);
    FilterFuse(s, category, PassQuery(f), MatchPred(f, favorites));
  }

  /** The five category passes are one filter by their conjunction. */
  lemma CategoryPassesAreOneFilter(s: seq<Affirmation>, f: Filters, favorites: seq<string>)
    ensures FavoritesStep(LanguageStep(AgeStep(SceneStep(ThemeStep(s, f), f), f), f), f, favorites)
         == Filter(s, (a: Affirmation) => CategoryMatches(a, f, favorites))
  {
    var q2 := (a: Affirmation) => PassTheme(f)(a) && PassScene(f)(a);
    var q3 := (a: Affirmation) => q2(a) && PassAge(f)(a);
    var q4 := (a: Affirmation) => q3(a) && PassLanguage(f)(a);
    var q5 := (a: Affirmation) => q4(a) && PassFavorites(f, favorites)(a);
    FilterFuse(s, PassTheme(f), PassScene(f), q2);
    FilterFuse(s, q2, PassAge(f), q3);
    FilterFuse(s, q3, PassLanguage(f), q4);
    FilterFuse(s, q4, PassFavorites(f, favorites), q5);
    FilterCongruent(s, q5, (a: Affirmation) => CategoryMatches(a, f, favorites));
  }

  /** The favourites list the favourites pass reads. */
  function Favorites(st: Storage.Store): seq<string>
  {
    Storage.GetActivity(st).favorites
  }

  /** `getFiltered(filters)`: the catalog items that match, in catalog order. */
  function GetFiltered(c: Catalog, f: Filters, st: Storage.Store): (r: Result<seq<Affirmation>>)
    ensures r.Ok? <==> c.initialized
    ensures r.Ok? ==> r.value == Filter(c.items, MatchPred(f, Favorites(st)))
    ensures r.Ok? ==> forall i :: 0 <= i < |c.items| ==>
      (c.items[i] in r.value <==> Matches(c.items[i], f, Favorites(st)))
  {
    if !c.initialized then NotInitialized
    else
      PassesAreOneFilter(c.items, f, Favorites(st));
      Ok(Passes(c.items, f, Favorites(st)))
  }

  /** The result keeps catalog order: it is a subsequence of the catalog. */
  lemma GetFilteredIsSubsequence(c: Catalog, f: Filters, st: Storage.Store)
    requires c.initialized
    ensures IsSubsequence(GetFiltered(c, f, st).value, c.items)
  {
    FilterIsSubsequence(c.items, MatchPred(f, Favorites(st)));
  }

  /** A blank query filters nothing; the empty filter object keeps everything. */
  lemma BlankQueryImposesNothing(c: Catalog, f: Filters, st: Storage.Store)
    requires c.initialized
    requires f.searchQuery.Given? && IsBlank(f.searchQuery.v)
    ensures GetFiltered(c, f, st) == GetFiltered(c, f.(searchQuery := Absent), st)
    ensures GetFiltered(c, NoFilters, st) == Ok(c.items)
  {
    TrimEmptyIffBlank(f.searchQuery.v);
    FilterCongruent(c.items, MatchPred(f, Favorites(st)), MatchPred(f.(searchQuery := Absent), Favorites(st)));
    FilterKeepsAll(c.items, MatchPred(NoFilters, Favorites(st)));
  }

  /** `search(query, filters?)`: the filters with `searchQuery` set to the query. */
  function Search(c: Catalog, query: string, f: Filters, st: Storage.Store): (r: Result<seq<Affirmation>>)
    ensures r.Ok? <==> c.initialized
    ensures r.Ok? && !IsBlank(query) ==> forall i :: 0 <= i < |c.items| ==>
      (c.items[i] in r.value <==>
        Matches(c.items[i], f.(searchQuery := Absent), Favorites(st)) && MatchesQuery(c.items[i], query))
    ensures r.Ok? && IsBlank(query) ==> r == GetFiltered(c, f.(searchQuery := Absent), st)
  {
    SearchBlank(c, query, f, st);
    var r := GetFiltered(c, f.(searchQuery := Given(query)), st);
    assert r.Ok? && !IsBlank(query) ==> forall i :: 0 <= i < |c.items| ==>
      (c.items[i] in r.value <==>
        Matches(c.items[i], f.(searchQuery := Absent), Favorites(st)) && MatchesQuery(c.items[i], query)) by {
      if r.Ok? && !IsBlank(query) {
        forall i | 0 <= i < |c.items| {
          MatchesWithQuery(c.items[i], f, Favorites(st), query);
        }
      }
    }
    r
  }

  lemma MatchesWithQuery(a: Affirmation, f: Filters, favorites: seq<string>, query: string)
    requires !IsBlank(query)
    ensures Matches(a, f.(searchQuery := Given(query)), favorites)
        <==> Matches(a, f.(searchQuery := Absent), favorites) && MatchesQuery(a, query)
  {
    var g, h := f.(searchQuery := Given(query)), f.(searchQuery := Absent);
    assert QueryActive(g) by { TrimEmptyIffBlank(query); }
    assert CategoryMatches(a, g, favorites) == CategoryMatches(a, h, favorites);
    assert Matches(a, g, favorites) == (CategoryMatches(a, g, favorites) && MatchesQuery(a, query));
  }

  lemma SearchBlank(c: Catalog, query: string, f: Filters, st: Storage.Store)
    ensures c.initialized && IsBlank(query) ==>
      GetFiltered(c, f.(searchQuery := Given(query)), st) == GetFiltered(c, f.(searchQuery := Absent), st)
    ensures !IsBlank(query) ==> Trim(query) != []
  {
    TrimEmptyIffBlank(query);
    if c.initialized && IsBlank(query) {
      BlankQueryImposesNothing(c, f.(searchQuery := Given(query)), st);
    }
  }

  // --------------------------------------------------------------- random picks

  /** The list `getRandomAffirmation(filters?)` draws from. */
  function Candidates(c: Catalog, f: Option<Filters>, st: Storage.Store): (r: Result<seq<Affirmation>>)
    ensures r.Ok? <==> c.initialized
    ensures r.Ok? && f.None? ==> r.value == c.items
    ensures r.Ok? && f.Some? ==> forall a :: a in r.value <==> a in c.items && Matches(a, f.value, Favorites(st))
  {
    if f.Some? then GetFiltered(c, f.value, st) else GetAll(c)
  }

  /** `getRandomAffirmation(filters?)`: null iff there is nothing to draw from. */
  function GetRandom(c: Catalog, f: Option<Filters>, st: Storage.Store, u: Draw): (r: Result<Option<Affirmation>>)
    ensures r.Ok? <==> c.initialized
    ensures r.Ok? ==> (r.value.None? <==> |Candidates(c, f, st).value| == 0)
    ensures r.Ok? && r.value.Some? ==> r.value.value in Candidates(c, f, st).value
    ensures r.Ok? && r.value.Some? && f.Some? ==> Matches(r.value.value, f.value, Favorites(st))
  {
    match Candidates(c, f, st)
    case NotInitialized => NotInitialized
    case Ok(list) =>
      if |list| == 0 then Ok(None) else Ok(Some(list[RandomIndex(u, |list|)]))
  }

  /** The scene for the local hour: the three branches in the order the
      service tests them, with 朝 as the default. */
  function SceneForHour(hour: int): (s: Scene)
    ensures 6 <= hour < 12 ==> s == Morning
    ensures 12 <= hour < 18 ==> s == Work
    ensures 18 <= hour < 24 ==> s == Night
    ensures hour < 6 || hour >= 24 ==> s == Morning
  {
    if 6 <= hour < 12 then Morning
    else if 18 <= hour < 24 then Night
    else if 9 <= hour < 18 then Work
    else Morning
  }

  /** `{ ageGroup: settings.age, scene, language: settings.language }`. */
  function RecommendedFilters(st: Storage.Store, hour: int): Filters
  {
    var s := Storage.GetSettings(st);
    NoFilters.(scene := Given(SceneForHour(hour)), ageGroup := Given(s.age), language := Given(s.language))
  }

  /** `getRecommendedAffirmation()`: a pick matching the user's age group and
      language and the scene of the hour. */
  function GetRecommended(c: Catalog, st: Storage.Store, hour: int, u: Draw): (r: Result<Option<Affirmation>>)
    ensures r.Ok? <==> c.initialized
    ensures r.Ok? && r.value.Some? ==>
      && r.value.value in c.items
      && r.value.value.categories.scene == SceneForHour(hour)
      && r.value.value.categories.ageGroup == Storage.GetSettings(st).age
      && r.value.value.language == Storage.GetSettings(st).language
    ensures r.Ok? ==> (r.value.None? <==> forall a :: a in c.items ==> !Recommendable(a, st, hour))
  {
    var f := Some(RecommendedFilters(st, hour));
    if c.initialized then RecommendedNoneIff(c, st, hour); GetRandom(c, f, st, u)
    else GetRandom(c, f, st, u)
  }

  /** The item has the scene of the hour and the stored age group and language. */
  predicate Recommendable(a: Affirmation, st: Storage.Store, hour: int)
  {
    && a.categories.scene == SceneForHour(hour)
    && a.categories.ageGroup == Storage.GetSettings(st).age
    && a.language == Storage.GetSettings(st).language
  }

  /** The recommendation's candidates are empty exactly when no catalogue
      item has the hour's scene and the stored age group and language. */
  lemma RecommendedNoneIff(c: Catalog, st: Storage.Store, hour: int)
    requires c.initialized
    ensures |Candidates(c, Some(RecommendedFilters(st, hour)), st).value| == 0
        <==> forall a :: a in c.items ==> !Recommendable(a, st, hour)
  {
    var f := RecommendedFilters(st, hour);
    var l := Candidates(c, Some(f), st).value;
    forall a | a in c.items ensures Matches(a, f, Favorites(st)) <==> Recommendable(a, st, hour) {
    }
    if |l| > 0 {
      assert l[0] in l;
    }
  }

  // -------------------------------------------------------------- daily special

  function ThemeOf(a: Affirmation): Theme { a.categories.theme }

  /** The number of items of theme `t`. */
  function ThemeCount(s: seq<Affirmation>, t: Theme): (n: nat)
    ensures n <= |s|
  {
    if s == [] then 0 else (if s[0].categories.theme == t then 1 else 0) + ThemeCount(s[1..], t)
  }

  /** The position of a theme in the key order of the counting record. */
  function ThemeIndex(t: Theme): (i: nat)
    ensures i < |Themes| && Themes[i] == t
  {
    match t
    case Confidence => 0
    case Love => 1
    case Success => 2
    case Health => 3
  }

  /** `entries.reduce((max, [t, n]) => n > max.count ? {t, n} : max, {best, count})`. */
  function MaxFold(liked: seq<Affirmation>, ts: seq<Theme>, best: Theme, count: int): Theme
  {
    if ts == [] then best
    else if ThemeCount(liked, ts[0]) > count then MaxFold(liked, ts[1..], ts[0], ThemeCount(liked, ts[0]))
    else MaxFold(liked, ts[1..], best, count)
  }

  /** The position of the key the fold settles on, or -1 when the seed survives. */
  function FoldWinner(liked: seq<Affirmation>, ts: seq<Theme>, count: int): (k: int)
    ensures -1 <= k < |ts|
  {
    if ts == [] then -1
    else
      var n0 := ThemeCount(liked, ts[0]);
      var k := FoldWinner(liked, ts[1..], if n0 > count then n0 else count);
      if k >= 0 then k + 1 else if n0 > count then 0 else -1
  }

  /** The fold keeps its seed unless some key beats it, and then returns the
      first key with the largest count. */
  lemma {:induction false} MaxFoldSpec(liked: seq<Affirmation>, ts: seq<Theme>, best: Theme, count: int)
    ensures var r, k := MaxFold(liked, ts, best, count), FoldWinner(liked, ts, count);
      && (k < 0 ==> r == best && forall i :: 0 <= i < |ts| ==> ThemeCount(liked, ts[i]) <= count)
      && (k >= 0 ==> r == ts[k] && ThemeCount(liked, r) > count)
      && (k >= 0 ==> forall i :: 0 <= i < |ts| ==> ThemeCount(liked, ts[i]) <= ThemeCount(liked, r))
      && (k >= 0 ==> forall i :: 0 <= i < k ==> ThemeCount(liked, ts[i]) < ThemeCount(liked, r))
    decreases |ts|
  {
    if ts != [] {
      var n0 := ThemeCount(liked, ts[0]);
      var count' := if n0 > count then n0 else count;
      MaxFoldSpec(liked, ts[1..], if n0 > count then ts[0] else best, count');
      forall i | 0 < i < |ts| ensures ts[i] == ts[1..][i - 1] { }
    }
  }

  /** The most-liked theme: the largest count, ties going to the earliest key
      of 自信, 愛, 成功, 健康; 自信 when nothing is liked. */
  function MostLikedTheme(liked: seq<Affirmation>): (t: Theme)
    ensures forall t' :: ThemeCount(liked, t') <= ThemeCount(liked, t)
    ensures forall t' :: ThemeIndex(t') < ThemeIndex(t) ==> ThemeCount(liked, t') < ThemeCount(liked, t)
  {
    MostLikedThemeSpec(liked);
    MaxFold(liked, Themes, Confidence, 0)
  }

  lemma MostLikedThemeSpec(liked: seq<Affirmation>)
    ensures var t := MaxFold(liked, Themes, Confidence, 0);
      && (forall t' :: ThemeCount(liked, t') <= ThemeCount(liked, t))
      && (forall t' :: ThemeIndex(t') < ThemeIndex(t) ==> ThemeCount(liked, t') < ThemeCount(liked, t))
  {
    var t := MaxFold(liked, Themes, Confidence, 0);
    MaxFoldSpec(liked, Themes, Confidence, 0);
    forall t' ensures ThemeCount(liked, t') <= ThemeCount(liked, t) {
      assert Themes[ThemeIndex(t')] == t';
    }
    var k := FoldWinner(liked, Themes, 0);
    if k >= 0 {
      assert ThemeIndex(t) == k;
      forall t' | ThemeIndex(t') < ThemeIndex(t) ensures ThemeCount(liked, t') < ThemeCount(liked, t) {
        assert Themes[ThemeIndex(t')] == t';
      }
    }
  }

  /** The items the liked ids resolve to, unknown ids dropped. */
  function LikedItems(items: seq<Affirmation>, likes: seq<string>): (r: seq<Affirmation>)
    ensures |r| <= |likes|
    ensures forall i :: 0 <= i < |r| ==> r[i] in items
  {
    if likes == [] then [] else Resolve(items, likes[0]) + LikedItems(items, likes[1..])
  }

  /** The item one liked id names, if any. */
  function Resolve(items: seq<Affirmation>, id: string): (r: seq<Affirmation>)
    ensures |r| <= 1
    ensures r == [] <==> FindById(items, id).None?
    ensures r != [] ==> r[0] in items && r[0].id == id
  {
    match FindById(items, id) case Some(a) => [a] case None => []
  }

  /** Every liked item is named by a like, and every like naming a catalog
      item contributes that item. */
  lemma {:induction false} LikedItemsMembers(items: seq<Affirmation>, likes: seq<string>)
    ensures forall a :: a in LikedItems(items, likes) ==> a.id in likes
    ensures forall id :: id in likes && FindById(items, id).Some? ==> FindById(items, id).value in LikedItems(items, likes)
    decreases |likes|
  {
    if likes != [] {
      LikedItemsMembers(items, likes[1..]);
      var r := LikedItems(items, likes);
      assert r == Resolve(items, likes[0]) + LikedItems(items, likes[1..]);
      forall id | id in likes && FindById(items, id).Some?
        ensures FindById(items, id).value in r
      {
        if id != likes[0] {
          assert id in likes[1..];
        }
      }
    }
  }

  /** When every like names a catalog item, the liked items are those items,
      one per like and in the order of the likes. */
  lemma {:induction false} LikedItemsAllKnown(items: seq<Affirmation>, likes: seq<string>)
    requires forall i :: 0 <= i < |likes| ==> FindById(items, likes[i]).Some?
    ensures |LikedItems(items, likes)| == |likes|
    ensures forall i :: 0 <= i < |likes| ==> LikedItems(items, likes)[i] == FindById(items, likes[i]).value
    decreases |likes|
  {
    if likes != [] {
      var t := likes[1..];
      assert forall i :: 0 <= i < |t| ==> t[i] == likes[i + 1];
      LikedItemsAllKnown(items, t);
      var r := LikedItems(items, likes);
      assert r == [FindById(items, likes[0]).value] + LikedItems(items, t);
      forall i | 0 <= i < |likes| ensures r[i] == FindById(items, likes[i]).value {
        if i > 0 {
          assert r[i] == LikedItems(items, t)[i - 1];
        }
      }
    }
  }

  /** The likes of `a + b` resolve to the items of `a`'s likes followed by
      those of `b`'s: resolution keeps the order of the likes. */
  lemma {:induction false} LikedItemsAppend(items: seq<Affirmation>, a: seq<string>, b: seq<string>)
    ensures LikedItems(items, a + b) == LikedItems(items, a) + LikedItems(items, b)
    decreases |a|
  {
    if a == [] {
      assert a + b == b;
    } else {
      LikedItemsAppend(items, a[1..], b);
      LikedItemsConsAppend(items, a[0], a[1..], b);
      assert a == [a[0]] + a[1..];
    }
  }

  /** One step of the induction above. */
  lemma LikedItemsConsAppend(items: seq<Affirmation>, x: string, t: seq<string>, b: seq<string>)
    requires LikedItems(items, t + b) == LikedItems(items, t) + LikedItems(items, b)
    ensures LikedItems(items, [x] + t + b) == LikedItems(items, [x] + t) + LikedItems(items, b)
  {
    AppendAssoc([x], t, b);
    assert ([x] + (t + b))[1..] == t + b;
    assert ([x] + t)[1..] == t;
    AppendAssoc(Resolve(items, x), LikedItems(items, t), LikedItems(items, b));
  }

  /** The result of `getDailySpecialMessage()` and the store it leaves. */
  datatype Daily = Daily(result: Result<Option<Affirmation>>, store: Storage.Store)

  /** Today's memo is set and truthy. */
  predicate MemoHit(st: Storage.Store, now: string)
  {
    var m := Storage.GetTodaySpecialMessage(st, now);
    m.Some? && m.value != []
  }

  /** `{ theme: mostLikedTheme, ageGroup: settings.age, language: settings.language }`. */
  function SpecialFilters(st: Storage.Store, t: Theme): Filters
  {
    var s := Storage.GetSettings(st);
    NoFilters.(theme := Given(t), ageGroup := Given(s.age), language := Given(s.language))
  }

  /** `getDailySpecialMessage()`: today's memo when there is one; otherwise a
      pick from the most-liked theme, else the recommendation, and a non-null
      pick is memoised. At most one draw happens, so one `u` serves both paths. */
  function GetDailySpecial(c: Catalog, st: Storage.Store, now: string, hour: int, u: Draw): (d: Daily)
    ensures !c.initialized ==> d == Daily(NotInitialized, st)
    ensures MemoHit(st, now) ==> d == Daily(GetById(c, Storage.GetTodaySpecialMessage(st, now).value), st)
    ensures !MemoHit(st, now) && d.result.Ok? && d.result.value.Some? ==>
      && d.result.value.value in c.items
      && d.store == Storage.SetDailySpecialMessage(st, d.result.value.value.id, now).store
    ensures !MemoHit(st, now) && d.result == Ok(None) ==>
      d.store == st && GetRecommended(c, st, hour, u) == Ok(None)
    ensures !MemoHit(st, now) && c.initialized && SpecialDraw(c, st, u).value.Some? ==>
      d.result == SpecialDraw(c, st, u)
    ensures !MemoHit(st, now) && c.initialized && SpecialDraw(c, st, u).value.None? ==>
      d.result == GetRecommended(c, st, hour, u)
  {
    var memo := Storage.GetTodaySpecialMessage(st, now);
    if memo.Some? && memo.value != [] then Daily(GetById(c, memo.value), st)
    else if !c.initialized then Daily(NotInitialized, st)
    else ChooseSpecial(c, st, now, hour, u)
  }

  /** The choice made when today has no memo: a random item of the most liked
      theme, else the recommendation; a chosen item is remembered for today. */
  function ChooseSpecial(c: Catalog, st: Storage.Store, now: string, hour: int, u: Draw): (d: Daily)
    requires c.initialized
    ensures d.result.Ok?
    ensures SpecialDraw(c, st, u).value.Some? ==> d.result == SpecialDraw(c, st, u)
    ensures SpecialDraw(c, st, u).value.None? ==> d.result == GetRecommended(c, st, hour, u)
    ensures d.result.value.Some? ==>
      && d.result.value.value in c.items
      && d.store == Storage.SetDailySpecialMessage(st, d.result.value.value.id, now).store
    ensures d.result.value.None? ==> d.store == st && GetRecommended(c, st, hour, u) == Ok(None)
  {
    var special := SpecialDraw(c, st, u);
    if special.value.Some? then
      Daily(special, Storage.SetDailySpecialMessage(st, special.value.value.id, now).store)
    else
      var rec := GetRecommended(c, st, hour, u);
      if rec.Ok? && rec.value.Some? then
        Daily(rec, Storage.SetDailySpecialMessage(st, rec.value.value.id, now).store)
      else Daily(rec, st)
  }

  /** The draw from the most liked theme (with the user's age group and
      language): empty when nothing is liked or no item of that theme matches. */
  function SpecialDraw(c: Catalog, st: Storage.Store, u: Draw): (r: Result<Option<Affirmation>>)
    requires c.initialized
    ensures r.Ok?
    ensures var liked := LikedItems(c.items, Storage.GetActivity(st).likes);
      r.value.None? <==> |liked| == 0 || |GetFiltered(c, SpecialFilters(st, MostLikedTheme(liked)), st).value| == 0
    ensures var liked := LikedItems(c.items, Storage.GetActivity(st).likes);
      r.value.Some? ==>
        && r.value.value in c.items
        && r.value.value.categories.theme == MostLikedTheme(liked)
        && r.value.value.categories.ageGroup == Storage.GetSettings(st).age
        && r.value.value.language == Storage.GetSettings(st).language
  {
    var liked := LikedItems(c.items, Storage.GetActivity(st).likes);
    if |liked| > 0 then GetRandom(c, Some(SpecialFilters(st, MostLikedTheme(liked))), st, u) else Ok(None)
  }

  /** Once chosen, the special stays for the rest of the (UTC) day: a second
      call returns the same item without drawing. */
  lemma DailySpecialMemoised(c: Catalog, st: Storage.Store, now: string, hour: int, u: Draw,
                             later: string, hour2: int, u2: Draw)
    requires st.available && st.writable && UniqueIds(c.items)
    requires Storage.IsoDate(later) == Storage.IsoDate(now)
    requires !MemoHit(st, now)
    requires GetDailySpecial(c, st, now, hour, u).result.Ok?
    requires GetDailySpecial(c, st, now, hour, u).result.value.Some?
    requires GetDailySpecial(c, st, now, hour, u).result.value.value.id != []
    ensures GetDailySpecial(c, GetDailySpecial(c, st, now, hour, u).store, later, hour2, u2).result
         == GetDailySpecial(c, st, now, hour, u).result
  {
    var d := GetDailySpecial(c, st, now, hour, u);
    MemoisedItemReturned(c, st, d.result.value.value, now, later, hour2, u2);
  }

  /** An item of the catalog memoised today is today's special for the rest
      of the day, whatever the hour and the draw, and the store is left as is. */
  lemma MemoisedItemReturned(c: Catalog, st: Storage.Store, a: Affirmation, now: string, later: string,
                             hour: int, u: Draw)
    requires c.initialized && st.available && st.writable && UniqueIds(c.items)
    requires a in c.items && a.id != []
    requires Storage.IsoDate(later) == Storage.IsoDate(now)
    ensures var memo := Storage.SetDailySpecialMessage(st, a.id, now).store;
      GetDailySpecial(c, memo, later, hour, u) == Daily(Ok(Some(a)), memo)
  {
    Storage.DailySpecialSameDay(st, a.id, now, later);
    FindByIdOfMember(c.items, a);
  }

  // ----------------------------------------------------------------- popularity

  /** `-likedCounts[aff.id]`: the ascending key of `b.likeCount - a.likeCount`. */
  function LikeKey(likes: seq<string>): Affirmation -> int
  {
    (a: Affirmation) => -(Count(likes, a.id) as int)
  }

  /** `getPopularAffirmations(limit)`: the catalog sorted by like count, most
      liked first (a stable sort, so ties keep catalog order), then `slice(0, limit)`. */
  function GetPopular(c: Catalog, st: Storage.Store, limit: int): (r: Result<seq<Affirmation>>)
    ensures r.Ok? <==> c.initialized
    ensures r.Ok? ==> r.value == PopularOf(c.items, Storage.GetActivity(st).likes, limit)
  {
    if !c.initialized then NotInitialized
    else Ok(PopularOf(c.items, Storage.GetActivity(st).likes, limit))
  }

  /** The `limit` most liked items: most liked first, drawn from the items
      without repeating any, and no item left out is liked more often than
      any item taken. */
  function PopularOf(items: seq<Affirmation>, likes: seq<string>, limit: int): (r: seq<Affirmation>)
    ensures limit >= 0 ==> |r| == if limit < |items| then limit else |items|
    ensures forall i, j :: 0 <= i < j < |r| ==> Count(likes, r[i].id) >= Count(likes, r[j].id)
    ensures forall i :: 0 <= i < |r| ==> r[i] in items
    ensures multiset(r) <= multiset(items)
    ensures forall i, j :: 0 <= i < |r| && 0 <= j < |items| && items[j] !in r ==> Count(likes, items[j].id) <= Count(likes, r[i].id)
    ensures NoDuplicates(items) ==> NoDuplicates(r)
  {
    var sorted := SortBy(items, LikeKey(likes));
    var r := JsSlice(sorted, 0, limit);
    LeadingSlice(sorted, limit);
    PopularPrefix(items, likes, sorted, r);
    PopularTopK(items, likes, sorted, r);
    r
  }

  /** A prefix of the catalog sorted by like count holds catalog items, most liked first. */
  lemma PopularPrefix(items: seq<Affirmation>, likes: seq<string>, sorted: seq<Affirmation>, r: seq<Affirmation>)
    requires SortedBy(sorted, LikeKey(likes)) && multiset(sorted) == multiset(items)
    requires r <= sorted
    ensures forall i, j :: 0 <= i < j < |r| ==> Count(likes, r[i].id) >= Count(likes, r[j].id)
    ensures forall i :: 0 <= i < |r| ==> r[i] in items
  {
    forall i, j | 0 <= i < j < |r|
      ensures Count(likes, r[i].id) >= Count(likes, r[j].id)
    {
      assert LikeKey(likes)(sorted[i]) <= LikeKey(likes)(sorted[j]);
    }
    forall i | 0 <= i < |r|
      ensures r[i] in items
    {
      assert r[i] == sorted[i] && sorted[i] in multiset(sorted);
    }
  }

  /** A prefix of the sorted catalog takes each item at most as often as the
      catalog holds it, and every item left out is liked at most as often as
      every item taken. */
  lemma PopularTopK(items: seq<Affirmation>, likes: seq<string>, sorted: seq<Affirmation>, r: seq<Affirmation>)
    requires SortedBy(sorted, LikeKey(likes)) && multiset(sorted) == multiset(items)
    requires r <= sorted
    ensures multiset(r) <= multiset(items)
    ensures forall i, j :: 0 <= i < |r| && 0 <= j < |items| && items[j] !in r ==> Count(likes, items[j].id) <= Count(likes, r[i].id)
    ensures NoDuplicates(items) ==> NoDuplicates(r)
  {
    assert sorted == r + sorted[|r|..];
    assert multiset(sorted) == multiset(r) + multiset(sorted[|r|..]);
    forall i, k | 0 <= i < |r| && 0 <= k < |items| && items[k] !in r
      ensures Count(likes, items[k].id) <= Count(likes, r[i].id)
    {
      var a := items[k];
      assert a in multiset(sorted);
      var j :| 0 <= j < |sorted| && sorted[j] == a;
      assert j >= |r|;
      assert LikeKey(likes)(sorted[i]) <= LikeKey(likes)(sorted[j]);
    }
    if NoDuplicates(items) {
      NoDuplicatesSubMultiset(items, r);
    }
  }

  /** Items with equal like counts appear in catalog order. */
  lemma PopularTiesKeepCatalogOrder(c: Catalog, st: Storage.Store, k: int)
    requires c.initialized
    ensures WithKey(SortBy(c.items, LikeKey(Storage.GetActivity(st).likes)), LikeKey(Storage.GetActivity(st).likes), k)
         == WithKey(c.items, LikeKey(Storage.GetActivity(st).likes), k)
  {
    SortStable(c.items, LikeKey(Storage.GetActivity(st).likes), k);
  }

  /** A limit at least the catalog size returns every item. */
  lemma PopularIsPermutationWhenUnlimited(c: Catalog, st: Storage.Store, limit: int)
    requires c.initialized && limit >= |c.items|
    ensures multiset(GetPopular(c, st, limit).value) == multiset(c.items)
  {
    var sorted := SortBy(c.items, LikeKey(Storage.GetActivity(st).likes));
    assert sorted[0..|sorted|] == sorted;
  }

  // ----------------------------------------------------------------- statistics

  /** The counting records of `getCategoryStats()`, one per enumeration. */
  datatype CategoryStats = CategoryStats(
    themes: map<Theme, nat>,
    scenes: map<Scene, nat>,
    ageGroups: map<AgeGroup, nat>,
    languages: map<Language, nat>)

  /** The number of items `key` sends to bucket `k`. */
  function CountBy<K(==)>(s: seq<Affirmation>, key: Affirmation -> K, k: K): (n: nat)
    ensures n <= |s|
  {
    if s == [] then 0 else (if key(s[0]) == k then 1 else 0) + CountBy(s[1..], key, k)
  }

  /** The bucket counts summed over the keys `ks`. */
  function SumOver<K(==)>(s: seq<Affirmation>, key: Affirmation -> K, ks: seq<K>): nat
  {
    if ks == [] then 0 else CountBy(s, key, ks[0]) + SumOver(s, key, ks[1..])
  }

  lemma {:induction false} SumOverCons<K>(x: Affirmation, t: seq<Affirmation>, key: Affirmation -> K, ks: seq<K>)
    ensures SumOver([x] + t, key, ks) == SumOver(t, key, ks) + Count(ks, key(x))
    decreases |ks|
  {
    if ks != [] {
      SumOverCons(x, t, key, ks[1..]);
      assert ([x] + t)[1..] == t;
    }
  }

  /** When every item's key occurs exactly once among `ks`, the buckets
      partition the items. */
  lemma {:induction false} SumOverPartition<K>(s: seq<Affirmation>, key: Affirmation -> K, ks: seq<K>)
    requires forall i :: 0 <= i < |s| ==> Count(ks, key(s[i])) == 1
    ensures SumOver(s, key, ks) == |s|
    decreases |s|
  {
    if s == [] {
      SumOverEmpty(key, ks);
    } else {
      assert s == [s[0]] + s[1..];
      SumOverCons(s[0], s[1..], key, ks);
      SumOverPartition(s[1..], key, ks);
    }
  }

  lemma {:induction false} SumOverEmpty<K>(key: Affirmation -> K, ks: seq<K>)
    ensures SumOver([], key, ks) == 0
    decreases |ks|
  {
    if ks != [] {
      SumOverEmpty(key, ks[1..]);
    }
  }

  function SceneOf(a: Affirmation): Scene { a.categories.scene }
  function AgeOf(a: Affirmation): AgeGroup { a.categories.ageGroup }
  function LanguageOf(a: Affirmation): Language { a.language }

  const AgeGroups: seq<AgeGroup> := [Twenties, Thirties, Forties, Fifties, SixtiesPlus]
  const Languages: seq<Language> := [Ja, En]

  lemma ThemesDistinct()
    ensures NoDuplicates(Themes)
  {
  }

  lemma ThemesListEachOnce(t: Theme)
    ensures Count(Themes, t) == 1
  {
    ThemesDistinct();
    CountDistinct(Themes, t);
    match t
    case Confidence => assert Themes[0] == Confidence;
    case Love => assert Themes[1] == Love;
    case Success => assert Themes[2] == Success;
    case Health => assert Themes[3] == Health;
  }

  lemma ScenesDistinct()
    ensures NoDuplicates(Scenes)
  {
  }

  lemma ScenesListEachOnce(s: Scene)
    ensures Count(Scenes, s) == 1
  {
    ScenesDistinct();
    CountDistinct(Scenes, s);
    match s
    case Morning => assert Scenes[0] == Morning;
    case Night => assert Scenes[1] == Night;
    case Work => assert Scenes[2] == Work;
  }

  lemma AgeGroupsDistinct()
    ensures NoDuplicates(AgeGroups)
  {
  }

  lemma AgeGroupsListEachOnce(g: AgeGroup)
    ensures Count(AgeGroups, g) == 1
  {
    AgeGroupsDistinct();
    CountDistinct(AgeGroups, g);
    match g
    case Twenties => assert AgeGroups[0] == Twenties;
    case Thirties => assert AgeGroups[1] == Thirties;
    case Forties => assert AgeGroups[2] == Forties;
    case Fifties => assert AgeGroups[3] == Fifties;
    case SixtiesPlus => assert AgeGroups[4] == SixtiesPlus;
  }

  lemma LanguagesDistinct()
    ensures NoDuplicates(Languages)
  {
  }

  lemma LanguagesListEachOnce(l: Language)
    ensures Count(Languages, l) == 1
  {
    LanguagesDistinct();
    CountDistinct(Languages, l);
    match l
    case Ja => assert Languages[0] == Ja;
    case En => assert Languages[1] == En;
  }

  /** Each enumeration lists every value exactly once. */
  lemma EnumerationsListEachValueOnce()
    ensures forall t :: Count(Themes, t) == 1
    ensures forall s :: Count(Scenes, s) == 1
    ensures forall g :: Count(AgeGroups, g) == 1
    ensures forall l :: Count(Languages, l) == 1
  {
    forall t ensures Count(Themes, t) == 1 { ThemesListEachOnce(t); }
    forall s ensures Count(Scenes, s) == 1 { ScenesListEachOnce(s); }
    forall g ensures Count(AgeGroups, g) == 1 { AgeGroupsListEachOnce(g); }
    forall l ensures Count(Languages, l) == 1 { LanguagesListEachOnce(l); }
  }

  /** Every item falls in exactly one theme. */
  lemma ThemePartition(items: seq<Affirmation>)
    ensures CountBy(items, ThemeOf, Confidence) + CountBy(items, ThemeOf, Love)
          + CountBy(items, ThemeOf, Success) + CountBy(items, ThemeOf, Health) == |items|
  {
    forall i | 0 <= i < |items| ensures Count(Themes, ThemeOf(items[i])) == 1 {
      ThemesListEachOnce(ThemeOf(items[i]));
    }
    SumOverPartition(items, ThemeOf, Themes);
    assert SumOver(items, ThemeOf, Themes[4..]) == 0;
    assert SumOver(items, ThemeOf, Themes[3..]) == CountBy(items, ThemeOf, Health);
    assert SumOver(items, ThemeOf, Themes[2..]) == CountBy(items, ThemeOf, Success) + SumOver(items, ThemeOf, Themes[3..]);
    assert SumOver(items, ThemeOf, Themes[1..]) == CountBy(items, ThemeOf, Love) + SumOver(items, ThemeOf, Themes[2..]);
  }

  /** The theme record: a count per theme, summing to the number of items. */
  function ThemeTally(items: seq<Affirmation>): (m: map<Theme, nat>)
    ensures forall t :: t in m && m[t] == ThemeCount(items, t)
    ensures m[Confidence] + m[Love] + m[Success] + m[Health] == |items|
  {
    ThemePartition(items);
    forall t ensures CountBy(items, ThemeOf, t) == ThemeCount(items, t) {
      ThemeCountIsCountBy(items, t);
    }
    forall t: Theme ensures t in Themes {
      assert Themes[ThemeIndex(t)] == t;
    }
    map t | t in Themes :: CountBy(items, ThemeOf, t)
  }

  /** Every item falls in exactly one scene. */
  lemma ScenePartition(items: seq<Affirmation>)
    ensures CountBy(items, SceneOf, Morning) + CountBy(items, SceneOf, Night) + CountBy(items, SceneOf, Work) == |items|
  {
    forall i | 0 <= i < |items| ensures Count(Scenes, SceneOf(items[i])) == 1 {
      ScenesListEachOnce(SceneOf(items[i]));
    }
    SumOverPartition(items, SceneOf, Scenes);
    assert SumOver(items, SceneOf, Scenes[3..]) == 0;
    assert SumOver(items, SceneOf, Scenes[2..]) == CountBy(items, SceneOf, Work);
    assert SumOver(items, SceneOf, Scenes[1..]) == CountBy(items, SceneOf, Night) + SumOver(items, SceneOf, Scenes[2..]);
  }

  /** The scene record. */
  function SceneTally(items: seq<Affirmation>): (m: map<Scene, nat>)
    ensures forall s :: s in m && m[s] == SceneCount(items, s)
    ensures m[Morning] + m[Night] + m[Work] == |items|
  {
    ScenePartition(items);
    forall s: Scene ensures s in Scenes {
      assert s == Morning || s == Night || s == Work;
    }
    map s | s in Scenes :: CountBy(items, SceneOf, s)
  }

  /** Every item falls in exactly one age group. */
  lemma AgePartition(items: seq<Affirmation>)
    ensures CountBy(items, AgeOf, Twenties) + CountBy(items, AgeOf, Thirties) + CountBy(items, AgeOf, Forties)
          + CountBy(items, AgeOf, Fifties) + CountBy(items, AgeOf, SixtiesPlus) == |items|
  {
    forall i | 0 <= i < |items| ensures Count(AgeGroups, AgeOf(items[i])) == 1 {
      AgeGroupsListEachOnce(AgeOf(items[i]));
    }
    SumOverPartition(items, AgeOf, AgeGroups);
    assert SumOver(items, AgeOf, AgeGroups[5..]) == 0;
    assert SumOver(items, AgeOf, AgeGroups[4..]) == CountBy(items, AgeOf, SixtiesPlus);
    assert SumOver(items, AgeOf, AgeGroups[3..]) == CountBy(items, AgeOf, Fifties) + SumOver(items, AgeOf, AgeGroups[4..]);
    assert SumOver(items, AgeOf, AgeGroups[2..]) == CountBy(items, AgeOf, Forties) + SumOver(items, AgeOf, AgeGroups[3..]);
    assert SumOver(items, AgeOf, AgeGroups[1..]) == CountBy(items, AgeOf, Thirties) + SumOver(items, AgeOf, AgeGroups[2..]);
  }

  /** The age-group record. */
  function AgeTally(items: seq<Affirmation>): (m: map<AgeGroup, nat>)
    ensures forall g :: g in m && m[g] == CountBy(items, AgeOf, g)
    ensures m[Twenties] + m[Thirties] + m[Forties] + m[Fifties] + m[SixtiesPlus] == |items|
  {
    AgePartition(items);
    forall g: AgeGroup ensures g in AgeGroups {
      assert g == Twenties || g == Thirties || g == Forties || g == Fifties || g == SixtiesPlus;
    }
    map g | g in AgeGroups :: CountBy(items, AgeOf, g)
  }

  /** Every item has exactly one language. */
  lemma LanguagePartition(items: seq<Affirmation>)
    ensures CountBy(items, LanguageOf, Ja) + CountBy(items, LanguageOf, En) == |items|
  {
    forall i | 0 <= i < |items| ensures Count(Languages, LanguageOf(items[i])) == 1 {
      LanguagesListEachOnce(LanguageOf(items[i]));
    }
    SumOverPartition(items, LanguageOf, Languages);
    assert SumOver(items, LanguageOf, Languages[2..]) == 0;
    assert SumOver(items, LanguageOf, Languages[1..]) == CountBy(items, LanguageOf, En);
  }

  /** The language record. */
  function LanguageTally(items: seq<Affirmation>): (m: map<Language, nat>)
    ensures forall l :: l in m && m[l] == CountBy(items, LanguageOf, l)
    ensures m[Ja] + m[En] == |items|
  {
    LanguagePartition(items);
    forall l: Language ensures l in Languages {
      assert l == Ja || l == En;
    }
    map l | l in Languages :: CountBy(items, LanguageOf, l)
  }

  /** `getCategoryStats()`: per-value counts over the whole catalog; each
      record sums to the catalog size. */
  function GetCategoryStats(c: Catalog): (r: Result<CategoryStats>)
    ensures r.Ok? <==> c.initialized
    ensures r.Ok? ==> var s := r.value;
      && (forall t :: t in s.themes && s.themes[t] == ThemeCount(c.items, t))
      && (forall x :: x in s.scenes && s.scenes[x] == SceneCount(c.items, x))
      && (forall g :: g in s.ageGroups && s.ageGroups[g] == CountBy(c.items, AgeOf, g))
      && (forall l :: l in s.languages && s.languages[l] == CountBy(c.items, LanguageOf, l))
      && s.themes[Confidence] + s.themes[Love] + s.themes[Success] + s.themes[Health] == |c.items|
      && s.scenes[Morning] + s.scenes[Night] + s.scenes[Work] == |c.items|
      && s.ageGroups[Twenties] + s.ageGroups[Thirties] + s.ageGroups[Forties]
         + s.ageGroups[Fifties] + s.ageGroups[SixtiesPlus] == |c.items|
      && s.languages[Ja] + s.languages[En] == |c.items|
  {
    if !c.initialized then NotInitialized
    else Ok(CategoryStats(ThemeTally(c.items), SceneTally(c.items), AgeTally(c.items), LanguageTally(c.items)))
  }

  lemma {:induction false} ThemeCountIsCountBy(s: seq<Affirmation>, t: Theme)
    ensures CountBy(s, ThemeOf, t) == ThemeCount(s, t)
    decreases |s|
  {
    if s != [] {
      ThemeCountIsCountBy(s[1..], t);
    }
  }

  // ----------------------------------------------------------------- user items

  /** The fields a caller supplies for a new item. */
  datatype Draft = Draft(
    text: string,
    textEn: Option<string>,
    author: Option<string>,
    source: Option<string>,
    categories: Categories,
    tags: seq<string>,
    language: Language)

  /** `user_${Date.now()}_${random base-36 suffix}`. */
  function UserItemId(nowMs: nat, suffix: string): (id: string)
    ensures StartsWith(id, "user_")
  {
    "user_" + NatToString(nowMs) + "_" + suffix
  }

  /** The catalog, the store and the boolean result of a user-item operation. */
  datatype Change = Change(catalog: Catalog, store: Storage.Store, ok: bool)

  /** `addUserAffirmation(data)`: appends the new item to the catalog (even
      before initialisation) and to the store, and reports `true` whatever the
      store did. */
  function AddUserAffirmation(c: Catalog, st: Storage.Store, draft: Draft, nowMs: nat, suffix: string, now: string): (r: Change)
    ensures r.ok
    ensures r.catalog.initialized == c.initialized
    ensures |r.catalog.items| == |c.items| + 1 && r.catalog.items[..|c.items|] == c.items
    ensures var a := r.catalog.items[|c.items|];
      && a.isUserGenerated && StartsWith(a.id, "user_") && a.createdAt == now
      && a.text == draft.text && a.categories == draft.categories && a.language == draft.language
      && a.textEn == draft.textEn && a.author == draft.author && a.source == draft.source && a.tags == draft.tags
    ensures r.store == Storage.AddUserAffirmation(st, r.catalog.items[|c.items|], now).store
  {
    var a := Affirmation(UserItemId(nowMs, suffix), draft.text, draft.textEn, draft.author, draft.source,
                         draft.categories, draft.tags, draft.language, now, true);
    assert (c.items + [a])[..|c.items|] == c.items;
    Change(Catalog(c.items + [a], c.initialized), Storage.AddUserAffirmation(st, a, now).store, true)
  }

  /** `removeUserAffirmation(id)`: refuses (false, nothing changed) before
      initialisation, for an unknown id, and when the first item with that id
      is not user-generated; otherwise drops every item with the id from the
      catalog and the store. */
  function RemoveUserAffirmation(c: Catalog, st: Storage.Store, id: string, now: string): (r: Change)
    ensures r.ok <==> c.initialized && FindById(c.items, id).Some? && FindById(c.items, id).value.isUserGenerated
    ensures !r.ok ==> r.catalog == c && r.store == st
    ensures r.ok ==> r.catalog.items == Filter(c.items, Storage.HasOtherId(id))
    ensures r.ok ==> forall i :: 0 <= i < |r.catalog.items| ==> r.catalog.items[i].id != id
    ensures r.ok ==> r.store == Storage.RemoveUserAffirmation(st, id, now).store
  {
    match GetById(c, id)
    case NotInitialized => Change(c, st, false)
    case Ok(found) =>
      if found.None? || !found.value.isUserGenerated then Change(c, st, false)
      else Change(c.(items := Filter(c.items, Storage.HasOtherId(id))), Storage.RemoveUserAffirmation(st, id, now).store, true)
  }

  /** Removing a freshly added item gives the catalog back. */
  lemma AddThenRemove(c: Catalog, st: Storage.Store, draft: Draft, nowMs: nat, suffix: string, now: string, later: string)
    requires c.initialized
    requires forall i :: 0 <= i < |c.items| ==> c.items[i].id != UserItemId(nowMs, suffix)
    ensures var added := AddUserAffirmation(c, st, draft, nowMs, suffix, now);
      RemoveUserAffirmation(added.catalog, added.store, UserItemId(nowMs, suffix), later).catalog == c
  {
    var added := AddUserAffirmation(c, st, draft, nowMs, suffix, now);
    var a := added.catalog.items[|c.items|];
    assert added.catalog.items == c.items + [a];
    DropAppended(c.items, a);
  }

  /** An item appended under an id no earlier item has is the one found by
      that id, and dropping the id gives the earlier items back. */
  lemma DropAppended(items: seq<Affirmation>, a: Affirmation)
    requires forall i :: 0 <= i < |items| ==> items[i].id != a.id
    ensures FindById(items + [a], a.id) == Some(a)
    ensures Filter(items + [a], Storage.HasOtherId(a.id)) == items
  {
    var s := items + [a];
    assert FindIndex(s, a.id) == |items| by {
      assert s[|items|] == a;
      assert forall i :: 0 <= i < |items| ==> s[i] == items[i];
    }
    Storage.FilterAppendDropped(items, a, Storage.HasOtherId(a.id));
    FilterKeepsAll(items, Storage.HasOtherId(a.id));
  }

  // --------------------------------------------------------------- UserService

  /** `UserService.toggleFavorite(id)`: remove when present, add otherwise. */
  function ToggleFavorite(st: Storage.Store, id: string, now: string): (w: Storage.Written)
    ensures w.ok ==> (id in Storage.GetActivity(w.store).favorites <==> id !in Storage.GetActivity(st).favorites)
  {
    if id in Storage.GetActivity(st).favorites then Storage.RemoveFavorite(st, id, now)
    else Storage.AddFavorite(st, id, now)
  }

  /** Toggling a favourite that is not set twice restores the favourites. */
  lemma ToggleFavoriteTwice(st: Storage.Store, id: string, now: string, later: string)
    requires st.available && st.writable && id !in Storage.GetActivity(st).favorites
    ensures Storage.GetActivity(ToggleFavorite(ToggleFavorite(st, id, now).store, id, later).store).favorites
         == Storage.GetActivity(st).favorites
  {
    AppendThenRemove(Storage.GetActivity(st).favorites, id);
  }

  /** The result of `analyzeUserPreferences()`. */
  datatype Preferences = Preferences(
    favoriteThemes: seq<Theme>,
    favoriteScenes: seq<Scene>,
    totalLikes: nat,
    totalFavorites: nat)

  function SceneCount(s: seq<Affirmation>, sc: Scene): nat
  {
    CountBy(s, SceneOf, sc)
  }

  /** `Object.entries(counts).sort(([,a], [,b]) => b - a).filter(([,n]) => n > 0)`:
      the keys ordered by count, largest first (ties keep key order), without
      the zero counts. */
  function Rank<K(!new)>(keys: seq<K>, count: K -> nat): (r: seq<K>)
    ensures forall k :: k in r <==> k in keys && count(k) > 0
    ensures forall i, j :: 0 <= i < j < |r| ==> count(r[i]) >= count(r[j])
    ensures NoDuplicates(keys) ==> NoDuplicates(r)
    ensures forall k :: k < 0 ==> WithKey(r, RankKey(count), k) == WithKey(keys, RankKey(count), k)
  {
    var key := RankKey(count);
    var sorted := SortBy(keys, key);
    var r := Filter(sorted, Counted(count));
    FilterSorted(sorted, Counted(count), key);
    RankMembers(keys, sorted, r, count);
    RankKeepsTies(keys, count);
    RankNoDuplicates(keys, count);
    r
  }

  /** Sorting and dropping keys adds no repeats. */
  lemma RankNoDuplicates<K>(keys: seq<K>, count: K -> nat)
    ensures NoDuplicates(keys) ==> NoDuplicates(Filter(SortBy(keys, RankKey(count)), Counted(count)))
  {
    if NoDuplicates(keys) {
      var sorted := SortBy(keys, RankKey(count));
      NoDuplicatesSubMultiset(keys, sorted);
      FilterNoDuplicates(sorted, Counted(count));
    }
  }

  /** Keys with the same non-zero count (sort key `-count`) keep their order in `keys`. */
  lemma RankKeepsTies<K>(keys: seq<K>, count: K -> nat)
    ensures forall k :: k < 0 ==>
      WithKey(Filter(SortBy(keys, RankKey(count)), Counted(count)), RankKey(count), k) == WithKey(keys, RankKey(count), k)
  {
    var key := RankKey(count);
    forall k | k < 0
      ensures WithKey(Filter(SortBy(keys, key), Counted(count)), key, k) == WithKey(keys, key, k)
    {
      WithKeyAfterFilter(SortBy(keys, key), Counted(count), key, k);
      SortStable(keys, key, k);
    }
  }

  function RankKey<K>(count: K -> nat): K -> int { (k: K) => -(count(k) as int) }
  function Counted<K>(count: K -> nat): K -> bool { (k: K) => count(k) > 0 }

  lemma RankMembers<K(!new)>(keys: seq<K>, sorted: seq<K>, r: seq<K>, count: K -> nat)
    requires multiset(sorted) == multiset(keys) && r == Filter(sorted, Counted(count))
    ensures forall k :: k in r <==> k in keys && count(k) > 0
  {
    forall k ensures k in r <==> k in keys && count(k) > 0 {
      if k in r {
        var i :| 0 <= i < |r| && r[i] == k;
        assert r[i] in multiset(sorted);
      }
      if k in keys && count(k) > 0 {
        assert k in multiset(sorted);
        var j :| 0 <= j < |sorted| && sorted[j] == k;
      }
    }
  }

  /** Every value of the two enumerations appears in its key list. */
  lemma EnumerationsCovered()
    ensures forall t: Theme :: t in Themes
    ensures forall s: Scene :: s in Scenes
  {
    forall t: Theme ensures t in Themes {
      assert t == Confidence || t == Love || t == Success || t == Health;
    }
    forall s: Scene ensures s in Scenes {
      assert s == Morning || s == Night || s == Work;
    }
  }

  /** `themeCounts[t]` after counting the liked items; it only names the
      count function for the ranking. */
  function ThemeCounter(liked: seq<Affirmation>): (f: Theme -> nat)
    ensures forall t :: f(t) == ThemeCount(liked, t)
  {
    (t: Theme) => ThemeCount(liked, t)
  }

  /** `sceneCounts[s]` after counting the liked items; it only names the
      count function for the ranking. */
  function SceneCounter(liked: seq<Affirmation>): (f: Scene -> nat)
    ensures forall s :: f(s) == SceneCount(liked, s)
  {
    (s: Scene) => SceneCount(liked, s)
  }

  /** The liked themes, most frequent first. */
  function RankThemes(liked: seq<Affirmation>): (r: seq<Theme>)
    ensures forall t :: t in r <==> ThemeCount(liked, t) > 0
    ensures forall i, j :: 0 <= i < j < |r| ==> ThemeCount(liked, r[i]) >= ThemeCount(liked, r[j])
    ensures NoDuplicates(r)
    ensures forall k :: k < 0 ==>
      WithKey(r, RankKey(ThemeCounter(liked)), k) == WithKey(Themes, RankKey(ThemeCounter(liked)), k)
  {
    EnumerationsCovered();
    ThemesDistinct();
    RankComplete(Themes, ThemeCounter(liked), (t: Theme) => ThemeCount(liked, t));
    Rank(Themes, ThemeCounter(liked))
  }

  /** The liked scenes, most frequent first. */
  function RankScenes(liked: seq<Affirmation>): (r: seq<Scene>)
    ensures forall s :: s in r <==> SceneCount(liked, s) > 0
    ensures forall i, j :: 0 <= i < j < |r| ==> SceneCount(liked, r[i]) >= SceneCount(liked, r[j])
    ensures NoDuplicates(r)
    ensures forall k :: k < 0 ==>
      WithKey(r, RankKey(SceneCounter(liked)), k) == WithKey(Scenes, RankKey(SceneCounter(liked)), k)
  {
    EnumerationsCovered();
    ScenesDistinct();
    RankComplete(Scenes, SceneCounter(liked), (s: Scene) => SceneCount(liked, s));
    Rank(Scenes, SceneCounter(liked))
  }

  /** Ranking a list that holds every key by `count` ranks by any `f` equal to it. */
  lemma RankComplete<K(!new)>(keys: seq<K>, count: K -> nat, f: K -> nat)
    requires forall k :: k in keys
    requires forall k :: count(k) == f(k)
    ensures forall k :: k in Rank(keys, count) <==> f(k) > 0
    ensures forall i, j :: 0 <= i < j < |Rank(keys, count)| ==> f(Rank(keys, count)[i]) >= f(Rank(keys, count)[j])
  {
    var r := Rank(keys, count);
    forall i, j | 0 <= i < j < |r| ensures f(r[i]) >= f(r[j]) {
      assert count(r[i]) >= count(r[j]);
    }
  }

  /** The ranked lists of a preferences record hold exactly the themes and
      scenes that occur among `liked`, each ordered by how often it occurs. */
  ghost predicate RanksLiked(liked: seq<Affirmation>, p: Preferences)
  {
    && (forall t :: t in p.favoriteThemes <==> ThemeCount(liked, t) > 0)
    && (forall s :: s in p.favoriteScenes <==> SceneCount(liked, s) > 0)
    && (forall i, j :: 0 <= i < j < |p.favoriteThemes| ==>
          ThemeCount(liked, p.favoriteThemes[i]) >= ThemeCount(liked, p.favoriteThemes[j]))
    && (forall i, j :: 0 <= i < j < |p.favoriteScenes| ==>
          SceneCount(liked, p.favoriteScenes[i]) >= SceneCount(liked, p.favoriteScenes[j]))
    && NoDuplicates(p.favoriteThemes) && NoDuplicates(p.favoriteScenes)
  }

  /** The preferences built from the two rankings rank the liked items. */
  function RankLiked(liked: seq<Affirmation>, totalLikes: nat, totalFavorites: nat): (p: Preferences)
    ensures RanksLiked(liked, p)
    ensures p.totalLikes == totalLikes && p.totalFavorites == totalFavorites
  {
    Preferences(RankThemes(liked), RankScenes(liked), totalLikes, totalFavorites)
  }

  /** `analyzeUserPreferences()`: the liked themes and scenes ranked by how
      often they occur among the liked items, plus the two totals. Resolving
      the liked ids needs an initialised catalog unless there are none. */
  function AnalyzeUserPreferences(c: Catalog, st: Storage.Store): (r: Result<Preferences>)
    ensures r.NotInitialized? <==> !c.initialized && |Storage.GetActivity(st).likes| > 0
    ensures r.Ok? ==>
      && r.value.totalLikes == |Storage.GetActivity(st).likes|
      && r.value.totalFavorites == |Storage.GetActivity(st).favorites|
      && RanksLiked(LikedItems(c.items, Storage.GetActivity(st).likes), r.value)
  {
    var act := Storage.GetActivity(st);
    if !c.initialized && |act.likes| > 0 then NotInitialized
    else Ok(RankLiked(LikedItems(c.items, act.likes), |act.likes|, |act.favorites|))
  }
}

=== FILE: storage.dfy ===
/**
 The persistent stores: `localStorage` as a key→value map that can be missing
 (no `window`) or refuse writes (quota), the typed settings and activity stores
 on top of it, the version-gated migration, and the listener registry.
 */
module Storage {
  import opened Types
  import opened Text
  import opened Seqs

  const SettingsKey: string := "affirmation-app-settings"
  const ActivityKey: string := "affirmation-app-activity"
  const CacheKey: string := "affirmation-app-affirmations"
  const ThemeKey: string := "affirmation-app-theme"
  const LastSyncKey: string := "affirmation-app-last-sync"

  /** `Object.values(STORAGE_KEYS)`. */
  const AppKeys: seq<string> := [SettingsKey, ActivityKey, CacheKey, ThemeKey, LastSyncKey]

  const MigrationVersionKey: string := "affirmation-app-migration-version"
  const CurrentVersion: int := 1

  /** What `JSON.parse` recovers from a stored string. */
  datatype Value =
    | SettingsValue(settings: UserSettings)
    | ActivityValue(activity: UserActivity)
    | NumberValue(n: int)
    | OtherValue(text: string)
    | Unparsable

  /** The browser store. `available` is `typeof window !== 'undefined'`;
      `writable` is false when `setItem` throws (quota exhausted).
      `loadedAt` is the timestamp `DEFAULT_USER_ACTIVITY` captured at module load. */
  datatype Store = Store(available: bool, writable: bool, entries: map<string, Value>, loadedAt: string)

  /** The store after a write, and the boolean the write returned. */
  datatype Written = Written(store: Store, ok: bool)

  // ------------------------------------------------------------ StorageService

  /** `StorageService.get(key, default)` with `decode` standing for the parse
      into the expected record type. */
  function Get<T>(st: Store, key: string, decode: Value -> Option<T>, default: T): (r: T)
    ensures !st.available || key !in st.entries ==> r == default
    ensures st.available && key in st.entries && decode(st.entries[key]).Some? ==>
      r == decode(st.entries[key]).value
    ensures st.available && key in st.entries && decode(st.entries[key]).None? ==> r == default
  {
    if !st.available || key !in st.entries then default
    else
      match decode(st.entries[key])
      case Some(v) => v
      case None => default
  }

  /** `StorageService.set(key, value)`. */
  function Set(st: Store, key: string, v: Value): (w: Written)
    ensures w.ok <==> st.available && st.writable
    ensures w.ok ==> key in w.store.entries && w.store.entries[key] == v
    ensures forall k :: k != key ==> (k in w.store.entries <==> k in st.entries)
    ensures forall k :: k != key && k in st.entries ==> w.store.entries[k] == st.entries[k]
    ensures !w.ok ==> w.store == st
    ensures w.store.available == st.available && w.store.writable == st.writable && w.store.loadedAt == st.loadedAt
  {
    if !st.available || !st.writable then Written(st, false)
    else Written(st.(entries := st.entries[key := v]), true)
  }

  /** `StorageService.remove(key)`. */
  function Remove(st: Store, key: string): (w: Written)
    ensures w.ok <==> st.available
    ensures w.ok ==> w.store.entries.Keys == st.entries.Keys - {key}
    ensures forall k :: k in w.store.entries ==> k in st.entries && w.store.entries[k] == st.entries[k]
    ensures !w.ok ==> w.store == st
  {
    if !st.available then Written(st, false)
    else Written(st.(entries := st.entries - {key}), true)
  }

  /** `StorageService.clearAppData()`: removes the five application keys and
      nothing else. */
  function ClearAppData(st: Store): (w: Written)
    ensures w.ok <==> st.available
    ensures w.ok ==> forall i :: 0 <= i < |AppKeys| ==> AppKeys[i] !in w.store.entries
    ensures forall k :: k in st.entries && k !in AppKeys ==> k in w.store.entries && w.store.entries[k] == st.entries[k]
    ensures forall k :: k in w.store.entries ==> k in st.entries && w.store.entries[k] == st.entries[k]
  {
    if !st.available then Written(st, false)
    else Written(st.(entries := st.entries - set k | k in AppKeys), true)
  }

  /** Clearing the application data keeps the migration version. */
  lemma ClearKeepsMigrationVersion(st: Store)
    requires MigrationVersionKey in st.entries
    ensures MigrationVersionKey in ClearAppData(st).store.entries
  {
  }

  // ------------------------------------------------------------------ settings

  const DefaultSettings: UserSettings :=
    UserSettings(Thirties, Healing, WarmHealing, false, Ja,
      Notifications(false, Some("08:00"), Some("21:00")), {})

  function DecodeSettings(v: Value): Option<UserSettings>
  {
    if v.SettingsValue? then Some(v.settings) else None
  }

  /** `UserSettingsStorage.get()`. */
  function GetSettings(st: Store): UserSettings
  {
    Get(st, SettingsKey, DecodeSettings, DefaultSettings)
  }

  /** `UserSettingsStorage.set(settings)`. */
  function SetSettings(st: Store, s: UserSettings): (w: Written)
    ensures w.ok ==> GetSettings(w.store) == s
    ensures w.ok <==> st.available && st.writable
  {
    Set(st, SettingsKey, SettingsValue(s))
  }

  /** A `Partial<UserSettings>`: each declared key either given or missing. */
  datatype SettingsPatch = SettingsPatch(
    age: Option<AgeGroup>,
    designTheme: Option<DesignTheme>,
    colorTheme: Option<ColorTheme>,
    isDarkMode: Option<bool>,
    language: Option<Language>,
    notifications: Option<Notifications>)

  const EmptySettingsPatch: SettingsPatch := SettingsPatch(None, None, None, None, None, None)

  function PatchOr<T>(patch: Option<T>, current: T): T
  {
    if patch.Some? then patch.value else current
  }

  /** `{ ...current, ...patch }` on a settings record: a shallow merge, so a
      given `notifications` object replaces the current one wholesale. */
  function MergeSettings(cur: UserSettings, p: SettingsPatch): (r: UserSettings)
    ensures p.age.Some? ==> r.age == p.age.value
    ensures p.age.None? ==> r.age == cur.age
    ensures p.designTheme.Some? ==> r.designTheme == p.designTheme.value
    ensures p.designTheme.None? ==> r.designTheme == cur.designTheme
    ensures p.colorTheme.Some? ==> r.colorTheme == p.colorTheme.value
    ensures p.colorTheme.None? ==> r.colorTheme == cur.colorTheme
    ensures p.isDarkMode.Some? ==> r.isDarkMode == p.isDarkMode.value
    ensures p.isDarkMode.None? ==> r.isDarkMode == cur.isDarkMode
    ensures p.language.Some? ==> r.language == p.language.value
    ensures p.language.None? ==> r.language == cur.language
    ensures p.notifications.Some? ==> r.notifications == p.notifications.value
    ensures p.notifications.None? ==> r.notifications == cur.notifications
    ensures r.extraKeys == cur.extraKeys
  {
    UserSettings(
      PatchOr(p.age, cur.age),
      PatchOr(p.designTheme, cur.designTheme),
      PatchOr(p.colorTheme, cur.colorTheme),
      PatchOr(p.isDarkMode, cur.isDarkMode),
      PatchOr(p.language, cur.language),
      PatchOr(p.notifications, cur.notifications),
      cur.extraKeys)
  }

  /** Merging an empty patch is the identity; merging the same patch twice is merging it once. */
  lemma MergeSettingsLaws(cur: UserSettings, p: SettingsPatch)
    ensures MergeSettings(cur, EmptySettingsPatch) == cur
    ensures MergeSettings(MergeSettings(cur, p), p) == MergeSettings(cur, p)
  {
  }

  /** `UserSettingsStorage.update(partial)`. */
  function UpdateSettings(st: Store, p: SettingsPatch): (w: Written)
    ensures w.ok <==> st.available && st.writable
    ensures w.ok ==> GetSettings(w.store) == MergeSettings(GetSettings(st), p)
    ensures !w.ok ==> w.store == st
  {
    SetSettings(st, MergeSettings(GetSettings(st), p))
  }

  /** `UserSettingsStorage.updateAge(age)`. */
  function UpdateAge(st: Store, age: AgeGroup): (w: Written)
    ensures w.ok ==> GetSettings(w.store) == GetSettings(st).(age := age)
  {
    UpdateSettings(st, EmptySettingsPatch.(age := Some(age)))
  }

  /** `UserSettingsStorage.updateTheme(designTheme, colorTheme?)`: the colour
      theme changes only when one is given. */
  function UpdateTheme(st: Store, designTheme: DesignTheme, colorTheme: Option<ColorTheme>): (w: Written)
    ensures w.ok ==> GetSettings(w.store).designTheme == designTheme
    ensures w.ok && colorTheme.Some? ==> GetSettings(w.store).colorTheme == colorTheme.value
    ensures w.ok && colorTheme.None? ==> GetSettings(w.store).colorTheme == GetSettings(st).colorTheme
    ensures w.ok ==> GetSettings(w.store).(designTheme := designTheme, colorTheme := GetSettings(st).colorTheme)
                     == GetSettings(st).(designTheme := designTheme)
  {
    UpdateSettings(st, EmptySettingsPatch.(designTheme := Some(designTheme), colorTheme := colorTheme))
  }

  /** `UserSettingsStorage.toggleDarkMode()`: flips only `isDarkMode`. */
  function ToggleDarkMode(st: Store): (w: Written)
    ensures w.ok ==> GetSettings(w.store) == GetSettings(st).(isDarkMode := !GetSettings(st).isDarkMode)
  {
    UpdateSettings(st, EmptySettingsPatch.(isDarkMode := Some(!GetSettings(st).isDarkMode)))
  }

  /** Toggling dark mode twice restores the settings that were read before. */
  lemma ToggleDarkModeTwice(st: Store)
    requires st.available && st.writable
    ensures GetSettings(ToggleDarkMode(ToggleDarkMode(st).store).store) == GetSettings(st)
  {
    var w := ToggleDarkMode(st);
    assert w.store.available && w.store.writable;
  }

  /** `UserSettingsStorage.isFirstTime()`: the age is the default 30代 and the
      record has exactly the default number of keys. */
  function IsFirstTime(st: Store): (b: bool)
    ensures b <==> GetSettings(st).age == Thirties && SettingsKeyCount(GetSettings(st)) == SettingsKeyCount(DefaultSettings)
  {
    var s := GetSettings(st);
    s.age == DefaultSettings.age && SettingsKeyCount(s) == SettingsKeyCount(DefaultSettings)
  }

  /** A store with no settings record is a first run. */
  lemma FirstTimeWithoutSettings(st: Store)
    requires !st.available || SettingsKey !in st.entries
    ensures IsFirstTime(st)
  {
  }

  /** The heuristic cannot tell an explicit choice of 30代 from the default:
      after `updateAge('30代')` on a fresh store it still reports a first run,
      while any other age ends it. */
  lemma FirstTimeAfterUpdateAge(st: Store, age: AgeGroup)
    requires st.available && st.writable && SettingsKey !in st.entries
    ensures IsFirstTime(UpdateAge(st, age).store) <==> age == Thirties
  {
  }

  // ------------------------------------------------------------------ activity

  /** `DEFAULT_USER_ACTIVITY`. */
  function DefaultActivity(st: Store): UserActivity
  {
    UserActivity([], [], [], None, st.loadedAt)
  }

  function DecodeActivity(v: Value): Option<UserActivity>
  {
    if v.ActivityValue? then Some(v.activity) else None
  }

  /** `UserActivityStorage.get()`. */
  function GetActivity(st: Store): UserActivity
  {
    Get(st, ActivityKey, DecodeActivity, DefaultActivity(st))
  }

  /** `UserActivityStorage.set(activity)`. */
  function SetActivity(st: Store, a: UserActivity): (w: Written)
    ensures w.ok <==> st.available && st.writable
    ensures w.ok ==> GetActivity(w.store) == a
    ensures w.ok ==> GetSettings(w.store) == GetSettings(st)
    ensures !w.ok ==> w.store == st
    ensures ActivityWritten(st, w, a)
  {
    Set(st, ActivityKey, ActivityValue(a))
  }

  /** A write of the activity record `a`: it succeeds exactly when the store
      takes writes, then replaces the activity entry and nothing else; a
      failed write leaves the store as it was. */
  predicate ActivityWritten(st: Store, w: Written, a: UserActivity)
  {
    && (w.ok <==> st.available && st.writable)
    && (w.ok ==> w.store == st.(entries := st.entries[ActivityKey := ActivityValue(a)]))
    && (!w.ok ==> w.store == st)
  }

  /** A `Partial<UserActivity>`; `lastVisit` is omitted because `update`
      overwrites it anyway. */
  datatype ActivityPatch = ActivityPatch(
    favorites: Option<seq<string>>,
    likes: Option<seq<string>>,
    userAffirmations: Option<seq<Affirmation>>,
    dailySpecialMessage: Option<DailySpecial>)

  const EmptyActivityPatch: ActivityPatch := ActivityPatch(None, None, None, None)

  /** `{ ...current, ...patch, lastVisit: now }`. */
  function MergeActivity(cur: UserActivity, p: ActivityPatch, now: string): (r: UserActivity)
    ensures r.lastVisit == now
    ensures r.favorites == (if p.favorites.Some? then p.favorites.value else cur.favorites)
    ensures r.likes == (if p.likes.Some? then p.likes.value else cur.likes)
    ensures r.userAffirmations == (if p.userAffirmations.Some? then p.userAffirmations.value else cur.userAffirmations)
    ensures r.dailySpecialMessage == (if p.dailySpecialMessage.Some? then p.dailySpecialMessage else cur.dailySpecialMessage)
  {
    UserActivity(
      PatchOr(p.favorites, cur.favorites),
      PatchOr(p.likes, cur.likes),
      PatchOr(p.userAffirmations, cur.userAffirmations),
      if p.dailySpecialMessage.Some? then p.dailySpecialMessage else cur.dailySpecialMessage,
      now)
  }

  /** `UserActivityStorage.update(partial)`: a successful update always
      records `now` as the last visit. */
  function UpdateActivity(st: Store, p: ActivityPatch, now: string): (w: Written)
    ensures w.ok <==> st.available && st.writable
    ensures w.ok ==> GetActivity(w.store) == MergeActivity(GetActivity(st), p, now)
    ensures w.ok ==> GetActivity(w.store).lastVisit == now
    ensures !w.ok ==> w.store == st
    ensures ActivityWritten(st, w, MergeActivity(GetActivity(st), p, now))
  {
    SetActivity(st, MergeActivity(GetActivity(st), p, now))
  }

  /** `UserActivityStorage.addFavorite(id)`: no write, and `true`, when the id
      is already a favourite. */
  function AddFavorite(st: Store, id: string, now: string): (w: Written)
    ensures id in GetActivity(st).favorites ==> w == Written(st, true)
    ensures id !in GetActivity(st).favorites ==> w == UpdateActivity(st, EmptyActivityPatch.(favorites := Some(GetActivity(st).favorites + [id])), now)
    ensures w.ok ==> id in GetActivity(w.store).favorites
    ensures w.ok ==> Count(GetActivity(w.store).favorites, id) == 1 || w.store == st
  {
    var favs := GetActivity(st).favorites;
    if id in favs then Written(st, true)
    else
      var w := UpdateActivity(st, EmptyActivityPatch.(favorites := Some(favs + [id])), now);
      CountAppendFresh(favs, id);
      w
  }

  lemma {:induction false} CountAppendFresh<T>(s: seq<T>, x: T)
    requires x !in s
    ensures Count(s + [x], x) == 1
    decreases |s|
  {
    if s == [] {
      assert s + [x] == [x];
    } else {
      assert (s + [x])[1..] == s[1..] + [x];
      CountAppendFresh(s[1..], x);
    }
  }

  /** Adding a favourite twice is adding it once. */
  lemma AddFavoriteIdempotent(st: Store, id: string, now: string, later: string)
    requires AddFavorite(st, id, now).ok
    ensures AddFavorite(AddFavorite(st, id, now).store, id, later) == Written(AddFavorite(st, id, now).store, true)
  {
  }

  /** `UserActivityStorage.removeFavorite(id)`: every occurrence goes. */
  function RemoveFavorite(st: Store, id: string, now: string): (w: Written)
    ensures w.ok ==> id !in GetActivity(w.store).favorites
    ensures w.ok ==> GetActivity(w.store).favorites == RemoveAll(GetActivity(st).favorites, id)
    ensures var a := GetActivity(st).(favorites := RemoveAll(GetActivity(st).favorites, id), lastVisit := now);
      ActivityWritten(st, w, a) && (w.ok ==> GetActivity(w.store) == a)
  {
    UpdateActivity(st, EmptyActivityPatch.(favorites := Some(RemoveAll(GetActivity(st).favorites, id))), now)
  }

  /** `likes` with `id`'s membership flipped: removed everywhere if present,
      appended otherwise. */
  function ToggleIn(likes: seq<string>, id: string): (r: seq<string>)
    ensures id in r <==> id !in likes
    ensures forall x :: x != id ==> (x in r <==> x in likes)
  {
    RemoveAllMembers(likes, id);
    if id in likes then RemoveAll(likes, id) else likes + [id]
  }

  /** Toggling an id that is not there twice restores the list. */
  lemma ToggleInTwice(likes: seq<string>, id: string)
    requires id !in likes
    ensures ToggleIn(ToggleIn(likes, id), id) == likes
  {
    AppendThenRemove(likes, id);
  }

  /** `UserActivityStorage.toggleLike(id)`. */
  function ToggleLike(st: Store, id: string, now: string): (w: Written)
    ensures w.ok ==> GetActivity(w.store).likes == ToggleIn(GetActivity(st).likes, id)
    ensures w.ok ==> (id in GetActivity(w.store).likes <==> id !in GetActivity(st).likes)
    ensures var a := GetActivity(st).(likes := ToggleIn(GetActivity(st).likes, id), lastVisit := now);
      ActivityWritten(st, w, a) && (w.ok ==> GetActivity(w.store) == a)
  {
    UpdateActivity(st, EmptyActivityPatch.(likes := Some(ToggleIn(GetActivity(st).likes, id))), now)
  }

  /** Toggling an unliked id twice leaves the stored likes as they were. */
  lemma ToggleLikeTwice(st: Store, id: string, now: string, later: string)
    requires st.available && st.writable && id !in GetActivity(st).likes
    ensures GetActivity(ToggleLike(ToggleLike(st, id, now).store, id, later).store).likes == GetActivity(st).likes
  {
    ToggleInTwice(GetActivity(st).likes, id);
  }

  /** `UserActivityStorage.addUserAffirmation(affirmation)`. */
  function AddUserAffirmation(st: Store, a: Affirmation, now: string): (w: Written)
    ensures w.ok ==> GetActivity(w.store).userAffirmations == GetActivity(st).userAffirmations + [a]
    ensures var r := GetActivity(st).(userAffirmations := GetActivity(st).userAffirmations + [a], lastVisit := now);
      ActivityWritten(st, w, r) && (w.ok ==> GetActivity(w.store) == r)
  {
    UpdateActivity(st, EmptyActivityPatch.(userAffirmations := Some(GetActivity(st).userAffirmations + [a])), now)
  }

  /** The item does not carry id `id`. */
  function HasOtherId(id: string): Affirmation -> bool
  {
    (a: Affirmation) => a.id != id
  }

  /** `UserActivityStorage.removeUserAffirmation(id)`. */
  function RemoveUserAffirmation(st: Store, id: string, now: string): (w: Written)
    ensures w.ok ==> forall i :: 0 <= i < |GetActivity(w.store).userAffirmations| ==>
      GetActivity(w.store).userAffirmations[i].id != id
    ensures w.ok ==> GetActivity(w.store).userAffirmations == Filter(GetActivity(st).userAffirmations, HasOtherId(id))
    ensures var a := GetActivity(st).(userAffirmations := Filter(GetActivity(st).userAffirmations, HasOtherId(id)), lastVisit := now);
      ActivityWritten(st, w, a) && (w.ok ==> GetActivity(w.store) == a)
  {
    UpdateActivity(st, EmptyActivityPatch.(userAffirmations := Some(Filter(GetActivity(st).userAffirmations, HasOtherId(id)))), now)
  }

  /** Adding an item with a fresh id and removing that id leaves the list as it was. */
  lemma AddThenRemoveUserAffirmation(st: Store, a: Affirmation, now: string, later: string)
    requires st.available && st.writable
    requires forall i :: 0 <= i < |GetActivity(st).userAffirmations| ==> GetActivity(st).userAffirmations[i].id != a.id
    ensures GetActivity(RemoveUserAffirmation(AddUserAffirmation(st, a, now).store, a.id, later).store).userAffirmations
         == GetActivity(st).userAffirmations
  {
    var list := GetActivity(st).userAffirmations;
    FilterAppendDropped(list, a, HasOtherId(a.id));
    FilterKeepsAll(list, HasOtherId(a.id));
  }

  lemma FilterAppendDropped<T>(s: seq<T>, x: T, p: T -> bool)
    requires !p(x)
    ensures Filter(s + [x], p) == Filter(s, p)
  {
    FilterAppend(s, [x], p);
    assert Filter([x], p) == [] + Filter([], p);
  }

  /** `iso.split('T')[0]`: the text before the first 'T'. */
  function IsoDate(iso: string): (d: string)
    ensures |d| <= |iso| && d == iso[..|d|]
    ensures 'T' !in d
    ensures |d| < |iso| ==> iso[|d|] == 'T'
  {
    if iso == [] || iso[0] == 'T' then []
    else
      var rest := IsoDate(iso[1..]);
      assert iso == [iso[0]] + iso[1..];
      [iso[0]] + rest
  }

  /** `UserActivityStorage.setDailySpecialMessage(id)`: memo under today's UTC date. */
  function SetDailySpecialMessage(st: Store, id: string, now: string): (w: Written)
    ensures w.ok ==> GetActivity(w.store).dailySpecialMessage == Some(DailySpecial(IsoDate(now), id))
    ensures var a := GetActivity(st).(dailySpecialMessage := Some(DailySpecial(IsoDate(now), id)), lastVisit := now);
      ActivityWritten(st, w, a) && (w.ok ==> GetActivity(w.store) == a)
  {
    UpdateActivity(st, EmptyActivityPatch.(dailySpecialMessage := Some(DailySpecial(IsoDate(now), id))), now)
  }

  /** `UserActivityStorage.getTodaySpecialMessage()`: the memo's id when the
      memo is dated today. */
  function GetTodaySpecialMessage(st: Store, now: string): (r: Option<string>)
    ensures r.Some? <==> GetActivity(st).dailySpecialMessage.Some?
                         && GetActivity(st).dailySpecialMessage.value.date == IsoDate(now)
    ensures r.Some? ==> r.value == GetActivity(st).dailySpecialMessage.value.affirmationId
  {
    var m := GetActivity(st).dailySpecialMessage;
    if m.Some? && m.value.date == IsoDate(now) then Some(m.value.affirmationId) else None
  }

  /** The memo reads back on the same day, at any time of that day. */
  lemma DailySpecialSameDay(st: Store, id: string, now: string, later: string)
    requires st.available && st.writable
    requires IsoDate(later) == IsoDate(now)
    ensures GetTodaySpecialMessage(SetDailySpecialMessage(st, id, now).store, later) == Some(id)
  {
  }

  /** ... and not on another day. */
  lemma DailySpecialOtherDay(st: Store, id: string, now: string, later: string)
    requires st.available && st.writable
    requires IsoDate(later) != IsoDate(now)
    ensures GetTodaySpecialMessage(SetDailySpecialMessage(st, id, now).store, later) == None
  {
  }

  // ----------------------------------------------------------------- migration

  function DecodeNumber(v: Value): Option<int>
  {
    if v.NumberValue? then Some(v.n) else None
  }

  /** The migration version in the store, 0 when absent. */
  function StoredVersion(st: Store): int
  {
    Get(st, MigrationVersionKey, DecodeNumber, 0)
  }

  /** `StorageMigration.migrate()`: writes version 1 when the stored version
      is lower. The result of that write is ignored, so a successful run
      reports `true` even when the store refused it. */
  function Migrate(st: Store): (w: Written)
    ensures w.ok <==> st.available
    ensures StoredVersion(st) >= CurrentVersion ==> w.store == st
    ensures st.available && st.writable ==> StoredVersion(w.store) == if StoredVersion(st) < CurrentVersion then CurrentVersion else StoredVersion(st)
    ensures !st.writable ==> w.store == st
    ensures forall k :: k != MigrationVersionKey ==> (k in w.store.entries <==> k in st.entries)
    ensures forall k :: k != MigrationVersionKey && k in st.entries ==> w.store.entries[k] == st.entries[k]
  {
    if !st.available then Written(st, false)
    else if StoredVersion(st) < CurrentVersion then Written(Set(st, MigrationVersionKey, NumberValue(CurrentVersion)).store, true)
    else Written(st, true)
  }

  /** Running the migration a second time changes nothing. */
  lemma MigrateIdempotent(st: Store)
    ensures Migrate(Migrate(st).store) == Migrate(st)
  {
  }

  // ------------------------------------------------------------------- monitor

  /** `StorageMonitor.listeners`: callbacks (named by number) per key. */
  type Registry = map<string, seq<nat>>

  function Listeners(reg: Registry, key: string): seq<nat>
  {
    if key in reg then reg[key] else []
  }

  /** `StorageMonitor.subscribe(key, callback)`: appends the callback. */
  function Subscribe(reg: Registry, key: string, cb: nat): (r: Registry)
    ensures r.Keys == reg.Keys + {key}
    ensures Listeners(r, key) == Listeners(reg, key) + [cb]
    ensures forall k :: k in reg && k != key ==> r[k] == reg[k]
  {
    reg[key := Listeners(reg, key) + [cb]]
  }

  /** `callbacks.splice(callbacks.indexOf(cb), 1)` when found. */
  function RemoveFirst(s: seq<nat>, x: nat): (r: seq<nat>)
    ensures x !in s ==> r == s
    ensures x in s ==> |r| == |s| - 1 && multiset(r) == multiset(s) - multiset{x}
    ensures x in s ==> var i := FirstIndex(s, x); r == s[..i] + s[i + 1..]
  {
    if x in s then
      var i := FirstIndex(s, x);
      SpliceOne(s, i);
      s[..i] + s[i + 1..]
    else s
  }

  /** Cutting out one entry removes exactly that entry from the multiset. */
  lemma SpliceOne(s: seq<nat>, i: nat)
    requires i < |s|
    ensures |s[..i] + s[i + 1..]| == |s| - 1
    ensures multiset(s[..i] + s[i + 1..]) == multiset(s) - multiset{s[i]}
  {
    assert s == s[..i] + [s[i]] + s[i + 1..];
  }

  /** The unsubscribe function `subscribe` returns. The entry for the key
      stays, possibly empty. */
  function Unsubscribe(reg: Registry, key: string, cb: nat): (r: Registry)
    ensures r.Keys == reg.Keys
    ensures forall k :: k in reg && k != key ==> r[k] == reg[k]
    ensures multiset(Listeners(r, key)) == multiset(Listeners(reg, key)) - multiset{cb}
    ensures cb !in Listeners(reg, key) ==> r == reg
    ensures cb in Listeners(reg, key) ==> var i := FirstIndex(Listeners(reg, key), cb);
      Listeners(r, key) == Listeners(reg, key)[..i] + Listeners(reg, key)[i + 1..]
  {
    if key in reg && cb in reg[key] then
      var t := RemoveFirst(reg[key], cb);
      assert Listeners(reg[key := t], key) == t;
      reg[key := t]
    else reg
  }

  /** `StorageMonitor.notify(key, value)`: the callbacks invoked, in order.
      A throwing callback does not stop the others. */
  function Notify(reg: Registry, key: string): (calls: seq<nat>)
    ensures calls == Listeners(reg, key)
  {
    CallEach(Listeners(reg, key))
  }

  /** `callbacks.forEach(...)`: one call per entry, from the first to the last. */
  function CallEach(callbacks: seq<nat>): (calls: seq<nat>)
    ensures |calls| == |callbacks|
    ensures forall i :: 0 <= i < |calls| ==> calls[i] == callbacks[i]
  {
    if callbacks == [] then [] else [callbacks[0]] + CallEach(callbacks[1..])
  }

  /** A new subscriber is notified last; unsubscribing it again restores the
      callbacks of the key. */
  lemma SubscribeUnsubscribe(reg: Registry, key: string, cb: nat)
    requires cb !in Listeners(reg, key)
    ensures Notify(Subscribe(reg, key, cb), key) == Notify(reg, key) + [cb]
    ensures Listeners(Unsubscribe(Subscribe(reg, key, cb), key, cb), key) == Listeners(reg, key)
  {
    RemoveFirstAppended(Listeners(reg, key), cb);
  }

  lemma RemoveFirstAppended(s: seq<nat>, x: nat)
    requires x !in s
    ensures RemoveFirst(s + [x], x) == s
  {
    var t := s + [x];
    var i := FirstIndex(t, x);
    assert t[..|s|] == s;
  }
}

=== FILE: text.dfy ===
/**
 The JavaScript string operations the app relies on: `trim`, `toLowerCase`
 (modelled on ASCII letters), `includes`, `startsWith`, `.length` in UTF-16
 code units, and decimal rendering of non-negative integers.
 */
module Text {

  /** ECMAScript WhiteSpace and LineTerminator code points, which `trim` strips. */
  predicate IsJsWhitespace(c: char)
  {
    || c == '\t' || c == '\n' || c == '\U{000B}' || c == '\U{000C}' || c == '\r' || c == ' '
    || c == '\U{00A0}' || c == '\U{1680}' || ('\U{2000}' <= c <= '\U{200A}')
    || c == '\U{2028}' || c == '\U{2029}' || c == '\U{202F}' || c == '\U{205F}'
    || c == '\U{3000}' || c == '\U{FEFF}'
  }

  /** Every character is whitespace (the empty string included). */
  predicate IsBlank(s: string)
  {
    forall i :: 0 <= i < |s| ==> IsJsWhitespace(s[i])
  }

  function TrimStart(s: string): (r: string)
    ensures |r| <= |s| && r == s[|s| - |r|..]
    ensures IsBlank(s[..|s| - |r|])
    ensures r == [] || !IsJsWhitespace(r[0])
  {
    if |s| > 0 && IsJsWhitespace(s[0]) then
      var r := TrimStart(s[1..]);
      assert s[1..][..|s| - 1 - |r|] == s[1..|s| - |r|];
      r
    else s
  }

  function TrimEnd(s: string): (r: string)
    ensures |r| <= |s| && r == s[..|r|]
    ensures IsBlank(s[|r|..])
    ensures r == [] || !IsJsWhitespace(r[|r| - 1])
  {
    if |s| > 0 && IsJsWhitespace(s[|s| - 1]) then
      var r := TrimEnd(s[..|s| - 1]);
      r
    else s
  }

  /** `String.prototype.trim`: the slice `s[i..j]` left once the whitespace on
      both ends is stripped. */
  function Trim(s: string): (r: string)
    ensures exists i :: 0 <= i <= |s| - |r| && r == s[i..i + |r|] && IsBlank(s[..i]) && IsBlank(s[i + |r|..])
    ensures r == [] || (!IsJsWhitespace(r[0]) && !IsJsWhitespace(r[|r| - 1]))
  {
    var t := TrimStart(s);
    var r := TrimEnd(t);
    TrimSlices(s, t, r);
    r
  }

  /** Stripping the end of a suffix of `s` leaves a slice of `s`. */
  lemma TrimSlices(s: string, t: string, r: string)
    requires |t| <= |s| && t == s[|s| - |t|..] && IsBlank(s[..|s| - |t|])
    requires |r| <= |t| && r == t[..|r|] && IsBlank(t[|r|..])
    ensures var i := |s| - |t|; r == s[i..i + |r|] && IsBlank(s[..i]) && IsBlank(s[i + |r|..])
  {
    var i := |s| - |t|;
    assert s[i + |r|..] == t[|r|..];
  }

  /** A string trims to nothing exactly when it is blank. */
  lemma TrimEmptyIffBlank(s: string)
    ensures Trim(s) == [] <==> IsBlank(s)
  {
    if Trim(s) == [] {
      var i :| 0 <= i <= |s| && IsBlank(s[..i]) && IsBlank(s[i..]);
      forall k | 0 <= k < |s| ensures IsJsWhitespace(s[k]) {
        if k < i { assert s[..i][k] == s[k]; } else { assert s[i..][k - i] == s[k]; }
      }
    }
  }

  /** Trimming a trimmed string changes nothing. */
  lemma TrimIdempotent(s: string)
    ensures Trim(Trim(s)) == Trim(s)
  {
    var r := Trim(s);
    if r != [] {
      assert TrimStart(r) == r;
      assert TrimEnd(r) == r;
    }
  }

  /** `toLowerCase` on one character; only ASCII letters are mapped. */
  function LowerChar(c: char): char
  {
    if 'A' <= c <= 'Z' then (c as int + 32) as char else c
  }

  /** `toUpperCase` on one character; only ASCII letters are mapped. */
  function UpperChar(c: char): char
  {
    if 'a' <= c <= 'z' then (c as int - 32) as char else c
  }

  function Lower(s: string): (r: string)
    ensures |r| == |s|
    ensures forall i :: 0 <= i < |s| ==> r[i] == LowerChar(s[i])
  {
    if s == [] then [] else [LowerChar(s[0])] + Lower(s[1..])
  }

  /** `s.startsWith(p)`. */
  predicate StartsWith(s: string, p: string)
  {
    |p| <= |s| && s[..|p|] == p
  }

  /** `needle` occurs in `hay` at position `i`. */
  ghost predicate OccursAt(hay: string, needle: string, i: int)
  {
    0 <= i && i + |needle| <= |hay| && hay[i..i + |needle|] == needle
  }

  /** `hay.includes(needle)`, scanning left to right. */
  function Includes(hay: string, needle: string): (b: bool)
    decreases |hay|
  {
    StartsWith(hay, needle) || (|hay| > 0 && Includes(hay[1..], needle))
  }

  /** `Includes` holds exactly when the needle occurs at some position. */
  lemma {:induction false} IncludesIff(hay: string, needle: string)
    ensures Includes(hay, needle) <==> exists i :: OccursAt(hay, needle, i)
    decreases |hay|
  {
    if StartsWith(hay, needle) {
      assert OccursAt(hay, needle, 0);
    } else if |hay| > 0 {
      IncludesIff(hay[1..], needle);
      if exists i :: OccursAt(hay, needle, i) {
        var i :| OccursAt(hay, needle, i);
        assert hay[1..][i - 1..i - 1 + |needle|] == hay[i..i + |needle|];
        assert OccursAt(hay[1..], needle, i - 1);
      }
      if exists j :: OccursAt(hay[1..], needle, j) {
        var j :| OccursAt(hay[1..], needle, j);
        assert hay[1..][j..j + |needle|] == hay[j + 1..j + 1 + |needle|];
        assert OccursAt(hay, needle, j + 1);
      }
    }
  }

  /** JavaScript `.length`: the number of UTF-16 code units, two for a code
      point above U+FFFF. */
  function Utf16Length(s: string): (n: nat)
    ensures |s| <= n <= 2 * |s|
  {
    if s == [] then 0 else (if s[0] as int > 0xFFFF then 2 else 1) + Utf16Length(s[1..])
  }

  function DigitChar(d: nat): char
    requires d < 10
  {
    ['0', '1', '2', '3', '4', '5', '6', '7', '8', '9'][d]
  }

  /** `String(n)` for a non-negative integer: its decimal digits. */
  function NatToString(n: nat): (r: string)
    ensures |r| >= 1
    ensures forall i :: 0 <= i < |r| ==> '0' <= r[i] <= '9'
  {
    if n < 10 then [DigitChar(n)] else NatToString(n / 10) + [DigitChar(n % 10)]
  }
}

=== FILE: theme_context.dfy ===
/**
 The colour-mode provider: the mode it keeps (light, dark or following the
 system), the mode it reads back from the store at start, the darkness it
 shows, and the dark-mode switch. The system preference is a parameter.
 */
module ThemeContext {
  import opened Types

  datatype Mode = Light | Dark | System

  /** The text the provider stores under `'theme'`. */
  function ModeName(m: Mode): (s: string)
  {
    match m
    case Light => "light"
    case Dark => "dark"
    case System => "system"
  }

  /** The stored text read back at start: one of the three names gives its
      mode; a missing, empty or unknown text gives `System`. */
  function ValidateStored(stored: Option<string>): (m: Mode)
    ensures stored == Some("light") ==> m == Light
    ensures stored == Some("dark") ==> m == Dark
    ensures stored == Some("system") || stored.None? ==> m == System
    ensures m != System ==> stored == Some(ModeName(m))
  {
    if stored == Some("light") then Light
    else if stored == Some("dark") then Dark
    else System
  }

  /** A stored mode is read back as itself. */
  lemma StoredModeRoundTrip(m: Mode)
    ensures ValidateStored(Some(ModeName(m))) == m
  {
  }

  /** The darkness shown for a mode. */
  function EffectiveDark(m: Mode, systemDark: bool): (dark: bool)
    ensures m == Dark ==> dark
    ensures m == Light ==> !dark
    ensures m == System ==> dark == systemDark
  {
    match m
    case Dark => true
    case Light => false
    case System => systemDark
  }

  /** The provider's state: the mode, the `isDark` flag, the `dark` class of
      the document element and the text under `'theme'` in the store. */
  datatype ThemeState = ThemeState(mode: Mode, isDark: bool, darkClass: bool, stored: Option<string>)

  /** The effect that runs after each change of mode: it shows the mode's
      darkness and stores the mode's name. */
  function ApplyMode(s: ThemeState, systemDark: bool): (r: ThemeState)
    ensures r.mode == s.mode
    ensures r.isDark == r.darkClass == EffectiveDark(s.mode, systemDark)
    ensures ValidateStored(r.stored) == s.mode
  {
    var dark := EffectiveDark(s.mode, systemDark);
    ThemeState(s.mode, dark, dark, Some(ModeName(s.mode)))
  }

  /** The state after the start effects: the stored mode is adopted and shown. */
  function Start(stored: Option<string>, systemDark: bool): (r: ThemeState)
    ensures r.mode == ValidateStored(stored)
    ensures r.isDark == EffectiveDark(r.mode, systemDark)
    ensures stored == Some(ModeName(r.mode)) ==> r.stored == stored
  {
    ApplyMode(ThemeState(ValidateStored(stored), false, false, stored), systemDark)
  }

  /** `setTheme(mode)` and its effect. */
  function SetMode(s: ThemeState, m: Mode, systemDark: bool): (r: ThemeState)
    ensures r.mode == m && r.isDark == EffectiveDark(m, systemDark)
    ensures r.stored == Some(ModeName(m))
  {
    ApplyMode(s.(mode := m), systemDark)
  }

  /** The mode `toggleDarkMode()` chooses: light and dark swap; from `system`
      the opposite of what is shown. */
  function Toggled(m: Mode, isDark: bool): (r: Mode)
    ensures r != System
    ensures m == Dark ==> r == Light
    ensures m == Light ==> r == Dark
    ensures m == System ==> (r == Dark <==> !isDark)
  {
    match m
    case Dark => Light
    case Light => Dark
    case System => if isDark then Light else Dark
  }

  /** `toggleDarkMode()` and its effect. */
  function ToggleDarkMode(s: ThemeState, systemDark: bool): (r: ThemeState)
    ensures r.mode == Toggled(s.mode, s.isDark)
    ensures r.isDark == EffectiveDark(r.mode, systemDark)
  {
    SetMode(s, Toggled(s.mode, s.isDark), systemDark)
  }

  /** While the shown darkness matches the mode, the switch always inverts it. */
  lemma ToggleInvertsDarkness(s: ThemeState, systemDark: bool)
    requires s.isDark == EffectiveDark(s.mode, systemDark)
    ensures ToggleDarkMode(s, systemDark).isDark == !s.isDark
    ensures ToggleDarkMode(s, systemDark).darkClass == !s.isDark
  {
  }

  /** From light or dark, two toggles restore the mode and what is shown. */
  lemma ToggleTwice(s: ThemeState, systemDark: bool)
    requires s.mode != System && s.isDark == EffectiveDark(s.mode, systemDark)
    ensures ToggleDarkMode(ToggleDarkMode(s, systemDark), systemDark).mode == s.mode
    ensures ToggleDarkMode(ToggleDarkMode(s, systemDark), systemDark).isDark == s.isDark
  {
  }

  /** From `system`, two toggles leave the system mode for a fixed one that
      shows the same darkness. */
  lemma ToggleTwiceLeavesSystem(s: ThemeState, systemDark: bool)
    requires s.mode == System && s.isDark == systemDark
    ensures var r := ToggleDarkMode(ToggleDarkMode(s, systemDark), systemDark);
      r.mode != System && r.isDark == s.isDark
  {
  }

  /** The listener on the system scheme: it follows a change only in `system` mode. */
  function SystemSchemeChange(s: ThemeState, matches: bool): (r: ThemeState)
    ensures s.mode == System ==> r.isDark == matches && r.darkClass == matches
    ensures s.mode != System ==> r == s
    ensures r.mode == s.mode && r.stored == s.stored
  {
    if s.mode == System then s.(isDark := matches, darkClass := matches) else s
  }

  /** A scheme change keeps the shown darkness equal to the mode's darkness. */
  lemma SchemeChangeKeepsDarkness(s: ThemeState, systemDark: bool, matches: bool)
    requires s.isDark == EffectiveDark(s.mode, systemDark)
    ensures SystemSchemeChange(s, matches).isDark == EffectiveDark(s.mode, matches)
  {
  }
}

=== FILE: types.dfy ===
/**
 The record types of the affirmation app: content items, user settings, user
 activity and the filter object, over the closed enumerations the type
 declarations define (themes, scenes, age groups, languages).
 */
module Types {

  /** A value or nothing: an optional property, or a `T | null` return. */
  datatype Option<+T> = None | Some(value: T)

  /** The outcome of a catalog query: the catalog methods throw
      'AffirmationService is not initialized' before `initialize` has run. */
  datatype Result<+T> = Ok(value: T) | NotInitialized

  /** One draw of `Math.random()`: a real in [0, 1). */
  type Draw = u: real | 0.0 <= u < 1.0

  /** `Math.floor(Math.random() * n)`: the index a draw selects among `n` candidates. */
  function RandomIndex(u: Draw, n: nat): (i: nat)
    requires n > 0
    ensures i < n
  {
    var x := u * n as real;
    assert x < n as real by { assert (1.0 - u) * n as real > 0.0; }
    x.Floor
  }

  /** 自信, 愛, 成功, 健康 — declared in the key order of the counting records. */
  datatype Theme = Confidence | Love | Success | Health

  /** 朝, 夜, 仕事. */
  datatype Scene = Morning | Night | Work

  /** 20代, 30代, 40代, 50代, 60代以上. */
  datatype AgeGroup = Twenties | Thirties | Forties | Fifties | SixtiesPlus

  datatype Language = Ja | En

  datatype DesignTheme = Healing | Empowerment | Minimal

  datatype ColorTheme = WarmHealing | CoolBlue | NatureGreen | SunsetOrange | Custom

  /** Every theme, in the order `Object.entries` visits the theme-count record. */
  const Themes: seq<Theme> := [Confidence, Love, Success, Health]

  /** Every scene, in the order of the scene-count record. */
  const Scenes: seq<Scene> := [Morning, Night, Work]

  datatype Categories = Categories(theme: Theme, scene: Scene, ageGroup: AgeGroup)

  /** One content item. `id` identifies it; `isUserGenerated` marks a user submission. */
  datatype Affirmation = Affirmation(
    id: string,
    text: string,
    textEn: Option<string>,
    author: Option<string>,
    source: Option<string>,
    categories: Categories,
    tags: seq<string>,
    language: Language,
    createdAt: string,
    isUserGenerated: bool)

  datatype Notifications = Notifications(enabled: bool, morningTime: Option<string>, eveningTime: Option<string>)

  /** The settings record. `extraKeys` are top-level keys a stored record carries
      beyond the six declared ones; they survive spreads and count in `Object.keys`. */
  datatype UserSettings = UserSettings(
    age: AgeGroup,
    designTheme: DesignTheme,
    colorTheme: ColorTheme,
    isDarkMode: bool,
    language: Language,
    notifications: Notifications,
    extraKeys: set<string>)

  /** The number of declared top-level keys of a settings record. */
  const SettingsFieldCount: nat := 6

  /** `Object.keys(settings).length`. */
  function SettingsKeyCount(s: UserSettings): nat
  {
    SettingsFieldCount + |s.extraKeys|
  }

  /** The memo of the day's special message. */
  datatype DailySpecial = DailySpecial(date: string, affirmationId: string)

  datatype UserActivity = UserActivity(
    favorites: seq<string>,
    likes: seq<string>,
    userAffirmations: seq<Affirmation>,
    dailySpecialMessage: Option<DailySpecial>,
    lastVisit: string)

  /** One property of a JS object literal: missing, present with the value
      `undefined`, or present with a value. `Object.keys` counts the last two. */
  datatype Slot<+T> = Absent | Undefined | Given(v: T)
  {
    predicate IsKey() { !Absent? }
  }

  /** The filter object. `hasEnglish` and `onlyUserGenerated` are carried but
      never consulted by the catalog query. */
  datatype Filters = Filters(
    theme: Slot<Theme>,
    scene: Slot<Scene>,
    ageGroup: Slot<AgeGroup>,
    language: Slot<Language>,
    onlyFavorites: Slot<bool>,
    hasEnglish: Slot<bool>,
    onlyUserGenerated: Slot<bool>,
    searchQuery: Slot<string>)

  /** The empty object `{}`. */
  const NoFilters: Filters :=
    Filters(Absent, Absent, Absent, Absent, Absent, Absent, Absent, Absent)

  /** `Object.keys(filters).length > 0`. */
  predicate HasKeys(f: Filters)
  {
    || f.theme.IsKey() || f.scene.IsKey() || f.ageGroup.IsKey() || f.language.IsKey()
    || f.onlyFavorites.IsKey() || f.hasEnglish.IsKey() || f.onlyUserGenerated.IsKey()
    || f.searchQuery.IsKey()
  }

  /** `{ ...prev, ...patch }`: a key of the patch, even one holding `undefined`,
      replaces the previous value; a key the patch lacks keeps it. */
  function MergeSlot<T>(prev: Slot<T>, patch: Slot<T>): Slot<T>
  {
    if patch.Absent? then prev else patch
  }

  function MergeFilters(prev: Filters, patch: Filters): (r: Filters)
  {
    Filters(
      MergeSlot(prev.theme, patch.theme),
      MergeSlot(prev.scene, patch.scene),
      MergeSlot(prev.ageGroup, patch.ageGroup),
      MergeSlot(prev.language, patch.language),
      MergeSlot(prev.onlyFavorites, patch.onlyFavorites),
      MergeSlot(prev.hasEnglish, patch.hasEnglish),
      MergeSlot(prev.onlyUserGenerated, patch.onlyUserGenerated),
      MergeSlot(prev.searchQuery, patch.searchQuery))
  }
}

=== FILE: user_context.dfy ===
/**
 The user provider: the settings and activity it holds in memory, the
 writes through to the stores that each action makes, and the listener on the
 system colour scheme. Timestamps and the random id suffix are parameters.
 */
module UserContext {
  import opened Types
  import opened Text
  import opened Seqs
  import Storage
  import AffirmationService

  /** The provider's state: the two records in memory, the browser store, the
      `isInitialized` flag and the `dark` class of the document element. */
  datatype User = User(
    settings: UserSettings,
    activity: UserActivity,
    store: Storage.Store,
    initialized: bool,
    darkClass: bool)

  /** Two activity records equal in everything but the time of the last visit. */
  predicate SameActivity(a: UserActivity, b: UserActivity)
  {
    a.(lastVisit := b.lastVisit) == b
  }

  /** Memory agrees with the store: the settings exactly, the activity up to
      the last-visit stamp, which every write takes from its own clock. */
  predicate Synced(u: User)
  {
    Storage.GetSettings(u.store) == u.settings && SameActivity(Storage.GetActivity(u.store), u.activity)
  }

  predicate Writable(st: Storage.Store)
  {
    st.available && st.writable
  }

  // ------------------------------------------------------------ initialisation

  /** The first render reads both stores; the mount effect then migrates,
      reads them again and marks the provider initialised, whatever the
      migration reported. */
  function Initialize(st: Storage.Store, darkClass: bool): (u: User)
    ensures u.initialized && u.darkClass == darkClass
    ensures u.store == Storage.Migrate(st).store
    ensures Synced(u)
    ensures u.settings == Storage.GetSettings(st) && u.activity == Storage.GetActivity(st)
  {
    var st' := Storage.Migrate(st).store;
    assert Storage.GetSettings(st') == Storage.GetSettings(st);
    assert Storage.GetActivity(st') == Storage.GetActivity(st);
    User(Storage.GetSettings(st'), Storage.GetActivity(st'), st', true, darkClass)
  }

  // ------------------------------------------------------------------ settings

  /** `updateSettings(partial)`: the merge is taken over the settings in
      memory, not over the stored ones, and the `dark` class follows a given
      `isDarkMode`. */
  function UpdateSettings(u: User, p: Storage.SettingsPatch): (r: User)
    ensures r.settings == Storage.MergeSettings(u.settings, p)
    ensures r.activity == u.activity && r.initialized == u.initialized
    ensures r.darkClass == (if p.isDarkMode.Some? then p.isDarkMode.value else u.darkClass)
    ensures Writable(u.store) ==> Storage.GetSettings(r.store) == r.settings
    ensures Writable(u.store) ==> Storage.GetActivity(r.store) == Storage.GetActivity(u.store)
    ensures !Writable(u.store) ==> r.store == u.store
  {
    var merged := Storage.MergeSettings(u.settings, p);
    u.(settings := merged, store := Storage.SetSettings(u.store, merged).store,
       darkClass := if p.isDarkMode.Some? then p.isDarkMode.value else u.darkClass)
  }

  /** A settings update on a writable store keeps memory and store in agreement. */
  lemma UpdateSettingsKeepsSynced(u: User, p: Storage.SettingsPatch)
    requires Synced(u) && Writable(u.store)
    ensures Synced(UpdateSettings(u, p))
  {
  }

  /** Whether two reads of the settings return the very same object: a
      record parsed from the store is a new object on every read, while the
      fallback default is one shared object. */
  predicate SameSettingsObjectTwice(st: Storage.Store)
  {
    !(st.available && Storage.SettingsKey in st.entries
      && (st.entries[Storage.SettingsKey].SettingsValue? || st.entries[Storage.SettingsKey].ActivityValue?))
  }

  /** The colour-scheme listener: it compares two reads of the settings with
      `===` and applies the system's scheme only when they are one object. */
  function SystemSchemeChange(u: User, matches: bool): (r: User)
    ensures !u.initialized ==> r == u
    ensures u.initialized && SameSettingsObjectTwice(u.store) ==>
      r == UpdateSettings(u, Storage.EmptySettingsPatch.(isDarkMode := Some(matches)))
    ensures !SameSettingsObjectTwice(u.store) ==> r == u
  {
    if u.initialized && SameSettingsObjectTwice(u.store) then
      UpdateSettings(u, Storage.EmptySettingsPatch.(isDarkMode := Some(matches)))
    else u
  }

  /** Once a settings record has been written, the system's scheme is never
      applied again. */
  lemma SchemeIgnoredAfterSave(u: User, p: Storage.SettingsPatch, matches: bool)
    requires Writable(u.store)
    ensures SystemSchemeChange(UpdateSettings(u, p), matches) == UpdateSettings(u, p)
  {
    var r := UpdateSettings(u, p);
    assert r.store.entries[Storage.SettingsKey].SettingsValue?;
  }

  // ------------------------------------------------------------------ activity

  /** `updateActivity(partial)`: the merge over the activity in memory,
      stamped with `now`, and written whole. */
  function UpdateActivity(u: User, p: Storage.ActivityPatch, now: string): (r: User)
    ensures r.activity == Storage.MergeActivity(u.activity, p, now)
    ensures r.settings == u.settings && r.initialized == u.initialized && r.darkClass == u.darkClass
    ensures Writable(u.store) ==> Storage.GetActivity(r.store) == r.activity
    ensures Writable(u.store) ==> Storage.GetSettings(r.store) == Storage.GetSettings(u.store)
    ensures !Writable(u.store) ==> r.store == u.store
  {
    var merged := Storage.MergeActivity(u.activity, p, now);
    u.(activity := merged, store := Storage.SetActivity(u.store, merged).store)
  }

  /** `addFavorite(id)`: nothing happens when the id is already a favourite;
      otherwise memory and store gain it, and the store's own `addFavorite`
      then finds it there and writes nothing. */
  function AddFavorite(u: User, id: string, now: string, later: string): (r: User)
    ensures id in u.activity.favorites ==> r == u
    ensures id !in u.activity.favorites ==> r.activity.favorites == u.activity.favorites + [id]
    ensures id in r.activity.favorites
    ensures r.activity.likes == u.activity.likes && r.activity.userAffirmations == u.activity.userAffirmations
    ensures r.settings == u.settings
  {
    if id in u.activity.favorites then u
    else
      var v := UpdateActivity(u, Storage.EmptyActivityPatch.(favorites := Some(u.activity.favorites + [id])), now);
      v.(store := Storage.AddFavorite(v.store, id, later).store)
  }

  /** Adding a favourite on a writable store keeps memory and store in agreement. */
  lemma AddFavoriteKeepsSynced(u: User, id: string, now: string, later: string)
    requires Synced(u) && Writable(u.store)
    ensures Synced(AddFavorite(u, id, now, later))
  {
  }

  /** `removeFavorite(id)`: both the context and the store drop every
      occurrence; the second removal finds nothing left to drop. */
  function RemoveFavorite(u: User, id: string, now: string, later: string): (r: User)
    ensures r.activity.favorites == RemoveAll(u.activity.favorites, id)
    ensures id !in r.activity.favorites
    ensures r.activity.likes == u.activity.likes && r.activity.userAffirmations == u.activity.userAffirmations
    ensures r.settings == u.settings
    ensures Writable(u.store) ==> Storage.GetActivity(r.store).favorites == r.activity.favorites
  {
    var v := UpdateActivity(u, Storage.EmptyActivityPatch.(favorites := Some(RemoveAll(u.activity.favorites, id))), now);
    RemoveAllAbsent(v.activity.favorites, id);
    v.(store := Storage.RemoveFavorite(v.store, id, later).store)
  }

  /** Removing a favourite on a writable store keeps memory and store in agreement. */
  lemma RemoveFavoriteKeepsSynced(u: User, id: string, now: string, later: string)
    requires Synced(u) && Writable(u.store)
    ensures Synced(RemoveFavorite(u, id, now, later))
  {
    var v := UpdateActivity(u, Storage.EmptyActivityPatch.(favorites := Some(RemoveAll(u.activity.favorites, id))), now);
    RemoveAllAbsent(v.activity.favorites, id);
  }

  // ---------------------------------------------------------------- likes

  /** `toggleLike(id)` as written: the context toggles the id and writes the
      result, then the store's own `toggleLike` reads that result back and
      toggles it a second time. */
  function ToggleLikeAsWritten(u: User, id: string, now: string, later: string): (r: User)
    ensures r.activity.likes == Storage.ToggleIn(u.activity.likes, id)
    ensures Writable(u.store) ==> Storage.GetActivity(r.store).likes == Storage.ToggleIn(r.activity.likes, id)
  {
    var v := UpdateActivity(u, Storage.EmptyActivityPatch.(likes := Some(Storage.ToggleIn(u.activity.likes, id))), now);
    v.(store := Storage.ToggleLike(v.store, id, later).store)
  }

  /** Liking an unliked item shows it as liked while the store keeps it
      unliked, so the like is gone on the next load. */
  lemma ToggleLikeAsWrittenLosesLike(u: User, id: string, now: string, later: string)
    requires Synced(u) && Writable(u.store) && id !in u.activity.likes
    ensures var r := ToggleLikeAsWritten(u, id, now, later);
      && id in r.activity.likes
      && id !in Storage.GetActivity(r.store).likes
      && Storage.GetActivity(r.store).likes == u.activity.likes
      && !Synced(r)
  {
    Storage.ToggleInTwice(u.activity.likes, id);
  }

  /** `toggleLike(id)` with one toggle: the context's own write is the only one. */
  function ToggleLike(u: User, id: string, now: string): (r: User)
    ensures r.activity.likes == Storage.ToggleIn(u.activity.likes, id)
    ensures id in r.activity.likes <==> id !in u.activity.likes
    ensures r.activity.favorites == u.activity.favorites && r.activity.userAffirmations == u.activity.userAffirmations
    ensures r.settings == u.settings
  {
    UpdateActivity(u, Storage.EmptyActivityPatch.(likes := Some(Storage.ToggleIn(u.activity.likes, id))), now)
  }

  /** The corrected toggle keeps memory and store in agreement, and the store
      ends up holding what the store's own toggle would have written. */
  lemma ToggleLikeKeepsSynced(u: User, id: string, now: string)
    requires Synced(u) && Writable(u.store)
    ensures Synced(ToggleLike(u, id, now))
    ensures Storage.GetActivity(ToggleLike(u, id, now).store)
         == Storage.GetActivity(Storage.ToggleLike(u.store, id, now).store)
  {
  }

  // ---------------------------------------------------- user affirmations

  /** The submitted fields completed with a `user_` id, the time and the
      user-generated mark. */
  function NewAffirmation(data: Affirmation, nowMs: nat, suffix: string, now: string): (a: Affirmation)
    ensures a.isUserGenerated && a.createdAt == now && a.id == AffirmationService.UserItemId(nowMs, suffix)
    ensures a.(id := data.id, createdAt := data.createdAt, isUserGenerated := data.isUserGenerated) == data
  {
    data.(id := AffirmationService.UserItemId(nowMs, suffix), createdAt := now, isUserGenerated := true)
  }

  /** `addUserAffirmation(data)` as written: the context appends and writes,
      then the store's own `addUserAffirmation` appends the same item again. */
  function AddUserAffirmationAsWritten(u: User, a: Affirmation, now: string, later: string): (r: User)
    ensures r.activity.userAffirmations == u.activity.userAffirmations + [a]
    ensures Writable(u.store) ==>
      Storage.GetActivity(r.store).userAffirmations == u.activity.userAffirmations + [a, a]
  {
    var v := UpdateActivity(u, Storage.EmptyActivityPatch.(userAffirmations := Some(u.activity.userAffirmations + [a])), now);
    var r := v.(store := Storage.AddUserAffirmation(v.store, a, later).store);
    assert Writable(u.store) ==> v.activity.userAffirmations + [a] == u.activity.userAffirmations + [a, a];
    r
  }

  /** The stored list holds the new item twice, the list in memory once. */
  lemma AddUserAffirmationAsWrittenDuplicates(u: User, a: Affirmation, now: string, later: string)
    requires Writable(u.store)
    ensures var r := AddUserAffirmationAsWritten(u, a, now, later);
      && Count(Storage.GetActivity(r.store).userAffirmations, a) == Count(r.activity.userAffirmations, a) + 1
      && !Synced(r)
  {
    var r := AddUserAffirmationAsWritten(u, a, now, later);
    var s := u.activity.userAffirmations;
    CountAppend(s + [a], [a], a);
    assert |Storage.GetActivity(r.store).userAffirmations| != |r.activity.userAffirmations|;
  }

  /** `addUserAffirmation(data)` with the context's write as the only one. */
  function AddUserAffirmation(u: User, a: Affirmation, now: string): (r: User)
    ensures r.activity.userAffirmations == u.activity.userAffirmations + [a]
    ensures r.activity.favorites == u.activity.favorites && r.activity.likes == u.activity.likes
    ensures r.settings == u.settings
  {
    UpdateActivity(u, Storage.EmptyActivityPatch.(userAffirmations := Some(u.activity.userAffirmations + [a])), now)
  }

  /** The corrected addition keeps memory and store in agreement: the item is stored once. */
  lemma AddUserAffirmationKeepsSynced(u: User, a: Affirmation, now: string)
    requires Synced(u) && Writable(u.store)
    ensures Synced(AddUserAffirmation(u, a, now))
    ensures Count(Storage.GetActivity(AddUserAffirmation(u, a, now).store).userAffirmations, a)
         == Count(u.activity.userAffirmations, a) + 1
  {
    CountAppend(u.activity.userAffirmations, [a], a);
  }
}

=== FILE: utils.dfy ===
/**
 The pure helpers of the utility module: string helpers (truncate, kebab-case,
 capitalize), array helpers (unique, chunk, shuffle, random), object helpers
 (pick, omit, deep merge) and hex colour parsing with the YIQ darkness test.
 */
module Utils {
  import opened Types
  import opened Text
  import opened Seqs

  // ---------------------------------------------------------------- strings

  /** `truncate(text, maxLength, suffix)` as written: the cut point is
      `maxLength - suffix.length`, which `slice` reads from the END of the text
      when it is negative. */
  function Truncate(text: string, maxLength: int, suffix: string): (r: string)
    ensures |text| <= maxLength ==> r == text
    ensures |text| > maxLength && maxLength >= |suffix| ==>
      |r| == maxLength && r == text[..maxLength - |suffix|] + suffix
  {
    if |text| <= maxLength then text else JsSlice(text, 0, maxLength - |suffix|) + suffix
  }

  /** With a limit below the suffix length the as-written truncation returns a
      string longer than the text it was asked to shorten. */
  lemma TruncateCanGrow()
    ensures Truncate("abcdef", 2, "...") == "abcde..."
    ensures |Truncate("abcdef", 2, "...")| > |"abcdef"|
  {
    assert JsSlice("abcdef", 0, -1) == "abcde";
  }

  /** Truncation with the cut point clamped at the start of the text. */
  function TruncateClamped(text: string, maxLength: int, suffix: string): (r: string)
    ensures |text| <= maxLength ==> r == text
    ensures |text| > maxLength ==> |r| == (if maxLength > |suffix| then maxLength else |suffix|)
    ensures |text| > maxLength ==> |r| - |suffix| <= |text| && r == text[..|r| - |suffix|] + suffix
  {
    if |text| <= maxLength then text
    else
      var cut := if maxLength - |suffix| > 0 then maxLength - |suffix| else 0;
      text[..cut] + suffix
  }

  /** The clamped truncation never exceeds the larger of the limit and the
      suffix, and never returns more than the text plus the suffix. */
  lemma TruncateClampedBounded(text: string, maxLength: int, suffix: string)
    ensures var r := TruncateClamped(text, maxLength, suffix);
      (|r| <= maxLength || |r| <= |suffix|) && |r| <= |text| + |suffix|
  {
  }

  /** The characters `[a-z0-9]` that survive kebab-casing. */
  predicate IsKebabWordChar(c: char)
  {
    'a' <= c <= 'z' || '0' <= c <= '9'
  }

  /** A well-formed kebab-case string. */
  predicate IsKebab(s: string)
  {
    && (forall i :: 0 <= i < |s| ==> IsKebabWordChar(s[i]) || s[i] == '-')
    && (|s| > 0 ==> s[0] != '-' && s[|s| - 1] != '-')
    && (forall i :: 0 <= i < |s| - 1 ==> !(s[i] == '-' && s[i + 1] == '-'))
  }

  /** The characters of `s` that are kebab word characters, in order. */
  function WordChars(s: string): string
  {
    if s == [] then [] else (if IsKebabWordChar(s[0]) then [s[0]] else []) + WordChars(s[1..])
  }

  /** Drop the leading run of separators. */
  function SkipSeparators(s: string): (r: string)
    ensures |r| <= |s| && r == s[|s| - |r|..]
    ensures r == [] || IsKebabWordChar(r[0])
  {
    if s != [] && !IsKebabWordChar(s[0]) then
      var r := SkipSeparators(s[1..]);
      assert s[1..][|s| - 1 - |r|..] == s[|s| - |r|..];
      r
    else s
  }

  /** Skipping separators drops no word character. */
  lemma {:induction false} SkipKeepsWordChars(s: string)
    ensures WordChars(SkipSeparators(s)) == WordChars(s)
    decreases |s|
  {
    if s != [] && !IsKebabWordChar(s[0]) {
      SkipKeepsWordChars(s[1..]);
    }
  }

  /** `s.replace(/[^a-z0-9]+/g, '-')`: each maximal run of other characters
      becomes one dash. */
  function CollapseSeparators(s: string): (r: string)
    ensures forall i :: 0 <= i < |r| ==> IsKebabWordChar(r[i]) || r[i] == '-'
    ensures forall i :: 0 <= i < |r| - 1 ==> !(r[i] == '-' && r[i + 1] == '-')
    ensures r != [] && r[0] == '-' ==> s != [] && !IsKebabWordChar(s[0])
    ensures WordChars(r) == WordChars(s)
    decreases |s|
  {
    if s == [] then []
    else if IsKebabWordChar(s[0]) then
      var t := CollapseSeparators(s[1..]);
      assert ([s[0]] + t)[1..] == t;
      [s[0]] + t
    else
      var rest := SkipSeparators(s[1..]);
      SkipKeepsWordChars(s[1..]);
      var t := CollapseSeparators(rest);
      assert (['-'] + t)[1..] == t;
      ['-'] + t
  }

  /** A run of separators in front of a word character, or of the end, is
      skipped as a whole. */
  lemma {:induction false} SkipRun(sep: string, t: string)
    requires forall i :: 0 <= i < |sep| ==> !IsKebabWordChar(sep[i])
    requires t == [] || IsKebabWordChar(t[0])
    ensures SkipSeparators(sep + t) == t
    decreases |sep|
  {
    var u := sep + t;
    assert forall i :: 0 <= i < |sep| ==> u[i] == sep[i];
    SkipTo(u, |sep|);
    assert u[|sep|..] == t;
  }

  /** Skipping stops at the first word character. */
  lemma {:induction false} SkipTo(u: string, n: nat)
    requires n <= |u|
    requires forall i :: 0 <= i < n ==> !IsKebabWordChar(u[i])
    requires n == |u| || IsKebabWordChar(u[n])
    ensures SkipSeparators(u) == u[n..]
    decreases n
  {
    if n > 0 {
      SkipTo(u[1..], n - 1);
      assert u[1..][n - 1..] == u[n..];
    }
  }

  /** One word character passes through the collapse. */
  lemma CollapseCons(x: char, s: string)
    requires IsKebabWordChar(x)
    ensures CollapseSeparators([x] + s) == [x] + CollapseSeparators(s)
  {
    var u := [x] + s;
    assert u[0] == x && u[1..] == s;
  }

  /** Word characters pass through the collapse unchanged. */
  lemma {:induction false} CollapseWord(w: string, s: string)
    requires forall i :: 0 <= i < |w| ==> IsKebabWordChar(w[i])
    ensures CollapseSeparators(w + s) == w + CollapseSeparators(s)
    decreases |w|
  {
    if w == [] {
      assert w + s == s;
    } else {
      var rest := w[1..] + s;
      assert w + s == [w[0]] + rest;
      CollapseCons(w[0], rest);
      CollapseWord(w[1..], s);
      AppendAssoc([w[0]], w[1..], CollapseSeparators(s));
      assert [w[0]] + w[1..] == w;
    }
  }

  /** A maximal run of separators becomes exactly one dash. */
  lemma CollapseRun(sep: string, t: string)
    requires |sep| > 0
    requires forall i :: 0 <= i < |sep| ==> !IsKebabWordChar(sep[i])
    requires t == [] || IsKebabWordChar(t[0])
    ensures CollapseSeparators(sep + t) == "-" + CollapseSeparators(t)
  {
    var u := sep + t;
    assert u[0] == sep[0] && u[1..] == sep[1..] + t;
    SkipRun(sep[1..], t);
    CollapseSeparator(u);
  }

  /** One step of the collapse at a separator. */
  lemma CollapseSeparator(u: string)
    requires u != [] && !IsKebabWordChar(u[0])
    ensures CollapseSeparators(u) == "-" + CollapseSeparators(SkipSeparators(u[1..]))
  {
  }

  /** A word, a separator run and the rest: the run turns into one dash
      between the word and the collapsed rest. */
  lemma CollapseWordRun(w: string, sep: string, t: string)
    requires forall i :: 0 <= i < |w| ==> IsKebabWordChar(w[i])
    requires |sep| > 0
    requires forall i :: 0 <= i < |sep| ==> !IsKebabWordChar(sep[i])
    requires t == [] || IsKebabWordChar(t[0])
    ensures CollapseSeparators(w + sep + t) == w + "-" + CollapseSeparators(t)
  {
    CollapseWord(w, sep + t);
    CollapseRun(sep, t);
    AppendAssoc(w, sep, t);
    AppendAssoc(w, "-", CollapseSeparators(t));
  }

  /** `.replace(/(^-|-$)/g, '')`: one leading and one trailing dash removed. */
  function StripDashes(s: string): (r: string)
  {
    var t := if |s| > 0 && s[0] == '-' then s[1..] else s;
    if |t| > 0 && t[|t| - 1] == '-' then t[..|t| - 1] else t
  }

  /** `toKebabCase`: lower-case, collapse separator runs to '-', strip the ends. */
  function ToKebabCase(s: string): (r: string)
    ensures IsKebab(r)
    ensures WordChars(r) == WordChars(Lower(s))
  {
    var c := CollapseSeparators(Lower(s));
    StripKebab(c);
    StripWordChars(c);
    StripDashes(c)
  }

  /** Stripping the end dashes of a collapsed string leaves kebab case. */
  lemma StripKebab(c: string)
    requires forall i :: 0 <= i < |c| ==> IsKebabWordChar(c[i]) || c[i] == '-'
    requires forall i :: 0 <= i < |c| - 1 ==> !(c[i] == '-' && c[i + 1] == '-')
    ensures IsKebab(StripDashes(c))
  {
    var t := if |c| > 0 && c[0] == '-' then c[1..] else c;
    assert |t| > 0 ==> t[0] != '-';
  }

  lemma StripWordChars(c: string)
    ensures WordChars(StripDashes(c)) == WordChars(c)
  {
    var t := if |c| > 0 && c[0] == '-' then c[1..] else c;
    if |c| > 0 && c[0] == '-' {
      assert c == ['-'] + t;
    }
    if |t| > 0 && t[|t| - 1] == '-' {
      WordCharsAppend(t[..|t| - 1], ['-']);
      assert t[..|t| - 1] + ['-'] == t;
    }
  }

  lemma {:induction false} WordCharsAppend(a: string, b: string)
    ensures WordChars(a + b) == WordChars(a) + WordChars(b)
    decreases |a|
  {
    if a == [] {
      assert a + b == b;
    } else {
      WordCharsAppend(a[1..], b);
      WordCharsConsAppend(a[0], a[1..], b);
      assert a == [a[0]] + a[1..];
    }
  }

  /** One step of the induction above. */
  lemma WordCharsConsAppend(c: char, t: string, b: string)
    requires WordChars(t + b) == WordChars(t) + WordChars(b)
    ensures WordChars([c] + t + b) == WordChars([c] + t) + WordChars(b)
  {
    AppendAssoc([c], t, b);
    assert ([c] + (t + b))[1..] == t + b;
    assert ([c] + t)[1..] == t;
    AppendAssoc(if IsKebabWordChar(c) then [c] else [], WordChars(t), WordChars(b));
  }

  /** Two lower-case words joined by any run of characters that are not
      word characters even after lower-casing come out joined by one dash. */
  lemma KebabJoinsWords(w: string, sep: string, t: string)
    requires |w| > 0 && forall i :: 0 <= i < |w| ==> IsKebabWordChar(w[i])
    requires |t| > 0 && forall i :: 0 <= i < |t| ==> IsKebabWordChar(t[i])
    requires |sep| > 0 && forall i :: 0 <= i < |sep| ==> !IsKebabWordChar(LowerChar(sep[i]))
    ensures ToKebabCase(w + sep + t) == w + "-" + t
  {
    var ls := Lower(sep);
    LowerJoin(w, sep, t);
    CollapseWordRun(w, ls, t);
    CollapseWord(t, []);
    assert t + [] == t;
    StripDashesInner(w + "-" + t);
  }

  /** Lower-casing leaves word characters alone. */
  lemma LowerJoin(w: string, sep: string, t: string)
    requires forall i :: 0 <= i < |w| ==> IsKebabWordChar(w[i])
    requires forall i :: 0 <= i < |t| ==> IsKebabWordChar(t[i])
    ensures Lower(w + sep + t) == w + Lower(sep) + t
  {
    var x, y := Lower(w + sep + t), w + Lower(sep) + t;
    assert |x| == |y|;
    forall i | 0 <= i < |x| ensures x[i] == y[i] {
      if i < |w| {
        assert (w + sep + t)[i] == w[i];
      } else if i < |w| + |sep| {
        assert (w + sep + t)[i] == sep[i - |w|];
      } else {
        assert (w + sep + t)[i] == t[i - |w| - |sep|];
      }
    }
  }

  /** Without a dash at either end there is nothing to strip. */
  lemma StripDashesInner(c: string)
    requires |c| > 0 && c[0] != '-' && c[|c| - 1] != '-'
    ensures StripDashes(c) == c
  {
  }

  /** A kebab-case string is its own kebab case. */
  lemma KebabFixpoint(s: string)
    requires IsKebab(s)
    ensures ToKebabCase(s) == s
  {
    LowerKebab(s);
    CollapseKebab(s);
    assert StripDashes(CollapseSeparators(Lower(s))) == s;
  }

  lemma LowerKebab(s: string)
    requires forall i :: 0 <= i < |s| ==> IsKebabWordChar(s[i]) || s[i] == '-'
    ensures Lower(s) == s
  {
  }

  lemma {:induction false} CollapseKebab(s: string)
    requires forall i :: 0 <= i < |s| ==> IsKebabWordChar(s[i]) || s[i] == '-'
    requires forall i :: 0 <= i < |s| - 1 ==> !(s[i] == '-' && s[i + 1] == '-')
    requires |s| > 0 ==> s[|s| - 1] != '-'
    ensures CollapseSeparators(s) == s
    decreases |s|
  {
    if s != [] {
      CollapseKebab(s[1..]);
      if !IsKebabWordChar(s[0]) {
        assert IsKebabWordChar(s[1]);
        assert SkipSeparators(s[1..]) == s[1..];
      }
      assert s == [s[0]] + s[1..];
    }
  }

  /** `capitalize`: upper-case the first character (ASCII letters only). */
  function Capitalize(s: string): (r: string)
    ensures |r| == |s|
    ensures |s| > 0 ==> r[0] == UpperChar(s[0]) && r[1..] == s[1..]
  {
    if s == [] then [] else [UpperChar(s[0])] + s[1..]
  }

  // ----------------------------------------------------------------- arrays

  /** `[...new Set(s)]`: the first occurrence of every element, in order. */
  function Dedup<T(==)>(s: seq<T>): (r: seq<T>)
  {
    if s == [] then []
    else
      var d := Dedup(s[..|s| - 1]);
      if s[|s| - 1] in d then d else d + [s[|s| - 1]]
  }

  /** Deduplication keeps exactly the elements of the input. */
  lemma {:induction false} DedupElements<T>(s: seq<T>)
    ensures forall i :: 0 <= i < |Dedup(s)| ==> Dedup(s)[i] in s
    ensures forall i :: 0 <= i < |s| ==> s[i] in Dedup(s)
    decreases |s|
  {
    if s != [] {
      var p := s[..|s| - 1];
      DedupElements(p);
      var d := Dedup(p);
      forall i | 0 <= i < |Dedup(s)| ensures Dedup(s)[i] in s {
        if i < |d| { assert d[i] in p; }
      }
      forall i | 0 <= i < |s| ensures s[i] in Dedup(s) {
        if i < |p| { assert s[i] == p[i]; }
      }
    }
  }

  /** Deduplication leaves no element twice. */
  lemma {:induction false} DedupNoDuplicates<T>(s: seq<T>)
    ensures NoDuplicates(Dedup(s))
    decreases |s|
  {
    if s != [] {
      DedupNoDuplicates(s[..|s| - 1]);
    }
  }

  /** Deduplication lists elements in the order of their first occurrence. */
  lemma {:induction false} DedupOrder<T>(s: seq<T>)
    ensures forall i, j :: 0 <= i < j < |Dedup(s)| ==> FirstIndex(s, Dedup(s)[i]) < FirstIndex(s, Dedup(s)[j])
    decreases |s|
  {
    if s != [] {
      var p := s[..|s| - 1];
      var x := s[|s| - 1];
      DedupOrder(p);
      DedupElements(p);
      var d := Dedup(p);
      forall y | y in p ensures FirstIndex(s, y) == FirstIndex(p, y) < |p| {
        FirstIndexPrefix(s, p, y);
      }
      assert FirstIndex(s, x) == |s| - 1 || x in p by {
        assert s[..|s| - 1] == p;
      }
      var r := Dedup(s);
      forall i, j | 0 <= i < j < |r| ensures FirstIndex(s, r[i]) < FirstIndex(s, r[j]) {
        assert r == (if x in d then d else d + [x]);
        assert r[i] == d[i] && d[i] in p;
        assert FirstIndex(s, d[i]) == FirstIndex(p, d[i]) < |p|;
        if j < |d| {
          assert r[j] == d[j] && d[j] in p;
          assert FirstIndex(p, d[i]) < FirstIndex(p, d[j]);
        } else {
          assert r[j] == x && x !in p;
        }
      }
    }
  }

  lemma {:induction false} FirstIndexPrefix<T>(s: seq<T>, p: seq<T>, y: T)
    requires p <= s && y in p
    ensures FirstIndex(s, y) == FirstIndex(p, y)
    decreases |p|
  {
    if p[0] != y {
      assert p[1..] <= s[1..];
      FirstIndexPrefix(s[1..], p[1..], y);
    }
  }

  /** `unique(array)`: keeps the first occurrence of each element, in order. */
  method Unique<T(==)>(s: seq<T>) returns (r: seq<T>)
    ensures NoDuplicates(r)
    ensures forall i :: 0 <= i < |r| ==> r[i] in s
    ensures forall i :: 0 <= i < |s| ==> s[i] in r
    ensures forall i, j :: 0 <= i < j < |r| ==> FirstIndex(s, r[i]) < FirstIndex(s, r[j])
  {
    r := [];
    var seen: set<T> := {};
    var i := 0;
    while i < |s|
      invariant 0 <= i <= |s|
      invariant r == Dedup(s[..i])
      invariant forall x :: x in seen <==> x in r
    {
      assert s[..i + 1][..i] == s[..i];
      if s[i] !in seen {
        r := r + [s[i]];
        seen := seen + {s[i]};
      }
      i := i + 1;
    }
    assert s[..|s|] == s;
    DedupElements(s);
    DedupNoDuplicates(s);
    DedupOrder(s);
  }

  /** `chunk(array, size)`: consecutive slices of `size` elements, the last
      one possibly shorter. */
  method Chunk<T>(s: seq<T>, size: int) returns (chunks: seq<seq<T>>)
    requires size > 0
    ensures Flatten(chunks) == s
    ensures forall k :: 0 <= k < |chunks| - 1 ==> |chunks[k]| == size
    ensures |chunks| > 0 ==> 1 <= |chunks[|chunks| - 1]| <= size
    ensures |chunks| == 0 <==> |s| == 0
  {
    chunks := [];
    var i := 0;
    while i < |s|
      invariant 0 <= i
      invariant i < |s| ==> |Flatten(chunks)| == i && (forall k :: 0 <= k < |chunks| ==> |chunks[k]| == size)
      invariant Flatten(chunks) == s[..if i < |s| then i else |s|]
      invariant forall k :: 0 <= k < |chunks| - 1 ==> |chunks[k]| == size
      invariant |chunks| > 0 ==> 1 <= |chunks[|chunks| - 1]| <= size
      invariant |chunks| == 0 <==> i == 0
      decreases |s| - i
    {
      var c := JsSlice(s, i, i + size);
      assert c == s[i..if i + size < |s| then i + size else |s|];
      FlattenAppend(chunks, c);
      chunks := chunks + [c];
      i := i + size;
    }
    assert s[..|s|] == s;
  }

  lemma {:induction false} FlattenAppend<T>(ss: seq<seq<T>>, c: seq<T>)
    ensures Flatten(ss + [c]) == Flatten(ss) + c
    decreases |ss|
  {
    if ss == [] {
      assert [] + [c] == [c];
    } else {
      assert (ss + [c])[1..] == ss[1..] + [c];
      FlattenAppend(ss[1..], c);
    }
  }

  /** `shuffle(array)`: Fisher–Yates from the last index down, where
      `draws[k]` is the k-th `Math.random()` value consumed. */
  method Shuffle<T>(s: seq<T>, draws: seq<Draw>) returns (r: seq<T>)
    requires |draws| + 1 >= |s|
    ensures |r| == |s|
    ensures multiset(r) == multiset(s)
  {
    r := s;
    var i := |s| - 1;
    while i > 0
      invariant -1 <= i < |s| || |s| == 0
      invariant |r| == |s|
      invariant multiset(r) == multiset(s)
    {
      var j := RandomIndex(draws[|s| - 1 - i], i + 1);
      r := r[i := r[j]][j := r[i]];
      i := i - 1;
    }
  }

  /** `random(array)`: `undefined` for an empty array, otherwise the element the draw selects. */
  function RandomElement<T>(s: seq<T>, u: Draw): (r: Option<T>)
    ensures r.None? <==> |s| == 0
    ensures r.Some? ==> r.value in s
  {
    if |s| == 0 then None else Some(s[RandomIndex(u, |s|)])
  }

  // ---------------------------------------------------------------- objects

  /** `pick(obj, keys)`: the listed keys that `obj` has, with their values. */
  function Pick<V>(obj: map<string, V>, keys: seq<string>): (r: map<string, V>)
    ensures r.Keys == obj.Keys * (set k | k in keys)
    ensures forall k :: k in r ==> r[k] == obj[k]
  {
    if keys == [] then map[]
    else
      var rest := Pick(obj, keys[1..]);
      if keys[0] in obj then rest[keys[0] := obj[keys[0]]] else rest
  }

  /** `omit(obj, keys)`: a copy of `obj` without the listed keys. */
  function Omit<V>(obj: map<string, V>, keys: seq<string>): (r: map<string, V>)
    ensures r.Keys == obj.Keys - (set k | k in keys)
    ensures forall k :: k in r ==> r[k] == obj[k]
  {
    if keys == [] then obj else Omit(obj - {keys[0]}, keys[1..])
  }

  /** What `pick` keeps and what `omit` keeps split the object in two. */
  lemma PickOmitPartition<V>(obj: map<string, V>, keys: seq<string>)
    ensures Pick(obj, keys).Keys !! Omit(obj, keys).Keys
    ensures Pick(obj, keys) + Omit(obj, keys) == obj
  {
  }

  /** A JSON-like value. */
  datatype JsValue =
    | JsUndefined
    | JsNull
    | JsBool(b: bool)
    | JsNumber(n: int)
    | JsString(s: string)
    | JsArray(elems: seq<JsValue>)
    | JsObject(fields: map<string, JsValue>)

  predicate Truthy(v: JsValue)
  {
    match v
    case JsUndefined => false
    case JsNull => false
    case JsBool(b) => b
    case JsNumber(n) => n != 0
    case JsString(s) => s != []
    case _ => true
  }

  /** The index-keyed entries `{ ...array }` or `{ ...string }` produce. */
  function IndexEntries(vs: seq<JsValue>): (m: map<string, JsValue>)
    decreases |vs|
  {
    if vs == [] then map[] else IndexEntries(vs[..|vs| - 1])[NatToString(|vs| - 1) := vs[|vs| - 1]]
  }

  /** `{ ...v }`: the own enumerable entries of `v`. */
  function SpreadEntries(v: JsValue): map<string, JsValue>
  {
    match v
    case JsObject(f) => f
    case JsArray(e) => IndexEntries(e)
    case JsString(s) => IndexEntries(seq(|s|, i requires 0 <= i < |s| => JsString([s[i]])))
    case _ => map[]
  }

  /** `result[key] || {}` for the key being merged. */
  function MergeBase(target: map<string, JsValue>, k: string): map<string, JsValue>
  {
    if k in target && Truthy(target[k]) then SpreadEntries(target[k]) else map[]
  }

  /** `deepMerge(target, source)`: source values overwrite, except that a plain
      object in the source is merged recursively into the target's value. */
  function DeepMerge(target: map<string, JsValue>, source: map<string, JsValue>): (r: map<string, JsValue>)
    ensures r.Keys == target.Keys + source.Keys
    ensures forall k :: k in target && k !in source ==> r[k] == target[k]
    ensures forall k :: k in source && !source[k].JsObject? ==> r[k] == source[k]
    ensures forall k :: k in source && source[k].JsObject? ==>
      r[k].JsObject? && r[k].fields.Keys == MergeBase(target, k).Keys + source[k].fields.Keys
    ensures forall k :: k in source && source[k].JsObject? ==>
      r[k] == JsObject(DeepMerge(MergeBase(target, k), source[k].fields))
    decreases JsObject(source)
  {
    map k | k in target.Keys + source.Keys ::
      if k in source then
        (if source[k].JsObject? then JsObject(DeepMerge(MergeBase(target, k), source[k].fields)) else source[k])
      else target[k]
  }

  /** Merging an empty source copies the target. */
  lemma DeepMergeEmpty(target: map<string, JsValue>)
    ensures DeepMerge(target, map[]) == target
  {
  }

  /** Without nested objects in the source, the deep merge is the shallow `{ ...t, ...s }`. */
  lemma DeepMergeFlat(target: map<string, JsValue>, source: map<string, JsValue>)
    requires forall k :: k in source ==> !source[k].JsObject?
    ensures DeepMerge(target, source) == target + source
  {
  }

  /** Under a key holding a plain object in the source, the result holds the
      source's non-object values and keeps the target's other entries. */
  lemma DeepMergeNested(target: map<string, JsValue>, source: map<string, JsValue>, k: string)
    requires k in source && source[k].JsObject?
    ensures var inner := DeepMerge(target, source)[k].fields;
      && (forall j :: j in source[k].fields && !source[k].fields[j].JsObject? ==> inner[j] == source[k].fields[j])
      && (forall j :: j in MergeBase(target, k) && j !in source[k].fields ==> inner[j] == MergeBase(target, k)[j])
  {
  }

  /** The value reached by following `path` through nested objects. */
  function At(m: map<string, JsValue>, path: seq<string>): Option<JsValue>
    decreases |path|
  {
    if path == [] || path[0] !in m then None
    else if |path| == 1 then Some(m[path[0]])
    else if m[path[0]].JsObject? then At(m[path[0]].fields, path[1..])
    else None
  }

  /** Every value of the source that is not a plain object lands at its own
      path in the result, however deep it sits. */
  lemma {:induction false} DeepMergeLeaf(target: map<string, JsValue>, source: map<string, JsValue>,
                                         path: seq<string>)
    requires At(source, path).Some? && !At(source, path).value.JsObject?
    ensures At(DeepMerge(target, source), path) == At(source, path)
    decreases |path|
  {
    var k := path[0];
    if |path| > 1 {
      DeepMergeLeaf(MergeBase(target, k), source[k].fields, path[1..]);
    }
  }

  /** Merging the same source a second time changes nothing. */
  lemma {:induction false} DeepMergeIdempotent(target: map<string, JsValue>, source: map<string, JsValue>)
    ensures DeepMerge(DeepMerge(target, source), source) == DeepMerge(target, source)
    decreases JsObject(source)
  {
    var r := DeepMerge(target, source);
    var r2 := DeepMerge(r, source);
    forall k | k in r2.Keys ensures r2[k] == r[k] {
      if k in source && source[k].JsObject? {
        DeepMergeIdempotent(MergeBase(target, k), source[k].fields);
        DeepMergeIdempotentAt(target, source, k);
      }
    }
    assert r2.Keys == r.Keys;
  }

  /** The step of the induction above at one nested key. */
  lemma DeepMergeIdempotentAt(target: map<string, JsValue>, source: map<string, JsValue>, k: string)
    requires k in source && source[k].JsObject?
    requires var inner := DeepMerge(MergeBase(target, k), source[k].fields);
      DeepMerge(inner, source[k].fields) == inner
    ensures DeepMerge(DeepMerge(target, source), source)[k] == DeepMerge(target, source)[k]
  {
    var r := DeepMerge(target, source);
    var inner := DeepMerge(MergeBase(target, k), source[k].fields);
    assert r[k] == JsObject(inner);
    assert MergeBase(r, k) == inner;
  }

  // ----------------------------------------------------------------- colour

  datatype Rgb = Rgb(r: nat, g: nat, b: nat)

  /** `[a-f\d]` under the `i` flag. */
  predicate IsHexDigit(c: char)
  {
    '0' <= c <= '9' || 'a' <= c <= 'f' || 'A' <= c <= 'F'
  }

  function HexValue(c: char): (d: nat)
    requires IsHexDigit(c)
    ensures d < 16
  {
    if '0' <= c <= '9' then c as int - '0' as int
    else if 'a' <= c <= 'f' then c as int - 'a' as int + 10
    else c as int - 'A' as int + 10
  }

  /** `parseInt(pair, 16)` for two hex digits. */
  function PairValue(s: string, i: nat): (v: nat)
    requires i + 2 <= |s| && IsHexDigit(s[i]) && IsHexDigit(s[i + 1])
    ensures v < 256
  {
    16 * HexValue(s[i]) + HexValue(s[i + 1])
  }

  /** The digits after the optional '#'. */
  function HexBody(hex: string): string
  {
    if |hex| > 0 && hex[0] == '#' then hex[1..] else hex
  }

  /** The text matches `^#?([a-f\d]{2})([a-f\d]{2})([a-f\d]{2})$` (case-insensitive). */
  predicate IsHexColour(hex: string)
  {
    var d := HexBody(hex);
    |d| == 6 && forall i :: 0 <= i < 6 ==> IsHexDigit(d[i])
  }

  /** The three channels of a hex colour, or `None` when the pattern does not match. */
  function ParseHex(hex: string): (c: Option<Rgb>)
    ensures c.Some? <==> IsHexColour(hex)
    ensures c.Some? ==> c.value.r < 256 && c.value.g < 256 && c.value.b < 256
  {
    if IsHexColour(hex) then
      var d := HexBody(hex);
      Some(Rgb(PairValue(d, 0), PairValue(d, 2), PairValue(d, 4)))
    else None
  }

  /** `hexToRgba(hex, alpha)`; `alphaText` is how the alpha number prints. */
  function HexToRgba(hex: string, alphaText: string): (r: Option<string>)
    ensures r.Some? <==> IsHexColour(hex)
  {
    match ParseHex(hex)
    case None => None
    case Some(c) =>
      Some("rgba(" + NatToString(c.r) + ", " + NatToString(c.g) + ", " + NatToString(c.b) + ", " + alphaText + ")")
  }

  /** The `rgba(...)` text of three bytes spelled `#rrggbb` prints the bytes
      back in decimal, followed by the alpha. */
  lemma HexToRgbaOfBytes(r: nat, g: nat, b: nat, alphaText: string)
    requires r < 256 && g < 256 && b < 256
    ensures HexToRgba("#" + ByteHex(r) + ByteHex(g) + ByteHex(b), alphaText)
      == Some("rgba(" + NatToString(r) + ", " + NatToString(g) + ", " + NatToString(b) + ", " + alphaText + ")")
  {
    HexRoundTrip(r, g, b);
  }

  /** `isDark(hex)`, kept in integers: the YIQ sum below 128 * 1000. */
  function IsDark(hex: string): (dark: bool)
    ensures dark ==> IsHexColour(hex)
  {
    match ParseHex(hex)
    case None => false
    case Some(c) => 299 * c.r + 587 * c.g + 114 * c.b < 128000
  }

  /** The integer test agrees with the source's real-valued `yiq / 1000 < 128`. */
  lemma IsDarkIsYiq(hex: string)
    requires IsHexColour(hex)
    ensures var c := ParseHex(hex).value;
      IsDark(hex) <==> ((299 * c.r + 587 * c.g + 114 * c.b) as real / 1000.0 < 128.0)
  {
  }

  function HexDigitChar(d: nat): (c: char)
    requires d < 16
    ensures IsHexDigit(c) && HexValue(c) == d
  {
    "0123456789abcdef"[d]
  }

  /** Two lower-case hex digits for a byte. */
  function ByteHex(v: nat): (s: string)
    requires v < 256
    ensures |s| == 2 && IsHexDigit(s[0]) && IsHexDigit(s[1]) && PairValue(s, 0) == v
  {
    [HexDigitChar(v / 16), HexDigitChar(v % 16)]
  }

  /** Parsing the `#rrggbb` spelling of three bytes gives the bytes back. */
  lemma HexRoundTrip(r: nat, g: nat, b: nat)
    requires r < 256 && g < 256 && b < 256
    ensures ParseHex("#" + ByteHex(r) + ByteHex(g) + ByteHex(b)) == Some(Rgb(r, g, b))
  {
    var hex := "#" + ByteHex(r) + ByteHex(g) + ByteHex(b);
    var d := HexBody(hex);
    assert d == ByteHex(r) + ByteHex(g) + ByteHex(b);
    assert d[0..2] == ByteHex(r) && d[2..4] == ByteHex(g) && d[4..6] == ByteHex(b);
    assert PairValue(d, 0) == PairValue(ByteHex(r), 0);
    assert PairValue(d, 2) == PairValue(ByteHex(g), 0);
    assert PairValue(d, 4) == PairValue(ByteHex(b), 0);
  }
}
